=== FILE: README.md ===
# homework-mini: the decision core, modelled in Dafny

homework-mini is a Python tool that builds Hugging Face datasets and Neo4j
knowledge graphs from GitHub repositories and web crawls. Most of it is glue
around vendor APIs. Between those calls sit small, deterministic decision
procedures, and this project models them as pure Dafny functions:

- **Task lifecycles.** Background agent tasks, the scheduled `update` run, the
  `/tasks/manage` endpoint, the chat `task` command and the resume picker.
  Each caller is modelled as the trace of task-tracker calls it emits
  (`Tracker.Call`).
- **Request gates and dispatchers.** The sliding-window rate limiter, the
  Bearer API-key check (section 2.1 of RFC 6750), the chat message router
  and command parser, and the numbered main menu.
- **Credentials.** The precedence chains of the credentials manager: process
  environment, loaded environment, keyring, configuration file and `.env`.
  Also covered: keyring fallback on save, the redacted log copy, and the
  configuration-file fallback.
- **The `.env` updater.** `update_env_file` and the choice of which fields
  `update_configuration` writes.
- **Graph post-processing.** Backtick stripping, the JSON span of LLM output,
  entity and relationship filtering, property cleanup, primary type, and
  concept-map aggregation.
- **LLM client helpers.** Key masking, tool selection, tool-argument checks,
  crawl summaries, the guards in front of each agent run, progress tickers
  and the HTTP-status-to-text mapping.
- **The ReAct agent graph and the two AI assistants.** Configuration defaults,
  the last-step rule, routing, final-answer choice, keyword routing and the
  command-line conversation history.
- **Interactive flows.** The TUI setup wizard, and the command-line
  configuration and "dataset from GitHub" flows.

The task tracker itself (`utils/task_tracker.py`) is not part of this model.
`Tracker.Apply` gives each call the effect its interface documents:
- `update_task` changes only the fields it is given;
- `update_task_progress` changes only the progress;
- `complete_task` sets completed at 100 or failed;
- `cancel_task` succeeds only for a queued or running task.

Lemmas about lifecycles replay a caller's trace through `Tracker.Replay`.

Files, one module each: `wrappers.dfy` (Option/Result), `text.dfy` (ASCII
`lower`/`upper`/`strip`/`title`, `split`, Python `int()` and `str()`),
`json.dfy` (JSON values and dictionary access), `tracker.dfy`,
`agent_routes.dfy`, `update_command.dfy` (main.py), `rate_limit.dfy` and
`api_server.dfy` (api/server.py), `chat_handler.dfy`, `resume_task.dfy`,
`main_menu.dfy`, `credentials.dfy`, `env_file.dfy`, `config_handler.dfy`,
`graph_store.dfy`, `llm_client.dfy`, `agent_graph.dfy` (ai/agent.py),
`assistant.dfy` (ai/assistant.py and cli/ai_assistant.py), `wizard.dfy`
(ui/configuration.py), `cli_config.dfy` (cli/configuration.py) and
`github_flow.dfy` (cli/github_dataset.py).

## Model

| member | source | states |
|---|---|---|
| Tracker.Apply | api/agent_routes.py:264-349 | The assumed tracker semantics. A call for another task changes nothing. `update_task` changes only the fields it is given. A progress report never changes status or result. `complete_task` ends completed at 100 on success and failed with unchanged progress otherwise. `cancel_task` works only on a task in flight. |
| Tracker.TerminalIsStable | main.py:91-124 | Once a task is completed, failed or cancelled, later progress reports and cancel requests cannot bring it back in flight. |
| AgentRoutes.AdoptKey | api/agent_routes.py:125-130 | A key sent with the request is adopted only when the client has none; an existing key is never overwritten. |
| AgentRoutes.CreateAgentTask | api/agent_routes.py:132-172 | A task is accepted exactly when its type is web, github, knowledge_graph or custom. An unknown type is a 400 and records nothing. An accepted task is recorded once as queued, with its message, and reported back as "queued". |
| AgentRoutes.RunFor | api/agent_routes.py:283-322 | Every valid task type, and only those, selects an agent run carrying the user's message; a web run defaults to depth 3. |
| AgentRoutes.Provided | api/agent_routes.py:301-318 | An option absent from the request gets its default; an explicit null is passed on as "leave unchanged". |
| AgentRoutes.ProgressCall | api/agent_routes.py:275-280 | A progress report changes only progress and message, never the status. The message defaults to "Processing: N% complete". |
| AgentRoutes.ProgressCalls | api/agent_routes.py:275-280 | One tracker update per progress report, in order. |
| AgentRoutes.StartCall | api/agent_routes.py:266-272 | Processing starts by marking the task running. |
| AgentRoutes.FinalCall | api/agent_routes.py:324-360 | The closing update always sets a terminal status. An exception sets failed with an `{"error": ...}` result and leaves progress alone. A structured result with a truthy success sets completed at 100, and a falsy one sets failed; either way the result is its "data", `{}` when absent. Any other result sets completed at 100 with `{"response": result}`. |
| AgentRoutes.ProcessAgentTask | api/agent_routes.py:243-360 | The trace starts with "running". Every call updates this task only. No call between the first and the last sets a status. The last call sets a terminal one. |
| AgentRoutes.RunCalls | api/agent_routes.py:264-349 | A run that starts emits the start, one update per progress report, and the closing call, in that order. |
| AgentRoutes.ProgressKeepsRunning | api/agent_routes.py:275-280 | Replaying progress updates never changes the status; the progress ends at the last reported percent. |
| AgentRoutes.AgentTaskLifecycle | api/agent_routes.py:324-360 | Replaying a task's trace on a queued record gives the status the route promises. A success, or a result without a success flag, ends completed at 100. A falsy success or an unknown type ends failed. An exception ends failed with the error as result. A structured result leaves its "data" as the stored result, and any other result is stored as `{"response": result}`. |
| AgentRoutes.FailureFreezesProgress | api/agent_routes.py:334-360 | A run that ends failed, by an exception or by a falsy success, leaves progress at the last reported percentage, or at 0 when nothing was reported. |
| AgentRoutes.GetTaskStatus | api/agent_routes.py:175-199 | A missing or empty record is a 404. A record without a status reads "unknown". Otherwise the response carries the record's own status. |
| AgentRoutes.CancelAgentTask | api/agent_routes.py:202-221 | The endpoint answers 404 exactly when the tracker refuses, and success otherwise. |
| AgentRoutes.CancelEndpointMatchesTracker | api/agent_routes.py:210-216 | Against the tracker's documented behaviour, cancelling succeeds exactly for tasks in flight. Those end cancelled; a refused cancel leaves the record untouched. |
| UpdateCommand.ReportedProgress | main.py:91-106 | Only the progress reports made before cancellation was observed reach the tracker, in order and unchanged. |
| UpdateCommand.RunUpdate | main.py:26-146 | Exit code 0 means: setup succeeded, a token and URL were present, no interrupt happened, and the dataset call reported success. A missing Hugging Face token exits 1 with no tracker call. A missing URL exits 1 with no call. The run escapes with an unbound task id exactly when a constructor raised. A task is created only when no id was given, and only as the first call. A raised or unsuccessful dataset call ends with a failed completion whose result is `{"error": ...}`, "Unknown error" when no message came back. A later setup fault fails a given task with its error. |
| UpdateCommand.MainExitCode | main.py:215-238 | `main()` exits with 0 or 1 only, passing run_update's own code through. |
| UpdateCommand.NoProgressAfterCancellation | main.py:91-106 | Every progress update in the trace is one of the reports made before the cancellation point. |
| UpdateCommand.UpdateLeavesTaskTerminal | main.py:83-146 | When setup succeeds and a token, a URL and a task id are present, the task ends terminal. It ends completed (at 100) exactly when the run exits 0. It ends cancelled exactly when the dataset call returned and an interrupt was observed. |
| UpdateCommand.InstallHandlers | main.py:170-175 | Handlers for SIGINT and SIGTERM are installed, and no request is pending yet. |
| UpdateCommand.Deliver | main.py:151-165 | A handled signal sets both the cancellation event and the exit request, then restores the default handler for that signal. An unhandled signal gets the default action. |
| UpdateCommand.HandledAtMostOnce | main.py:151-175 | Over any sequence of signals, each handler fires at most once. Requests once set stay set. Any handled signal sets both requests. |
| RateLimit.Recent | api/server.py:70-73 | The pruned list holds exactly the stored timestamps t with now - t < window, each as many times as it was stored, so its length is the number of in-window requests. Nothing is dropped exactly when every timestamp is in the window. |
| RateLimit.Prune | api/server.py:70-73 | The pruning loop computes exactly that window. |
| RateLimit.Dispatch | api/server.py:60-93 | A request is refused with 429 exactly when the pruned list already holds max_requests entries. A refusal records nothing new. An admission appends exactly the current time and reports limit, a remaining count in [0, limit) and the reset time. Only the requesting client's entry changes. |
| RateLimit.RecentOfRecent | api/server.py:70-73 | Pruning at an earlier time and then at a later one equals pruning once at the later time. |
| RateLimit.StepKeepsConsistent | api/server.py:66-85 | One request keeps the invariant: the stored list is exactly the client's admitted requests inside the window, and never longer than the limit. |
| RateLimit.SlidingWindowBound | api/server.py:76-90 | Over any time-ordered request sequence, no client ever has more than max_requests admitted requests inside one window. |
| ApiServer.VerifyApiKey | api/server.py:219-236 | No configured key is a 500. A presented token that differs is a 401. A match returns the token. |
| ApiServer.CountActive | api/server.py:269-270 | The active count never exceeds the number of listed tasks. It equals the total exactly when every task is active, and is 0 exactly when none is. |
| ApiServer.CountActiveAppend | api/server.py:269-270 | Counting in listing order: one more task adds one exactly when its status is not terminal. |
| ApiServer.ServerStatus | api/server.py:260-282 | Without a Hugging Face token, "huggingface_token" is the one missing configuration. The total is the listing's length and the active count is the number of non-terminal tasks: it equals the total exactly when all are active, and is 0 exactly when none is. |
| ApiServer.ResumableAreActive | api/server.py:269-282 | Since only queued and running tasks are listed as resumable, the active and total counts agree. |
| ApiServer.ManageTasks | api/server.py:1032-1100 | "list" calls the tracker's listing and reports its size. "status" and "cancel" without an id fail without calling the tracker. With an id they make exactly one call, and succeed exactly when the tracker finds the task or accepts the cancel. Any other action fails without a call. |
| ApiServer.ManageTasksIgnoresCase | api/server.py:1032-1040 | The action is matched case-insensitively. |
| ApiServer.ManageCancelMatchesTracker | api/server.py:1072-1093 | A cancel through the endpoint succeeds exactly for a task in flight; the replayed record then reads cancelled, else it is unchanged. |
| ChatHandler.Connect | web/chat_handler.py:76-80 | Connecting adds exactly that client and keeps every other. |
| ChatHandler.Disconnect | web/chat_handler.py:94-98 | Disconnecting removes exactly that client; an unknown id changes nothing. |
| ChatHandler.ConnectDisconnect | web/chat_handler.py:76-98 | Connecting and then disconnecting a new client restores the previous set. |
| ChatHandler.RouteMessage | web/chat_handler.py:100-128 | Non-JSON text is chatted as-is from client "unknown". A non-object payload reports "Error processing message: ...". An absent type or "text" chats the content ("" when absent) from the client id ("unknown" when absent). "command" runs the content as a command from that client. "task_status" looks up the content as a task id. Any other type, JSON null included, is "Unknown message type: " with its Python text. Exactly these last two cases are errors. |
| ChatHandler.NullTypeIsUnknown | web/chat_handler.py:107-124 | A JSON null type is "Unknown message type: None", while an absent type is chatted as text. |
| ChatHandler.LlmReady | web/chat_handler.py:130-156 | An existing client is always ready. Without one, the handler is ready exactly when a stored or environment key is non-empty and the client can be built. |
| ChatHandler.ParseCommand | web/chat_handler.py:197-204 | The command word never holds a space: it is the line up to the first space. |
| ChatHandler.ParseSub | web/chat_handler.py:229-232 | The sub-command never holds a space: it is the arguments up to the first space. |
| ChatHandler.GithubCommand | web/chat_handler.py:220-283 | Without the GitHub client the command is the "not available" error. Otherwise "repos <owner>" fetches that owner's repositories and "search <query>" searches for the query. Each reports its own error when its argument is empty. Any other subcommand is the "Unknown GitHub command" error naming it. A fetch or search happens only in these cases. |
| ChatHandler.GraphCommand | web/chat_handler.py:289-352 | Without the graph store the command is the "not available" error. Otherwise "list" lists the graphs and "stats <name>" fetches that graph's statistics, with an error when the name is empty. Any other subcommand is the "Unknown graph command" error naming it. |
| ChatHandler.TaskCommand | web/chat_handler.py:358-414 | The command makes at most one tracker call: the listing, or a lookup or cancel of the typed id. "list" always lists. "status" or "cancel" without an id, or an unknown subcommand, makes no call and replies with an error. A status reply is a system message exactly when the lookup found a record. A cancel reply is a system message exactly when the tracker accepted the cancel. |
| ChatHandler.ProcessCommand | web/chat_handler.py:197-218 | "github", "graph" and "task" hand their arguments to the matching subcommand, with the service's availability. Only "task" makes a tracker call. "status" lists the resumable tasks and shows the GitHub and Neo4j availability with the listing's size as the task count. "help" answers directly. Any other command word is an error with no tracker call. |
| ChatHandler.CommandArgumentsAreLowerCase | web/chat_handler.py:199-204 | The line is lower-cased before dispatch, so every task id that reaches the tracker is lower-case. |
| ChatHandler.TaskCallIds | web/chat_handler.py:376-408 | "status" and "cancel" with a non-empty id make exactly one call, for that id. |
| ChatHandler.TaskCommandRoundTrip | web/chat_handler.py:197-214 | Typing `task status <id>` looks the id up and `task cancel <id>` cancels it, for any id already in lower-case, stripped form. |
| ChatHandler.ScalarText | web/chat_handler.py:384-431 | A JSON scalar is shown as Python's `str` shows it: None, True, False, the integer's digits, or the string itself. |
| ChatHandler.StatusText | web/chat_handler.py:384-431 | A record without a status shows "unknown". A scalar status shows as Python prints it, so a null status shows "None". |
| ChatHandler.NullStatusShowsNone | web/chat_handler.py:386 | A null status shows "None", a missing one "unknown", and a string status itself. |
| ChatHandler.TaskStatusReply | web/chat_handler.py:420-431 | A status reply is sent exactly when the tracker finds the task; otherwise an error is sent. |
| ResumeTask.CallFor | cli/resume_task.py:71-87 | The dataset creator resumes from the stored task id and its current stage, with the stored url, dataset name and description (absent ones stay absent) and `recursive` defaulting to false. |
| ResumeTask.ResumeAsWritten | cli/resume_task.py:10-102 | As written, the resume flow never resumes a task, never reports an unsupported type and never asks for a token. |
| ResumeTask.Resume | cli/resume_task.py:16-98 | The flow stops at once exactly when nothing is resumable. A non-number is the `int()` error. A number of 0 or less declines. A number beyond the list is "Invalid task number". Without a typed "yes" it declines. A confirmed task of another type than "scrape" is unsupported, and a confirmed scrape task without a token stops for the token. A resumption requires: a typed "yes", a token, and a number k+1 naming a "scrape" task k. It is resumed with that task's own call. |
| ResumeTask.FlowsAgreeBeforeConfirmation | cli/resume_task.py:44-52 | Until the user confirms, the code as written and the intended flow behave the same. |
| ResumeTask.SelectionByPrintedNumber | cli/resume_task.py:24-41 | Typing the number printed beside a scrape task and confirming resumes that task. |
| ResumeTask.ResumeSelected | cli/resume_task.py:31-87 | Any input that reads as k+1 selects task k. The code as written then fails where the intended flow resumes. |
| ResumeTask.ZeroCancels | cli/resume_task.py:31-35 | Any number of 0 or less, written out, backs out without touching a task, in the intended flow and as written. |
| ResumeTask.TypingZeroCancels | cli/resume_task.py:31-35 | Typing "0", as the prompt suggests, backs out without touching a task, in both flows. |
| ResumeTask.EventDefectWitness | cli/resume_task.py:49-55 | The defect, for every scrape task chosen by its printed number and confirmed with a token configured: the code as written ends in the NameError, and the intended flow resumes the task. |
| MainMenu.MenuActions | cli/main_menu.py:57-81 | The menu has 10 entries when resumable tasks exist and 9 otherwise. "Resume" appears exactly in the first case. |
| MainMenu.MenuLines | cli/main_menu.py:57-81 | One printed line per menu entry. |
| MainMenu.Dispatch | cli/main_menu.py:67-158 | A choice is invalid exactly when it is not one of the printed numbers, 1 to 10 with resumable tasks and 1 to 9 without. "5" resumes a task exactly in the first layout. Exit is "9" there and "8" otherwise. |
| MainMenu.DispatchMatchesPrintedMenu | cli/main_menu.py:67-154 | In both layouts, typing the number printed beside an entry runs that entry. |
| MainMenu.DispatchRejectsUnlisted | cli/main_menu.py:156-158 | Anything other than a printed number is an invalid choice. |
| MainMenu.RunMenu | cli/main_menu.py:52-158 | Each pass performs the action for what was typed. No pass runs after cancellation or an exit request. Nothing follows Exit. |
| MainMenu.RunMenuStopsOnlyWhenAsked | cli/main_menu.py:52-154 | The loop ends early only at a cancelled pass, an exit request, or right after Exit. |
| MainMenu.StartServerFlow | cli/main_menu.py:94-110 | A stored key starts the server. Otherwise the entered key is saved first, and a failed save abandons the start. |
| Credentials.KeyringRead | config/credentials_manager.py:167-177 | A disabled or failing keyring yields nothing. A failing one is switched off. A working one yields what it stores. |
| Credentials.FirstNonEmpty | config/credentials_manager.py:164-189 | The reference resolution: no result exactly when every source is empty; a result is one of the sources and non-empty. |
| Credentials.FirstNonEmptyIsEarliest | config/credentials_manager.py:431-489 | Earlier sources win: the result is the earliest non-empty source. |
| Credentials.KeyringConfigEnvResolves | config/credentials_manager.py:164-189 | Up to truthiness, the keyring → configuration file → loaded environment chain is the first non-empty of those three sources. The Hugging Face token and the server's API key (`get_openapi_key`, lines 215-243) both use it. |
| Credentials.HuggingfaceCredentials | config/credentials_manager.py:160-189 | The username always comes from the configuration file, defaulting to "". The token comes from the shared chain. |
| Credentials.OpenAiKey | config/credentials_manager.py:431-489 | A returned key is never empty. |
| Credentials.OpenAiKeyResolves | config/credentials_manager.py:431-489 | The OpenAI key is the first non-empty of: process environment, loaded environment, keyring, configuration file, `.env`. The keyring is switched off only when it was reached and failed. |
| Credentials.GithubToken | config/credentials_manager.py:515-573 | A returned token is never empty. |
| Credentials.GithubTokenResolves | config/credentials_manager.py:515-573 | The GitHub token is the first non-empty of its six sources, in the code's order. |
| Credentials.FirstComplete | config/credentials_manager.py:313-405 | The reference for grouped credentials: nothing exactly when no source has all three values. Otherwise the values all come from one complete source. |
| Credentials.Neo4jLookupResolves | config/credentials_manager.py:313-405 | Neo4j credentials come from the first source where URI, user and password are all present. An incomplete source never contributes a value. |
| Credentials.FirstPair | config/credentials_manager.py:625-727 | The reference for AWS: nothing exactly when no source has both keys. |
| Credentials.AwsLookupResolves | config/credentials_manager.py:625-727 | AWS credentials come from the first source with both an access and a secret key. |
| Credentials.AwsRegionDefaults | config/credentials_manager.py:625-727 | Outside `.env`, a found set of AWS credentials always has a region: "us-east-1" when none is stored. |
| Credentials.DisabledKeyringSkippedBySingleLookups | config/credentials_manager.py:172-177 | Once the keyring is off, single-value lookups do not depend on its contents. |
| Credentials.DisabledKeyringSkippedByNeo4j | config/credentials_manager.py:172-177 | Once the keyring is off, the Neo4j lookup does not depend on its contents. |
| Credentials.DisabledKeyringSkippedByAws | config/credentials_manager.py:172-177 | Once the keyring is off, the AWS lookup does not depend on its contents. |
| Credentials.FailingKeyringIsSwitchedOff | config/credentials_manager.py:226-231 | A failing keyring is switched off by the first lookup that reaches it. |
| Credentials.StoreAll | config/credentials_manager.py:134-158 | The fallback save stores every entry and keeps every existing key. |
| Credentials.SaveSecrets | config/credentials_manager.py:134-158 | With a working keyring the secrets go to the keyring and the configuration is unchanged. Otherwise they go into the configuration. |
| Credentials.SaveThree | config/credentials_manager.py:290-304 | Three secrets saved in order land in the chosen store under their own keys. |
| Credentials.SaveHuggingface | config/credentials_manager.py:134-158 | The username always goes into the configuration. The token goes into the keyring when it works, and into the configuration otherwise, leaving the keyring as it was. |
| Credentials.SaveOpenAi | config/credentials_manager.py:407-427 | The key goes into the working keyring and leaves the configuration unchanged. Without a working keyring it goes into the configuration and leaves the keyring unchanged. |
| Credentials.SaveNeo4j | config/credentials_manager.py:282-311 | URI, user and password all go into the same store, the keyring when it works or the configuration otherwise. The other store is unchanged. |
| Credentials.SaveAws | config/credentials_manager.py:585-612 | Access key, secret key and region all go into the same store. An empty or missing region is saved as "us-east-1". The other store is unchanged. |
| Credentials.SavedHuggingfaceTokenIsFound | config/credentials_manager.py:134-189 | A saved Hugging Face username and token are what the next lookup returns, whichever store took them. |
| Credentials.SavedOpenAiKeyIsFound | config/credentials_manager.py:407-489 | A saved OpenAI key is found next time, unless the process or loaded environment supplies one, which then wins. |
| Credentials.SavedNeo4jIsFound | config/credentials_manager.py:282-405 | Saved Neo4j credentials are found next time, unless the process environment holds a complete set. |
| Credentials.Redact | config/credentials_manager.py:735-746 | The logged copy has the same keys. Every sensitive key reads "*****". Every other value is unchanged. |
| Credentials.RedactIdempotent | config/credentials_manager.py:735-746 | Redacting an already redacted copy changes nothing. |
| Credentials.LoadConfig | config/credentials_manager.py:575-583 | A readable file is used as is. A missing or unparsable one gives `{"huggingface_username": ""}`. |
| Credentials.ServerPort | config/credentials_manager.py:245-248 | The stored port, or the default when none is stored. |
| Credentials.ExtractUsername | config/credentials_manager.py:114-132 | Only the Hugging Face username may be added. A configuration that already has one is left as it is. With a loaded token and a loaded username, and no username set, the loaded username is copied in. Without a loaded token or username nothing changes. |
| EnvFile.SplitLines | api/configuration_handler.py:41-49 | Splitting on newlines yields at least one piece and no piece holds a newline. |
| EnvFile.JoinSplitLines | api/configuration_handler.py:41-49 | Joining the lines back with newlines gives the original text. |
| EnvFile.SplitJoinLines | api/configuration_handler.py:41-49 | Splitting undoes joining lines that hold no newline. |
| EnvFile.UpdateKey | api/configuration_handler.py:42-49 | A key without an assignment line is appended as `\nKEY=value`. |
| EnvFile.UpdateKeyLines | api/configuration_handler.py:43-49 | One update either rewrites every `KEY=...` line in place, or adds the assignment as a new last line. |
| EnvFile.UpdateKeySets | api/configuration_handler.py:42-49 | After an update the file assigns the key the new value and no other value. |
| EnvFile.UpdateKeyKeepsOtherLines | api/configuration_handler.py:41-49 | Lines that do not assign the key keep their text and position, and no line is removed. |
| EnvFile.UpdateKeyPreservesOthers | api/configuration_handler.py:41-49 | Updating one key leaves another key's value in place. |
| EnvFile.UpdateKeyIdempotent | api/configuration_handler.py:43-46 | Writing the same assignment twice changes nothing the second time. |
| EnvFile.ApplyUpdatesSetsAll | api/configuration_handler.py:41-53 | After the update loop every updated key holds its new value. |
| EnvFile.ApplyUpdatesKeepsLines | api/configuration_handler.py:41-53 | Lines that assign none of the updated keys survive the whole loop unchanged and in place. |
| EnvFile.UpdateEnvFileSetsAll | api/configuration_handler.py:27-53 | Whether or not the file existed, every updated key holds its new value afterwards. With no updates, a missing file becomes just the header. |
| EnvFile.FirstMatch | config/credentials_manager.py:469-484 | The search finds the leftmost `NAME=` followed by at least one character on the same line. |
| EnvFile.SearchAssignment | config/credentials_manager.py:469-484 | The `.env` search finds a value exactly when some `NAME=` is followed by at least one character on its line. |
| EnvFile.SearchFindsLeadingAssignment | config/credentials_manager.py:476-480 | A file whose first line assigns the name yields that value, stripped. |
| ConfigHandler.Chosen | api/configuration_handler.py:60-106 | Each group appears exactly when chosen, and never twice. |
| ConfigHandler.PlanUpdates | api/configuration_handler.py:60-106 | updated_items names exactly the groups whose inputs were given: Hugging Face, OpenAI, Neo4j (all three fields), GitHub. Each has one save. The `.env` is touched exactly when some group is. Each group's save carries its submitted values: the Hugging Face token with the user "homework_user", the OpenAI key, the Neo4j URI, user and password, the GitHub token. No save is made for a group that was not given. |
| ConfigHandler.UpdateConfiguration | api/configuration_handler.py:57-125 | The credential saves are the planned ones. The `.env` is rewritten exactly when there are updates and the write works. It then holds the updated text. A write failure turns the answer into an error. |
| ConfigHandler.PlannedUpdatesWellFormed | api/configuration_handler.py:63-106 | The planned assignments use distinct keys, with no `=` or newline in them. |
| ConfigHandler.PlannedAssignments | api/configuration_handler.py:66-106 | Each submitted group's `.env` assignments are planned. Neo4j's three are planned only as a complete set. |
| ConfigHandler.UpdatedEnvHoldsSubmittedValues | api/configuration_handler.py:41-113 | After a successful update the `.env` text assigns each submitted credential its new value, and nothing else for that key. |
| ConfigHandler.UpdatedEnvSetsPlanned | api/configuration_handler.py:111-113 | Every planned assignment holds in the written text. |
| GraphStore.RemoveBackticks | neo4j/graph_store.py:46-48 | The result holds no backtick; text without backticks is unchanged. |
| GraphStore.RemoveBackticksDistributes | neo4j/graph_store.py:46-48 | Removal works piece by piece, so the other characters keep their order. |
| GraphStore.RemoveBackticksIdempotent | neo4j/graph_store.py:46-48 | Removing twice is removing once. |
| GraphStore.JsonSpan | neo4j/graph_store.py:516-524 | The document is skipped exactly when a brace is missing. A non-empty span runs from a `{` to a `}`. |
| GraphStore.JsonSpanIsWidest | neo4j/graph_store.py:517-520 | The span runs from the first `{` to the last `}`. |
| GraphStore.LastValue | neo4j/graph_store.py:561-563 | The value returned is that of the last binding of the key: no later binding has the same key. |
| GraphStore.Overlay | neo4j/graph_store.py:561-563 | After the property loop the parameters hold the base keys plus every property key. A property key takes the value of its last binding, and a base key without a property keeps its base value. |
| GraphStore.HasKeyMeansBound | neo4j/graph_store.py:561-563 | A key counts as bound exactly when some property binding has it. |
| GraphStore.EntityParams | neo4j/graph_store.py:555-563 | The entity query's parameters are id, name, doc_id and every property key. A property key takes its last value, so a property named id, name or doc_id overrides that parameter. Without such a property the parameter keeps the write's id, name or document. |
| GraphStore.WriteFor | neo4j/graph_store.py:530-559 | A written entity keeps its type and properties. Its id is its own, null included, or the fresh one when absent. Its name is its own, or "Unnamed <type>" when absent. The document is the one being processed. |
| GraphStore.WriteForParams | neo4j/graph_store.py:530-563 | The query for an accepted entity runs with id, name, doc_id and the property keys. A property overrides the parameter of the same name, so a property "id" changes the node merged and "doc_id" the document linked. Without such a property, id is the entity's own or the fresh one, name its own or "Unnamed <type>", and doc_id the document's. |
| GraphStore.PropertiesOverrideIdAndName | neo4j/graph_store.py:555-563 | An entity "a" named "Ann" with properties name "Bob" and id "b" is merged as node "b" and named "Bob". |
| GraphStore.NullIdIsKept | neo4j/graph_store.py:531-557 | An explicit null id or name is passed on as null. Only an absent id becomes the fresh one. |
| GraphStore.EntityWrites | neo4j/graph_store.py:530-570 | Only entities of an allowed type are written. All are written exactly when all are accepted, and none exactly when none are. |
| GraphStore.AcceptedEntitiesAreWritten | neo4j/graph_store.py:534-570 | Every accepted entity is written. |
| GraphStore.WritesComeFromAcceptedEntities | neo4j/graph_store.py:534-570 | Every write is that of an accepted entity, with that entity's fresh id and the document's id. |
| GraphStore.EntityWritesAppend | neo4j/graph_store.py:534-570 | Writes keep the entities' order: one more entity appends its write, or nothing when its type is not allowed. |
| GraphStore.NormalizeRelType | neo4j/graph_store.py:576 | The type keeps its length, holds no space and no lower-case letter, and upper-cases every other character. |
| GraphStore.NormalizeRelTypeIdempotent | neo4j/graph_store.py:576 | Normalising a normalised type changes nothing. |
| GraphStore.RelParams | neo4j/graph_store.py:593-600 | The relationship query's parameters are source_id, target_id and every property key. A property key takes its last value, so a property named source_id or target_id overrides that end. Without such a property the end is the write's own. |
| GraphStore.WriteOf | neo4j/graph_store.py:574-600 | A linked relationship is written with its normalised type (RELATED_TO when absent), its properties and its two checked, non-empty ends. Without an overriding property, the query matches exactly those ends. |
| GraphStore.PropertyOverridesTarget | neo4j/graph_store.py:593-600 | A property named target_id redirects the relationship to the node it names, while the source stays its own. |
| GraphStore.RelWrites | neo4j/graph_store.py:573-600 | Only relationships with both ends are written, each with non-empty checked ends and a normalised type. All are written exactly when all are linked. |
| GraphStore.LinkedRelsAreWritten | neo4j/graph_store.py:573-600 | Every linked relationship's write (as WriteOf states it) is among the writes, and every write is that of a linked relationship. |
| GraphStore.LinkedRelIsWritten | neo4j/graph_store.py:573-600 | The write of a linked relationship is among the writes. |
| GraphStore.RelWritesComeFromLinked | neo4j/graph_store.py:573-600 | Every write is that of some linked relationship. |
| GraphStore.RelWritesAppend | neo4j/graph_store.py:573-580 | Writes keep the extraction's order: one more relationship appends its write, or nothing when it lacks an end. |
| GraphStore.DefaultRelType | neo4j/graph_store.py:573-600 | An untyped relationship is written once, as RELATED_TO. Without properties it joins exactly its own two ends. |
| GraphStore.CleanProperties | neo4j/graph_store.py:746-753 | Exactly the keys starting with `_`, and id, name and graph_name, are dropped. Every other key keeps its value. |
| GraphStore.PrimaryType | neo4j/graph_store.py:755-761 | The primary type is a non-"Entity" label when there is one. It is "Entity" exactly when every label is. |
| GraphStore.PrimaryTypeIsFirst | neo4j/graph_store.py:756-761 | The primary type is the earliest label that is not "Entity". |
| GraphStore.CleanEntity | neo4j/graph_store.py:745-762 | Non-empty types are replaced by the primary type, and non-empty properties are cleaned. Id, name and relationship type are kept. |
| GraphStore.CleanPropertiesIdempotent | neo4j/graph_store.py:746-753 | Cleaning twice is cleaning once. |
| GraphStore.Insert | neo4j/graph_store.py:809-814 | A node whose id is already present is ignored: the first occurrence wins. |
| GraphStore.InsertAllKeeps | neo4j/graph_store.py:803-823 | Collecting nodes keeps ids distinct and never replaces a node already present. The ids are exactly the old ones plus the mentioned ones. |
| GraphStore.RowRels | neo4j/graph_store.py:826-831 | A row contributes one relationship per type, in order. |
| GraphStore.AllRelsCount | neo4j/graph_store.py:826-831 | The relationship count is the sum of the rows' type counts. |
| GraphStore.ConceptMap | neo4j/graph_store.py:803-836 | The concept map lists each node id once, holds both ends of every row, and has one relationship per row type. |
| GraphStore.MentionedRowsAppear | neo4j/graph_store.py:806-823 | Both ends of every row are among the collected mentions. |
| LlmClient.MaskKey | utils/llm_client.py:98 | A key longer than 8 logs as its first four characters, "..." and its last four; a shorter key logs as "***". |
| LlmClient.MaskHidesTheMiddle | utils/llm_client.py:98 | Keys that agree on their first and last four characters have the same mask. |
| LlmClient.SelectTools | utils/llm_client.py:446-479 | Web search always comes first. The crawler, dataset and graph tools are present exactly when the lower-cased message contains one of their terms and the tool could be built. An empty message gets web search only. |
| LlmClient.SelectToolsIgnoresCase | utils/llm_client.py:457-475 | Tool selection does not depend on the case of ASCII letters. |
| LlmClient.WebAgentTools | utils/llm_client.py:626-635 | A web run's list starts with web search, then the crawler's slot: the crawler when it could be built, otherwise a `None` left in the list. The dataset tool is added exactly when a dataset name is given and it could be built; the graph tool exactly when export is requested and it could be built. |
| LlmClient.WebAgentAlwaysCrawls | utils/llm_client.py:453-465 | For a message the general agent gives no crawler, a web run still has the crawler exactly when it could be built, and otherwise keeps its `None` slot. |
| LlmClient.CheckSourceType | utils/llm_client.py:226-228 | The dataset tool goes on exactly for repository, organization or website. |
| LlmClient.GraphToolAction | utils/llm_client.py:364-416 | Without a connection nothing happens. "list" lists. create, view and delete need a graph name. The action is lower-cased first. |
| LlmClient.GraphToolIgnoresCase | utils/llm_client.py:368 | The graph tool's action is case-insensitive. |
| LlmClient.Truncate | utils/llm_client.py:182-183 | A sample of at most 1000 characters is unchanged. A longer one keeps its first 1000 and ends "...[truncated]". |
| LlmClient.TruncateIdempotent | utils/llm_client.py:182-183 | Truncating a truncated sample keeps its first 1000 characters. |
| LlmClient.Titles | utils/llm_client.py:171 | Exactly the non-empty titles are listed, at most one per page: every titled page's title is listed, and every listed title is some page's. All pages give a title exactly when the list is as long as the crawl. |
| LlmClient.TitlesAppend | utils/llm_client.py:171 | Titles keep the pages' order: one more page appends its title, if it has one. |
| LlmClient.TitleLine | utils/llm_client.py:172-176 | The line lists all titles when there are at most five. Otherwise it lists the first five and ends " and N more." with N the rest. |
| LlmClient.CrawlSummary | utils/llm_client.py:167-184 | An empty crawl reports 0 pages. Otherwise the summary opens with the page count and the title line, and then ends with the first page's truncated sample when it has one, or right after the title line when it has none. |
| LlmClient.RunGuard | utils/llm_client.py:517-529 | A run is refused exactly when the API key or the Agents SDK is missing. A refusal is unsuccessful and carries no data. |
| LlmClient.RunAgent | utils/llm_client.py:505-583 | The runner is called exactly when key, SDK and agent are all there. Success means it returned a final output, which is the data's "response". Any failure carries no data. |
| LlmClient.RouteResponse | utils/llm_client.py:981-990 | Without a key the client asks for one. With the SDK it uses agents, else the plain API. |
| LlmClient.ApiAnswer | utils/llm_client.py:1065-1085 | 200 with content gives the content. 200 with no content gives the fixed empty-response text. 401 gives the authentication text and 429 the rate-limit text. Any other status gives "OpenAI API error: " and the message. The reply is never empty. |
| LlmClient.ApiReply | utils/llm_client.py:1039-1095 | A decoded HTTP answer gives that answer's text. A timeout, a connection failure and any other exception (a body that is not JSON among them) each give their own fixed text, the last one followed by the exception's text. The reply is never empty. |
| LlmClient.ApiReplyEchoesOnlySuccess | utils/llm_client.py:1064-1095 | Apart from a 200 answer, every outcome is a fixed failure text, the API's error message, or the exception's text. |
| LlmClient.ErrorStatusNeverEchoesContent | utils/llm_client.py:1074-1085 | An error status never passes model content through as the reply. |
| LlmClient.TickValues | utils/llm_client.py:678-683 | A ticker reports nothing exactly when it starts at or above its limit. Otherwise its first report is one step in and its last reaches the limit. Every report lies above the start and less than one step beyond the limit. |
| LlmClient.TicksEvenlySpaced | utils/llm_client.py:678-683 | The reports are evenly spaced, one step apart. |
| LlmClient.Ticker | utils/llm_client.py:678-683 | The ticker loop reports exactly those values. |
| LlmClient.TicksEndAtLimit | utils/llm_client.py:678-683 | A limit n steps away gives exactly n reports, the last equal to the limit and none above. |
| LlmClient.TicksIncrease | utils/llm_client.py:678-683 | Reports strictly increase. |
| LlmClient.ShippedTickers | utils/llm_client.py:807-812 | The web and GitHub tickers report 25 to 90 (fourteen values); the graph ticker reports 30 to 90 (seven). None exceeds 90. |
| LlmClient.ShippedTickersHaveShape | utils/llm_client.py:924-929 | The shipped tickers' reports rise, stay above 20 and end at 90. |
| LlmClient.ProgressAfterCompletion | utils/llm_client.py:678-693 | As written, a runner that returns before the ticker finishes is followed by reports after 100; the last is 90. |
| LlmClient.RunProgress | utils/llm_client.py:675-693 | With the ticker stopped when the runner returns, a run's reports rise strictly: 10, 20, the ticks so far, then 100, with nothing after. |
| LlmClient.LateEvents | utils/llm_client.py:678-683 | The ticker's late reports, one per remaining tick, with its message. |
| LlmClient.CompletedTaskEndsBelow100 | api/agent_routes.py:275-349 | Late progress reports arrive after the completion call. The agent task stays completed, but its progress falls to the last late value. |
| LlmClient.CompletedAt90 | utils/llm_client.py:678-693 | Concretely, a successful agent task whose runner beats the ticker ends "completed" at 90 percent. |
| Text.ParseIntAccepts | cli/resume_task.py:31 | Python `int()`: a value exactly when the stripped text is an optional sign and a decimal literal, with single underscores between digits. A leading "-" gives a value of 0 or less, and any other accepted text one of 0 or more. |
| Text.ParseIntRoundTrip | cli/resume_task.py:28-31 | Reading back any printed integer with `int()` gives that integer, so the numbers printed beside list entries are read back as typed. |
| AgentGraph.Configurable | ai/agent.py:56-57 | A missing or empty config reads as `{}`; otherwise its "configurable" part is used. |
| AgentGraph.FromRunnableConfig | ai/agent.py:53-65 | Each field comes from "configurable" when the key is present, else from the class default. |
| AgentGraph.MissingConfigIsDefault | ai/agent.py:53-65 | No config, or one without "configurable", gives the class defaults. |
| AgentGraph.SuppliedModelIdWins | ai/agent.py:59-65 | A supplied model id replaces the default and disturbs no other field. |
| AgentGraph.CallModel | ai/agent.py:112-152 | On the last step the added message never asks for tools: such a response is replaced by the fixed text. An exception becomes "I encountered an error: ...". Anything else passes unchanged. |
| AgentGraph.RouteModelOutput | ai/agent.py:155-166 | The route is "tools" exactly when the last message asks for tools, and the end exactly when it is an answer. Anything other than an AI message is an AgentError naming its type. |
| AgentGraph.ToolReplies | ai/agent.py:169-188 | The tool node adds one tool reply per requested call. |
| AgentGraph.RunGraph | ai/agent.py:169-194 | Running out of turns is the recursion-limit error. A finished run only adds messages to its input history. |
| AgentGraph.RunEndsWithAnswer | ai/agent.py:169-194 | A finished run keeps its input history as a prefix and ends with an answer. |
| AgentGraph.LastStepEndsTheRun | ai/agent.py:139-142 | A pass flagged as the last step always ends the run. |
| AgentGraph.LatestAnswer | ai/agent.py:210-214 | Finds the most recent answer, with no answer after it, or reports that none exists. |
| AgentGraph.FinalMessage | ai/agent.py:209-217 | The chosen message is an answer whenever the history holds one. Otherwise it is the last message. |
| AgentGraph.FinalMessageOfFinishedRun | ai/agent.py:210-217 | A history ending with an answer returns that answer. |
| AgentGraph.RunAgent | ai/agent.py:197-232 | Success exactly when the graph finishes. A failure answers "Error: ..." with no messages. A success returns the whole history. |
| AgentGraph.SuccessAnswersWithLastMessage | ai/agent.py:204-224 | A successful run answers with the closing AI message, which follows the query in the history. |
| AgentGraph.RunGraphAsWritten | ai/agent.py:68-80 | With no reducer on `messages` and a last-step flag nothing sets, a finished graph holds just its closing answer. |
| AgentGraph.AsWrittenLosesHistory | ai/agent.py:68-80 | With no pass flagged as the last step, the graph as written finishes exactly when the intended one does, fails with the same error otherwise, and keeps only the intended history's last message. |
| AgentGraph.RunAgentAsWritten | ai/agent.py:207-232 | As written, `run_agent` never succeeds and returns no messages. A finished graph fails on the attribute read of its dict result. |
| AgentGraph.AgentDefectWitness | ai/agent.py:207-224 | A model that answers at once: the intended agent succeeds with the query and the answer, and the code as written reports the attribute error. |
| AgentGraph.LastStepFlagIgnored | ai/agent.py:138-142 | A last-step pass that still asks for a tool: the intended run ends with the fixed text, and the graph as written hits the recursion limit. |
| AgentGraph.AgentTools | ai/agent.py:172 | The tool list is never empty. A non-empty list of given tools is used as is. |
| Assistant.ContainsAnyMeansMentions | ai/assistant.py:138-139 | The substring search finds a keyword exactly when one occurs in the lower-cased query. |
| Assistant.RoutingMeansMentions | ai/assistant.py:121-139 | Both assistants send a query to an agent exactly when one of their keywords occurs in it, in any case. |
| Assistant.CliAgentQueriesAreAgentQueries | cli/ai_assistant.py:120-127 | The command-line keywords are among the full assistant's, so a query the command line sends to an agent goes to one there too. |
| Assistant.RoutingIgnoresCase | ai/assistant.py:131-139 | Keyword routing does not depend on the case of ASCII letters. |
| Assistant.EmptyQueryNeedsNoAgent | ai/assistant.py:131-139 | The empty query never needs an agent. |
| Assistant.GenerateAiResponse | ai/assistant.py:19-48 | Agent queries return the agent's answer, or the fixed error text when the run fails. Other queries return the chat answer, or "I encountered an error: ..." on an exception. |
| Assistant.AgentReplyIsClosingAnswer | ai/assistant.py:35-39 | A successful agent reply is the content of the run's closing AI message. |
| Assistant.GenerateAiResponseAsWritten | ai/assistant.py:19-48 | Over `run_agent` as written, every agent query answers the fixed error text. Other queries are answered as by the intended version. |
| Assistant.AgentQueryFailsAsWritten | ai/assistant.py:35-39 | An agent query the model answers at once: the intended reply is the answer, and the reply as written is the fixed error text. |
| Assistant.ExitWordsIgnoreCase | cli/ai_assistant.py:68-70 | "EXIT", "Quit" and "Q" end the session just as their lower-case forms do. |
| Assistant.CliAgentReplyIsFinalOutput | cli/ai_assistant.py:80-85 | A successful agent run answers with its final output. |
| Assistant.TurnsBeforeExit | cli/ai_assistant.py:64-70 | Never more turns than lines typed. |
| Assistant.TurnsBeforeExitStops | cli/ai_assistant.py:64-70 | Every line before the first exit word is answered, and the loop stops at that word. |
| Assistant.Converse | cli/ai_assistant.py:75-94 | Two history entries per answered line. |
| Assistant.ConverseEntries | cli/ai_assistant.py:75-94 | Entry 2i is the i-th line typed, as "user", and entry 2i+1 is its answer, as "assistant". |
| Assistant.AiAssistant | cli/ai_assistant.py:24-94 | Without an OpenAI key nothing starts. Otherwise the history opens with the one system entry. It then holds each line typed before the exit word as a user entry, followed by its answer. |
| Wizard.StepsDistinct | ui/configuration.py:73-76 | The nine steps are distinct, so each input is stored under its own name. |
| Wizard.Stars | ui/configuration.py:115 | A value shows as one star per character, or "(empty)". |
| Wizard.DisplayAsWritten | ui/configuration.py:113-119 | As written, hf_token, openai_key, neo4j_password and github_token are masked; every other step, aws_secret_key included, is shown verbatim. |
| Wizard.AwsSecretIsEchoed | ui/configuration.py:114-119 | As written, a typed AWS secret key is echoed in clear. |
| Wizard.Display | ui/configuration.py:113-119 | Every secret step, the AWS secret key included, is masked; other values show verbatim. |
| Wizard.DisplayHidesSecrets | ui/configuration.py:113-119 | A secret step's echo holds only stars or the text "(empty)", never a typed character. Every other step echoes as before. |
| Wizard.StepPrompt | ui/configuration.py:125-128 | The prompt reads "Enter ", the step and "...", with one character per step character. |
| Wizard.PromptSpellsStep | ui/configuration.py:125-128 | The prompt spells the step name with "_" turned into spaces, title-cased: the first letter upper-case. |
| Wizard.SaveWizard | ui/configuration.py:150-188 | Four saves, in order: Hugging Face, AWS, Neo4j, GitHub. Missing values are "", and a missing region is "us-east-1". |
| Wizard.Attempted | ui/configuration.py:155-185 | A failing save stops the remaining ones; otherwise all four run. |
| Wizard.WizardSubmit | ui/configuration.py:109-131 | A submission stores the value under the current step and echoes it with the masking as written, so the AWS secret key shows in clear. It then moves one step on and prompts for the next step. After the last step it saves and the wizard ends. |
| Wizard.ServerSubmit | ui/configuration.py:132-148 | Server settings: step 0 saves the port, step 1 saves the temporary directory and ends input. |
| Wizard.Submit | ui/configuration.py:104-148 | With no configuration in progress, input changes nothing. |
| Wizard.Run | ui/configuration.py:104-148 | No sequence of submissions moves the wizard past its last step. |
| Wizard.WizardAdvances | ui/configuration.py:109-128 | Fewer than nine submissions save nothing; each input is stored under its own step, in order. |
| Wizard.WizardStep | ui/configuration.py:122-128 | The step index rises by exactly one per submission. |
| Wizard.SavesTypedValues | ui/configuration.py:155-181 | The saves use exactly the values typed at each step. |
| Wizard.WizardCompletes | ui/configuration.py:109-188 | From any step, the remaining submissions finish the wizard: it returns to idle after saving the typed values once. |
| Wizard.WizardLastStep | ui/configuration.py:129-131 | The last submission triggers the save and ends the wizard. |
| Wizard.WizardSavesTypedRegion | ui/configuration.py:157-168 | Nine submissions from the start save the typed values. An empty region is saved as "", not the default. |
| Wizard.IdleIgnoresInput | ui/configuration.py:104-148 | Input with no configuration in progress does nothing. |
| Wizard.ServerConfigTwoSteps | ui/configuration.py:132-148 | Server settings take exactly two inputs, port then directory, and then ignore further input. |
| CliConfig.MenuPort | cli/configuration.py:184-195 | A port is accepted exactly when it parses as an integer in [1024, 65535]. A non-number is reported as such. |
| CliConfig.WizardPort | cli/configuration.py:76-88 | An empty answer keeps the current port; anything else is judged as in the menu. |
| CliConfig.PortRoundTrip | cli/configuration.py:76-86 | Every in-range port typed as digits is accepted as itself. Every number outside the range is refused. |
| CliConfig.PromptsAgree | cli/configuration.py:76-86 | Both prompts agree on every non-empty answer. |
| CliConfig.GuidedSetup | cli/configuration.py:23-100 | Hugging Face is saved only with both username and token. Neo4j only after "y" with URI, user and password. The OpenAI key, GitHub token and temporary directory only when given. The port only when valid. |
| CliConfig.Neo4jQuestionIgnoresCase | cli/configuration.py:60-62 | "Y" counts as "y". |
| CliConfig.SelectGraph | cli/configuration.py:335-359 | 0 or less cancels, 1 to the number of graphs selects graph n-1, and anything else is invalid. A non-number is reported as such. |
| CliConfig.PrintedNumbersSelect | cli/configuration.py:332-359 | The numbers printed beside the graphs select those graphs; 0 cancels. |
| CliConfig.ConfirmationIgnoresCase | cli/configuration.py:397-400 | Deletion needs "yes" in any case; "y" and the empty answer do not confirm. |
| GithubFlow.OrgUrlShapes | cli/github_dataset.py:216 | An owner's page, with or without a trailing slash, is an organisation URL; a repository under it is not. |
| GithubFlow.RepoTailNotOrg | cli/github_dataset.py:216 | "owner/repo" never matches the organisation pattern's tail. |
| GithubFlow.UseAiGuidance | cli/github_dataset.py:27-37 | AI guidance is used exactly when option 2 is chosen with non-empty instructions. |
| GithubFlow.ChooseDataset | cli/github_dataset.py:44-92 | Option 1 asks for a name. Option 2 needs a token. With no datasets it asks for a name. Otherwise the existing dataset is chosen exactly when the number is in range, and it is that dataset. Any other option is invalid. |
| GithubFlow.PickByNumber | cli/github_dataset.py:77-89 | A non-number fails. 1 to n picks dataset n-1. 0 or less asks for a new name. |
| GithubFlow.PrintedDatasetNumberSelects | cli/github_dataset.py:73-86 | The number printed beside a dataset picks it. |
| GithubFlow.SpecificGraph | cli/github_dataset.py:113-174 | Option 3 never means the default graph. Declining to proceed without a connection aborts. A named graph is either the newly created one or a listed one. |
| GithubFlow.ChooseGraph | cli/github_dataset.py:103-177 | 1 means no export, 2 the default graph and 3 a specific one. Anything else aborts. |
| GithubFlow.EmptyStoreCreates | cli/github_dataset.py:133-152 | With no graphs listed, option 3 creates a new one. |
| GithubFlow.PlanFlow | cli/github_dataset.py:9-177 | A non-GitHub URL stops the flow. The flow goes on exactly when the dataset choice proceeds and the graph choice does not abort. Its plan carries those choices. It updates in place only for an existing dataset. It exports exactly for option 2 or a named graph. |
| GithubFlow.ProgressLine | cli/github_dataset.py:204-209 | The line reads "Progress: N%", followed by " - message" when there is one. |
| GithubFlow.Printed | cli/github_dataset.py:204-209 | At most one line per report. Every report gets a line exactly when every report is a whole ten or 100. |
| GithubFlow.PrintedLines | cli/github_dataset.py:204-209 | Every report at a whole ten (or 100) is printed, and every printed line comes from such a report. |

## Left out

- ResumeTask.NotANumber: quotes the input between single quotes. Python's message uses `repr`, which differs for input holding a quote or a backslash (it switches to double quotes or escapes them). Python's `repr` of strings is not modelled.
- LlmClient.ApiReply: which response bodies fail to decode, and what `str(e)` says for them, are inputs of the model (the `Raised` outcome). The HTTP request itself is I/O.
- I/O, clocks and randomness are parameters rather than calls. This covers console input and output, HTTP requests, WebSocket sends, file reads and writes, the keyring backend, `time.time()`, `uuid`, `datetime.now()`, `asyncio` scheduling and the three-second ticker sleeps.
- Vendor calls are parameters holding their results. This covers OpenAI, the Agents SDK runner, Bedrock, Neo4j, Hugging Face and GitHub.
- The task tracker (`utils/task_tracker.py`) is not part of this model. `Tracker.Apply` states the effect its interface documents, and is an assumption.
- `os.environ` writes are left out: the LLM client exporting its key, the `.env` OpenAI key, `GITHUB_TOKEN` set for the session, and the `AWS_ACCESS_KEY_ID`, `AWS_SECRET_ACCESS_KEY` and `AWS_REGION` exports made when AWS credentials are saved (config/credentials_manager.py:615-617) and when they are read from `.env` (config/credentials_manager.py:714-716).
- Keyring partial writes are left out. The model treats a broken keyring as failing every write of a save. A failure midway through the source's write sequence would leave earlier keys in the keyring.
- Floating point is left out. Percentages and timestamps are natural numbers or integers, and `:.0f` formatting prints them as integers.
- Strings are ASCII for `lower`, `upper`, `strip` and `title`. Python's Unicode case mapping is context-sensitive and is not modelled.
- EnvFile.UpdateKey: models `update_env_file` as line-based replacement. It assumes keys and values contain no regular-expression metacharacters or backslashes: the source interpolates the key unescaped and uses the value as a substitution template.
- `get_configuration_status` is left out. api/configuration_handler.py is garbled from line 125 onward.
- cli/configuration.py reads globals it never defines. The model keeps only its validation decisions: port range, all-or-nothing saves, graph number and deletion confirmation.
- cli/github_dataset.py fails with a NameError at line 60 (`DatasetManager`) and at line 194 (`credentials_manager`). The model gives those steps their evident meaning: list the datasets, then read the token.
- GithubFlow.ChooseDataset: models the evident meaning of cli/github_dataset.py:60, listing the datasets. The code as written raises a NameError there (`DatasetManager` is never imported), so the source never reaches the choice it describes.
- GithubFlow.PlanFlow: models the evident meaning of cli/github_dataset.py:194, reading the stored token. The code as written raises a NameError there: `credentials_manager` is bound only on the existing-dataset branch (line 54), which already fails at line 60. So the source never reaches the flow it plans.
- UpdateCommand.RunUpdate: `task_id` at main.py:144 is unbound when a constructor raises. The model ends such a run with `Unbound`, and `MainExitCode` maps it to 1.
- UpdateCommand.ReportedProgress: `check_cancelled` (main.py:46-51) is modelled by the index of the first report after the interrupt. The setting of the local event is not modelled separately.
- AgentRoutes.GetTaskStatus: answers 500 for a record that is not a dictionary. This is the model's reading of the uncaught attribute error.
- Configuration values that are not strings are treated as absent by the credential lookups.
- LlmClient.CrawlSummary: a "markdown" entry that is JSON null makes the source raise at `len()` (utils/llm_client.py:178-181). `Page` holds the sample as an optional string, so null is treated as absent.
- LlmClient.GraphToolAction: its contract covers the connection check, listing and the name requirement. The create, view and delete effects against Neo4j are vendor calls.
- AgentGraph.RunGraph: models the graph as evidently intended. `messages` accumulates (LangGraph's `add_messages` reducer) and the runtime sets the last-step flag. ai/agent.py declares neither; `RunGraphAsWritten` models the code as written.
- AgentGraph.RunAgent: models reading the messages from the returned state. As written, `ainvoke` returns a dict and `result.messages` raises; `RunAgentAsWritten` models that. The assistants use the intended `RunAgent`.
- AgentGraph.RecursionLimitText: stands in for the runtime's recursion-limit message, whose exact wording belongs to LangGraph.
- CliConfig.GuidedSetup: saves the temporary directory as typed. The source saves `str(Path(temp_dir).absolute())` (cli/configuration.py:94-95), and the model does not resolve paths.
- Assistant.AiAssistant: omits the second early return when the LLM client ends up without a key (cli/ai_assistant.py:35-37). The model takes the client as built from the key it was given.
- Assistant.CliReply: a "response" that is not a string gives the fixed error text. The source returns the value unchanged. A "data" that is not a dictionary raises in the source, and the model also gives the fixed error text.
- GraphStore.WriteFor: the Cypher text (one SET clause per property) is not modelled, only the parameters it runs with. A property can override "id" or "doc_id", so the node merged and the document linked are not promised to be the entity's own or the document's.
- GraphStore.RelWrites: the ends the query matches are not promised to be non-empty. Only the checked ends are, and a property named "source_id" or "target_id" overrides them with any value (`RelParams`). A "source_id" or "target_id" that is a non-string truthy JSON value is not modelled: `ExtractedRel` holds the ends as optional strings.
- GraphStore.RelWrites: a relationship whose "type" is JSON null crashes the source at `.upper()` (neo4j/graph_store.py:576) before the link check. `ExtractedRel` holds the type as an optional string, so that case is not modelled.
- Assistant.GenerateAiResponse: answers agent queries over the intended `AgentGraph.RunAgent`. As written, `run_agent` never succeeds, so every agent query gets the fixed error text; `GenerateAiResponseAsWritten` models that.
- ChatHandler.RouteMessage: "content" and "client_id" are taken as strings or absent. A JSON null or non-string content, which the source passes on to the handlers, is not modelled. A null or non-string "type" is modelled.
- ChatHandler.StatusText: a status that is a float, a list or an object shows "unknown", where Python would show its `str`. Python's rendering of those values is not modelled.
- ChatHandler.ProcessCommand: the status reply's `llm_available` flag and `server_time` are not modelled. The LLM client's presence is not part of the command's inputs, and the time is the clock.
- Assistant.CliReplyCases: the command line's reply cases follow from `CliReply`'s definition without proof work.
- ai/assistant.py `run_full_ai_assistant` (lines 51-118) is left out. It is a console loop like `ai_assistant`, gated on AWS credentials, and keeps no history.
- The Textual apps, rich rendering, the certificate generator, the environment loader's directory walk and the diagnostic scripts are UI or OS plumbing. They make no decisions.

## Findings

| source | as written | input that shows it | evidently intended | confidence | as-written member | corrected member |
|---|---|---|---|---|---|---|
| cli/resume_task.py:52 | `Event()` is used but never imported. Every confirmed resumption raises NameError, which the handler at line 100 prints as an error. | One resumable task of type "scrape", selection "1", confirmation "yes", a Hugging Face token configured | The task is resumed from its id and current stage | high, not executed | ResumeTask.EventDefectWitness | ResumeTask.Resume |
| utils/llm_client.py:678-693 | The progress ticker task is never cancelled. Reports of 25..90 arrive after the final 100. The agent task is marked completed at 100 (api/agent_routes.py:325-333), and its progress then falls back to 90. | `run_web_agent` with a progress callback whose runner returns after three ticks. The reports are 10, 20, 25, 30, 35, 100, 40, ..., 90, and the task ends "completed" at 90 percent. | The ticker stops when the runner returns, so nothing follows 100 | medium, not executed | LlmClient.CompletedAt90 | LlmClient.RunProgress |
| ai/agent.py:207-211 | `messages` (line 72) has no reducer, so each node replaces the history, and `is_last_step` (line 80) is never set. `ainvoke` returns a dict, so `result.messages` raises AttributeError: `run_agent` never succeeds. | Any query the model answers at once, with no tool call | `run_agent` returns success, the answer, and the history [query, answer] | medium, not executed | AgentGraph.AgentDefectWitness | AgentGraph.RunAgent |
| ui/configuration.py:114-117 | The masked list names `openai_key`, which is not a wizard step, and omits `aws_secret_key`. The AWS secret key is echoed in clear, while the same file masks it at line 205. | Typing "abc" at the aws_secret_key step shows "Set aws_secret_key: abc" | The secret shows as "***" | medium, not executed | Wizard.AwsSecretIsEchoed | Wizard.DisplayHidesSecrets |

=== FILE: agent_graph.dfy ===
/** The ReAct agent graph: its configuration defaults, the model node's
    last-step rule, the router between the model and the tools, the loop
    they form and the choice of the final answer. */
module AgentGraph {
  import opened Wrappers
  import opened Json

  // -------------------------------------------------------- configuration

  const DefaultSystemPrompt := "You are a helpful AI assistant. \n        \nSystem time: {system_time}"
  const DefaultModelId := "anthropic.claude-3-5-sonnet-20240620-v1:0"
  const DefaultRegion := "us-east-1"
  const DefaultTemperature: real := 0.7
  const DefaultMaxTokens := 2000

  /** The agent's settings.  The fields hold whatever the caller supplied,
      so they are JSON values rather than typed numbers and strings. */
  datatype Configuration = Configuration(systemPrompt: Value, modelId: Value, region: Value,
                                         temperature: Value, maxTokens: Value)

  const Defaults := Configuration(JStr(DefaultSystemPrompt), JStr(DefaultModelId), JStr(DefaultRegion),
                                  JReal(DefaultTemperature), JNum(DefaultMaxTokens))

  /** `config or {}` then `.get("configurable", {})`. */
  function Configurable(config: Option<Value>): (c: Value)
    ensures config.None? || !Truthy(config.value) ==> c == JObj([])
    ensures config.Some? && Truthy(config.value) ==> c == GetOr(config.value, "configurable", JObj([]))
  {
    if config.Some? && Truthy(config.value) then GetOr(config.value, "configurable", JObj([])) else JObj([])
  }

  /** `Configuration.from_runnable_config`: each field from "configurable"
      when the key is present (whatever its value), else its default. */
  function FromRunnableConfig(config: Option<Value>): (c: Configuration)
    ensures c.systemPrompt == GetOr(Configurable(config), "system_prompt", JStr(DefaultSystemPrompt))
    ensures c.modelId == GetOr(Configurable(config), "model_id", JStr(DefaultModelId))
    ensures c.region == GetOr(Configurable(config), "region", JStr(DefaultRegion))
    ensures c.temperature == GetOr(Configurable(config), "temperature", JReal(DefaultTemperature))
    ensures c.maxTokens == GetOr(Configurable(config), "max_tokens", JNum(DefaultMaxTokens))
  {
    var k := Configurable(config);
    Configuration(GetOr(k, "system_prompt", JStr(DefaultSystemPrompt)), GetOr(k, "model_id", JStr(DefaultModelId)),
                  GetOr(k, "region", JStr(DefaultRegion)), GetOr(k, "temperature", JReal(DefaultTemperature)),
                  GetOr(k, "max_tokens", JNum(DefaultMaxTokens)))
  }

  /** No configuration, or one without a "configurable" part, yields the
      class defaults. */
  lemma MissingConfigIsDefault(config: Option<Value>)
    requires config.None? || Get(config.value, "configurable").None?
    ensures FromRunnableConfig(config) == Defaults
  {
  }

  /** A supplied model id wins over the default, and the other fields are
      not disturbed by it. */
  lemma SuppliedModelIdWins(modelId: Value)
    ensures var c := FromRunnableConfig(Some(JObj([("configurable", JObj([("model_id", modelId)]))])));
      c.modelId == modelId && c == Defaults.(modelId := modelId)
  {
  }

  // ------------------------------------------------------------- messages

  datatype ToolCall = ToolCall(name: string, args: Value)

  datatype Message =
    | Human(content: string)
    | System(content: string)
    | Ai(content: string, toolCalls: seq<ToolCall>)
    | ToolReply(content: string)

  /** An AI message asking for at least one tool. */
  predicate RequestsTools(m: Message)
  {
    m.Ai? && |m.toolCalls| > 0
  }

  /** An AI message that asks for no tool: an answer. */
  predicate IsAnswer(m: Message)
  {
    m.Ai? && |m.toolCalls| == 0
  }

  function TypeName(m: Message): string
  {
    match m
    case Human(_) => "HumanMessage"
    case System(_) => "SystemMessage"
    case Ai(_, _) => "AIMessage"
    case ToolReply(_) => "ToolMessage"
  }

  // ----------------------------------------------------------- model node

  const LastStepText := "I could not find a complete answer in the allowed number of steps."

  /** `call_model`: the message the model node adds, given the model's
      response or the text of the exception it raised. */
  function CallModel(isLastStep: bool, response: Result<Message, string>): (m: Message)
    ensures response.Err? ==> m == Ai("I encountered an error: " + response.error, [])
    ensures isLastStep ==> !RequestsTools(m)
    ensures response.Ok? && !(isLastStep && RequestsTools(response.value)) ==> m == response.value
    ensures response.Ok? && RequestsTools(response.value) && isLastStep ==> m == Ai(LastStepText, [])
  {
    match response
    case Err(e) => Ai("I encountered an error: " + e, [])
    case Ok(r) => if isLastStep && RequestsTools(r) then Ai(LastStepText, []) else r
  }

  // --------------------------------------------------------------- router

  datatype Route = ToTools | ToEnd

  /** `route_model_output`: on to the tools when the last message asks for
      them, else to the end; anything but an AI message is an error (and
      an empty history fails on the index). */
  function RouteModelOutput(messages: seq<Message>): (r: Result<Route, string>)
    ensures r == Ok(ToTools) <==> |messages| > 0 && RequestsTools(messages[|messages| - 1])
    ensures r == Ok(ToEnd) <==> |messages| > 0 && IsAnswer(messages[|messages| - 1])
    ensures r.Err? <==> |messages| == 0 || !messages[|messages| - 1].Ai?
    ensures |messages| > 0 && !messages[|messages| - 1].Ai? ==>
      r == Err("Expected AIMessage in output, got " + TypeName(messages[|messages| - 1]))
  {
    if |messages| == 0 then Err("list index out of range")
    else
      var last := messages[|messages| - 1];
      if !last.Ai? then Err("Expected AIMessage in output, got " + TypeName(last))
      else if |last.toolCalls| > 0 then Ok(ToTools)
      else Ok(ToEnd)
  }

  // ---------------------------------------------------------- agent loop

  /** What the outside world contributes to one pass through the model
      node: the runtime's last-step flag, the model's answer (or error)
      and the replies of the tools it calls. */
  datatype Turn = Turn(isLastStep: bool, response: Result<Message, string>, replies: seq<string>)

  /** The tool node: one reply per requested call, in order. */
  function ToolReplies(calls: seq<ToolCall>, replies: seq<string>): (r: seq<Message>)
    ensures |r| == |calls|
    ensures forall i :: 0 <= i < |r| ==> r[i].ToolReply?
  {
    seq(|calls|, i requires 0 <= i < |calls| => ToolReply(if i < |replies| then replies[i] else ""))
  }

  /** Stands in for the message of the runtime's recursion-limit error; the
      exact wording belongs to the graph library, not to this module. */
  const RecursionLimitText := "Recursion limit reached without hitting a stop condition."

  /** The compiled graph: the model node, then the router, then either the
      tools and another model pass or the end.  Running out of turns is
      the runtime's recursion limit. */
  function RunGraph(messages: seq<Message>, turns: seq<Turn>): (r: Result<seq<Message>, string>)
    ensures |turns| == 0 ==> r == Err(RecursionLimitText)
    ensures r.Ok? ==> |r.value| > |messages|
    decreases |turns|
  {
    if |turns| == 0 then Err(RecursionLimitText)
    else
      var m := CallModel(turns[0].isLastStep, turns[0].response);
      var history := messages + [m];
      match RouteModelOutput(history)
      case Err(e) => Err(e)
      case Ok(ToEnd) => Ok(history)
      case Ok(ToTools) => RunGraph(history + ToolReplies(m.toolCalls, turns[0].replies), turns[1..])
  }

  /** A finished run keeps its input history and ends with an answer. */
  lemma {:induction false} RunEndsWithAnswer(messages: seq<Message>, turns: seq<Turn>)
    requires RunGraph(messages, turns).Ok?
    ensures var out := RunGraph(messages, turns).value;
      |out| > |messages| && out[..|messages|] == messages && IsAnswer(out[|out| - 1])
    decreases |turns|
  {
    var m := CallModel(turns[0].isLastStep, turns[0].response);
    var history := messages + [m];
    assert history[..|messages|] == messages;
    if RouteModelOutput(history) == Ok(ToTools) {
      var next := history + ToolReplies(m.toolCalls, turns[0].replies);
      RunEndsWithAnswer(next, turns[1..]);
      var out := RunGraph(next, turns[1..]).value;
      assert out[..|messages|] == out[..|next|][..|messages|];
      assert next[..|messages|] == messages;
    }
  }

  /** A pass flagged as the last step always ends the run (the model
      answers with AI messages). */
  lemma LastStepEndsTheRun(messages: seq<Message>, turns: seq<Turn>)
    requires |turns| > 0 && turns[0].isLastStep
    requires turns[0].response.Ok? ==> turns[0].response.value.Ai?
    ensures RunGraph(messages, turns) == Ok(messages + [CallModel(true, turns[0].response)])
  {
    var m := CallModel(true, turns[0].response);
    assert (messages + [m])[|messages + [m]| - 1] == m;
  }

  // -------------------------------------------------------- final answer

  /** Where the most recent answer sits, if there is one. */
  function LatestAnswer(ms: seq<Message>): (k: Option<nat>)
    ensures k.Some? ==> (k.value < |ms| && IsAnswer(ms[k.value])
                         && forall j :: k.value < j < |ms| ==> !IsAnswer(ms[j]))
    ensures k.None? ==> forall j :: 0 <= j < |ms| ==> !IsAnswer(ms[j])
    decreases |ms|
  {
    if |ms| == 0 then None
    else if IsAnswer(ms[|ms| - 1]) then Some(|ms| - 1)
    else LatestAnswer(ms[..|ms| - 1])
  }

  /** `run_agent`'s choice of the message to return: the most recent
      answer, else the last message (none at all for an empty history). */
  function FinalMessage(ms: seq<Message>): (r: Option<Message>)
    ensures |ms| == 0 <==> r.None?
    ensures (exists j :: 0 <= j < |ms| && IsAnswer(ms[j])) ==> r.Some? && IsAnswer(r.value)
    ensures (forall j :: 0 <= j < |ms| ==> !IsAnswer(ms[j])) && |ms| > 0 ==> r == Some(ms[|ms| - 1])
  {
    match LatestAnswer(ms)
    case Some(k) => Some(ms[k])
    case None => if |ms| == 0 then None else Some(ms[|ms| - 1])
  }

  /** When the history ends with an answer, that answer is the one chosen. */
  lemma FinalMessageOfFinishedRun(ms: seq<Message>)
    requires |ms| > 0 && IsAnswer(ms[|ms| - 1])
    ensures FinalMessage(ms) == Some(ms[|ms| - 1])
  {
  }

  datatype AgentRun = AgentRun(success: bool, response: string, messages: seq<Message>)

  /** `run_agent`: run the graph on the query; on success return the
      chosen message's text and the history, otherwise "Error: ..." and
      no messages. */
  function RunAgent(query: string, turns: seq<Turn>): (r: AgentRun)
    ensures r.success <==> RunGraph([Human(query)], turns).Ok?
    ensures !r.success ==> r.messages == [] && r.response == "Error: " + RunGraph([Human(query)], turns).error
    ensures r.success ==> r.messages == RunGraph([Human(query)], turns).value
  {
    match RunGraph([Human(query)], turns)
    case Err(e) => AgentRun(false, "Error: " + e, [])
    case Ok(ms) =>
      RunEndsWithAnswer([Human(query)], turns);
      AgentRun(true, FinalMessage(ms).value.content, ms)
  }

  /** A successful run answers with the text of the model's closing
      message, which follows the query in the history. */
  lemma SuccessAnswersWithLastMessage(query: string, turns: seq<Turn>)
    requires RunAgent(query, turns).success
    ensures var ms := RunAgent(query, turns).messages;
      |ms| >= 2 && ms[0] == Human(query) && IsAnswer(ms[|ms| - 1])
      && RunAgent(query, turns).response == ms[|ms| - 1].content
  {
    RunEndsWithAnswer([Human(query)], turns);
    var ms := RunGraph([Human(query)], turns).value;
    assert ms[..1] == [Human(query)];
    FinalMessageOfFinishedRun(ms);
  }

  // ------------------------------------------------ the graph as written

  /** The graph as declared: `messages` carries no reducer, so every node
      replaces the list with its own output, and `is_last_step` is an
      ordinary field that nothing ever sets.  After a model pass the
      history is that one message. */
  function RunGraphAsWritten(turns: seq<Turn>): (r: Result<seq<Message>, string>)
    ensures r.Ok? ==> |r.value| == 1 && IsAnswer(r.value[0])
    decreases |turns|
  {
    if |turns| == 0 then Err(RecursionLimitText)
    else
      var m := CallModel(false, turns[0].response);
      match RouteModelOutput([m])
      case Err(e) => Err(e)
      case Ok(ToEnd) => Ok([m])
      case Ok(ToTools) => RunGraphAsWritten(turns[1..])
  }

  /** With no pass flagged as the last step, the graph as written finishes
      exactly when the intended one does, with the same error otherwise,
      but keeps only the closing answer of the intended history. */
  lemma {:induction false} AsWrittenLosesHistory(messages: seq<Message>, turns: seq<Turn>)
    requires forall i :: 0 <= i < |turns| ==> !turns[i].isLastStep
    ensures RunGraphAsWritten(turns).Ok? <==> RunGraph(messages, turns).Ok?
    ensures RunGraph(messages, turns).Err? ==> RunGraphAsWritten(turns) == RunGraph(messages, turns)
    ensures RunGraph(messages, turns).Ok? ==>
      var out := RunGraph(messages, turns).value;
      |out| > 0 && RunGraphAsWritten(turns).value == [out[|out| - 1]]
    decreases |turns|
  {
    if |turns| > 0 {
      var m := CallModel(false, turns[0].response);
      var history := messages + [m];
      assert history[|history| - 1] == m;
      assert [m][0] == m;
      if RouteModelOutput(history) == Ok(ToTools) {
        var next := history + ToolReplies(m.toolCalls, turns[0].replies);
        assert forall i :: 0 <= i < |turns[1..]| ==> turns[1..][i] == turns[i + 1];
        AsWrittenLosesHistory(next, turns[1..]);
      }
    }
  }

  /** The message `ainvoke`'s result raises when read as an attribute: the
      result is a dict of the state's fields. */
  const DictAttributeText := "'dict' object has no attribute 'messages'"

  /** `run_agent` as written: a failing graph is reported as before, and a
      finished one fails on `result.messages`, so the call never succeeds. */
  function RunAgentAsWritten(query: string, turns: seq<Turn>): (r: AgentRun)
    ensures !r.success && r.messages == []
    ensures RunGraphAsWritten(turns).Err? ==> r.response == "Error: " + RunGraphAsWritten(turns).error
    ensures RunGraphAsWritten(turns).Ok? ==> r.response == "Error: " + DictAttributeText
  {
    match RunGraphAsWritten(turns)
    case Err(e) => AgentRun(false, "Error: " + e, [])
    case Ok(_) => AgentRun(false, "Error: " + DictAttributeText, [])
  }

  /** The defect: a model that answers at once gives the intended agent a
      successful run with the query and the answer, while the code as
      written reports an attribute error. */
  lemma AgentDefectWitness(query: string, answer: string)
    ensures RunAgentAsWritten(query, [Turn(false, Ok(Ai(answer, [])), [])]) == AgentRun(false, "Error: " + DictAttributeText, [])
    ensures RunAgent(query, [Turn(false, Ok(Ai(answer, [])), [])]) == AgentRun(true, answer, [Human(query), Ai(answer, [])])
  {
    var turns := [Turn(false, Ok(Ai(answer, [])), [])];
    var ms := [Human(query)] + [Ai(answer, [])];
    assert ms[|ms| - 1] == Ai(answer, []);
    assert RunGraph([Human(query)], turns) == Ok(ms);
    FinalMessageOfFinishedRun(ms);
  }

  /** The ignored flag: a pass meant as the last step that still asks for
      a tool ends the intended run with the fixed text, while the graph as
      written goes on to the tools and then hits the recursion limit. */
  lemma LastStepFlagIgnored(query: string, call: ToolCall, reply: string)
    ensures RunGraphAsWritten([Turn(true, Ok(Ai("", [call])), [reply])]) == Err(RecursionLimitText)
    ensures RunGraph([Human(query)], [Turn(true, Ok(Ai("", [call])), [reply])]) == Ok([Human(query), Ai(LastStepText, [])])
  {
    var turns := [Turn(true, Ok(Ai("", [call])), [reply])];
    assert turns[1..] == [];
    LastStepEndsTheRun([Human(query)], turns);
    assert [Human(query)] + [Ai(LastStepText, [])] == [Human(query), Ai(LastStepText, [])];
  }

  /** `tools or default_tools`. */
  function AgentTools(tools: Option<seq<string>>): (r: seq<string>)
    ensures |r| > 0
    ensures tools.Some? && |tools.value| > 0 ==> r == tools.value
  {
    if tools.Some? && |tools.value| > 0 then tools.value else ["search_web", "get_current_time"]
  }
}

=== FILE: agent_routes.dfy ===
/** The agent-task endpoints of the HTTP API: task creation with type
    validation, the background task that drives a task through the tracker,
    status lookup and cancellation. */
module AgentRoutes {
  import opened Wrappers
  import opened Text
  import opened Json
  import opened Tracker

  const ValidTaskTypes: seq<string> := ["web", "github", "knowledge_graph", "custom"]

  datatype HttpError = HttpError(code: nat, detail: string)

  datatype AgentTaskResponse = AgentTaskResponse(taskId: string, status: string, message: string, data: Value)

  /** The outcome of a create request: the response (or HTTP error), the
      tracker calls made, and the API key the shared LLM client ends up with. */
  datatype Created = Created(response: Result<AgentTaskResponse, HttpError>, calls: seq<Call>, clientKey: Option<string>)

  /** A key supplied by the front end is adopted only when the client has none. */
  function AdoptKey(clientKey: Option<string>, requestKey: Option<string>): (r: Option<string>)
    ensures NonEmpty(clientKey) ==> r == clientKey
    ensures !NonEmpty(requestKey) ==> r == clientKey
    ensures NonEmpty(requestKey) && !NonEmpty(clientKey) ==> r == requestKey
  {
    if NonEmpty(requestKey) && !NonEmpty(clientKey) then requestKey else clientKey
  }

  /** POST /agent/tasks. `options` is `request.options.dict()` when options
      were sent; `now` is the creation timestamp. */
  function CreateAgentTask(taskId: string, taskType: string, message: string, options: Option<Value>,
                           now: nat, clientKey: Option<string>, requestKey: Option<string>): (r: Created)
    ensures r.clientKey == AdoptKey(clientKey, requestKey)
    ensures r.response.Ok? <==> taskType in ValidTaskTypes
    ensures r.response.Err? ==> r.response.error.code == 400 && r.calls == []
    ensures r.response.Ok? ==>
      && r.response.value.taskId == taskId
      && r.response.value.status == StatusName(Queued)
      && Get(r.response.value.data, "task_type") == Some(JStr(taskType))
      && |r.calls| == 1 && r.calls[0].AddTask? && r.calls[0].taskId == taskId
      && r.calls[0].status == Queued && r.calls[0].taskType == taskType
      && Get(r.calls[0].details, "message") == Some(JStr(message))
  {
    var key := AdoptKey(clientKey, requestKey);
    if taskType !in ValidTaskTypes then
      Created(Err(HttpError(400, "Invalid task type. Must be one of: " + Join(ValidTaskTypes, ", "))), [], key)
    else
      var details := JObj([("message", JStr(message)),
                           ("options", options.GetOr(JObj([]))),
                           ("created_at", JNum(now))]);
      Created(Ok(AgentTaskResponse(taskId, "queued", "Agent task queued for processing",
                                   Single("task_type", JStr(taskType)))),
              [AddTask(taskId, taskType, Queued, details)], key)
  }

  // ------------------------------------------------------------ dispatch

  /** The agent run a task type is handed to, with the option defaults the
      route applies. */
  datatype AgentRun =
    | WebRun(message: string, urlPatterns: Value, maxDepth: Value, contentFilters: Value,
             exportToGraph: Value, graphName: Option<Value>, datasetName: Option<Value>, description: Value)
    | GithubRun(message: string, exportToGraph: Value, graphName: Option<Value>,
                datasetName: Option<Value>, description: Value)
    | GraphRun(message: string, graphName: Option<Value>)
    | CustomRun(message: string, options: Value)

  function RunFor(taskType: string, message: string, options: Value): (r: Option<AgentRun>)
    ensures r.Some? <==> taskType in ValidTaskTypes
    ensures r.Some? && r.value.WebRun? ==> Get(options, "max_depth").None? ==> r.value.maxDepth == JNum(3)
    ensures r.Some? ==> r.value.message == message
  {
    if taskType == "web" then
      Some(WebRun(message, GetOr(options, "url_patterns", JArr([])), GetOr(options, "max_depth", JNum(3)),
                  GetOr(options, "content_filters", JArr([])), GetOr(options, "export_to_graph", JBool(false)),
                  Get(options, "graph_name"), Get(options, "dataset_name"),
                  GetOr(options, "description", JStr("Dataset created by web agent"))))
    else if taskType == "github" then
      Some(GithubRun(message, GetOr(options, "export_to_graph", JBool(false)),
                     Get(options, "graph_name"), Get(options, "dataset_name"),
                     GetOr(options, "description", JStr("Dataset created by GitHub agent"))))
    else if taskType == "knowledge_graph" then
      Some(GraphRun(message, Get(options, "graph_name")))
    else if taskType == "custom" then
      Some(CustomRun(message, options))
    else None
  }

  // ------------------------------------------------------ background task

  /** One call of the progress callback handed to the agent run. */
  datatype ProgressEvent = ProgressEvent(percent: nat, message: Option<string>)

  /** What the agent run did: returned a value, or raised. */
  datatype RunOutcome = Returned(result: Value) | Raised(error: string)

  /** `update_task` treats `None` as "leave unchanged": the value a
      `d.get(key, default)` argument passes on. */
  function Provided(v: Value, key: string, default: Value): (r: Option<Value>)
    ensures Get(v, key).None? ==> r == Some(default)
    ensures Get(v, key) == Some(JNull) ==> r.None?
    ensures Get(v, key).Some? && Get(v, key) != Some(JNull) ==> r == Get(v, key)
  {
    match Get(v, key)
    case None => Some(default)
    case Some(JNull) => None
    case Some(x) => Some(x)
  }

  function DefaultProgressMessage(percent: nat): string
  {
    "Processing: " + NatToString(percent) + "% complete"
  }

  /** The tracker call one progress report becomes: progress and message,
      never the status. */
  function ProgressCall(taskId: string, e: ProgressEvent): (c: Call)
    ensures c.UpdateTask? && c.taskId == taskId && c.newStatus.None? && c.newProgress == Some(e.percent)
    ensures c.newMessage == Some(JStr(OrDefault(e.message, DefaultProgressMessage(e.percent))))
  {
    UpdateTask(taskId, None, Some(e.percent), Some(JStr(OrDefault(e.message, DefaultProgressMessage(e.percent)))), None)
  }

  function ProgressCalls(taskId: string, events: seq<ProgressEvent>): (cs: seq<Call>)
    ensures |cs| == |events|
    ensures forall i :: 0 <= i < |events| ==> cs[i] == ProgressCall(taskId, events[i])
  {
    seq(|events|, i requires 0 <= i < |events| => ProgressCall(taskId, events[i]))
  }

  /** A run result counts as a structured answer when it is a dictionary
      whose "success" entry is present and not null. */
  predicate Structured(v: Value)
  {
    v.JObj? && Get(v, "success").Some? && Get(v, "success") != Some(JNull)
  }

  /** The closing tracker call always sets a terminal status. */
  function FinalCall(taskId: string, outcome: RunOutcome): (c: Call)
    ensures c.UpdateTask? && c.taskId == taskId
    ensures c.newStatus.Some? && IsTerminal(c.newStatus.value)
    ensures outcome.Raised? ==>
      c.newStatus == Some(Failed) && c.newProgress.None? && c.newResult == Some(ErrorPayload(outcome.error))
    ensures outcome.Returned? && Structured(outcome.result) && Truthy(Get(outcome.result, "success").value) ==>
      && c.newStatus == Some(Completed) && c.newProgress == Some(100)
      && c.newResult == Provided(outcome.result, "data", JObj([]))
    ensures outcome.Returned? && Structured(outcome.result) && !Truthy(Get(outcome.result, "success").value) ==>
      && c.newStatus == Some(Failed) && c.newProgress.None?
      && c.newResult == Provided(outcome.result, "data", JObj([]))
    ensures outcome.Returned? && !Structured(outcome.result) ==>
      c.newStatus == Some(Completed) && c.newProgress == Some(100)
      && c.newResult == Some(Single("response", outcome.result))
  {
    match outcome
    case Raised(e) =>
      UpdateTask(taskId, Some(Failed), None, Some(JStr("Error: " + e)), Some(ErrorPayload(e)))
    case Returned(v) =>
      if Structured(v) then
        if Truthy(Get(v, "success").value) then
          UpdateTask(taskId, Some(Completed), Some(100),
                     Provided(v, "message", JStr("Task completed successfully")), Provided(v, "data", JObj([])))
        else
          UpdateTask(taskId, Some(Failed), None,
                     Provided(v, "message", JStr("Task failed")), Provided(v, "data", JObj([])))
      else
        UpdateTask(taskId, Some(Completed), Some(100), Some(JStr("Task completed")), Some(Single("response", v)))
  }

  function StartCall(taskId: string): (c: Call)
    ensures c.UpdateTask? && c.taskId == taskId && c.newStatus == Some(Running)
  {
    UpdateTask(taskId, Some(Running), Some(0), Some(JStr("Starting agent task")), None)
  }

  /** `process_agent_task`: the tracker calls it makes for one task.
      `events` are the progress reports the run makes before it ends. */
  function ProcessAgentTask(taskId: string, taskType: string, message: string, options: Value,
                            events: seq<ProgressEvent>, outcome: RunOutcome): (calls: seq<Call>)
    ensures |calls| >= 2 && calls[0] == StartCall(taskId)
    ensures forall i :: 0 <= i < |calls| ==> calls[i].UpdateTask? && calls[i].taskId == taskId
    ensures forall i :: 0 < i < |calls| - 1 ==> calls[i].newStatus.None?
    ensures calls[|calls| - 1].newStatus.Some? && IsTerminal(calls[|calls| - 1].newStatus.value)
  {
    // Exactly the types `RunFor` knows start an agent run.
    if taskType !in ValidTaskTypes then
      var e := "Invalid task type: " + taskType;
      [StartCall(taskId), FinalCall(taskId, Raised(e))]
    else RunCalls(taskId, events, outcome)
  }

  /** The calls of a run that started: the start, one per progress
      report, and the closing call. */
  function RunCalls(taskId: string, events: seq<ProgressEvent>, outcome: RunOutcome): (calls: seq<Call>)
    ensures |calls| == |events| + 2 && calls[0] == StartCall(taskId)
    ensures forall i :: 0 < i < |calls| - 1 ==> calls[i] == ProgressCall(taskId, events[i - 1])
    ensures calls[|calls| - 1] == FinalCall(taskId, outcome)
  {
    var mid := ProgressCalls(taskId, events);
    var calls := [StartCall(taskId)] + mid + [FinalCall(taskId, outcome)];
    assert forall i :: 0 < i < |calls| - 1 ==> calls[i] == mid[i - 1];
    calls
  }

  /** The status a background task ends in, as the route promises it:
      completed for a truthy "success" or an unstructured answer, failed for a
      falsy "success", an exception or an unknown type. */
  function ExpectedStatus(taskType: string, outcome: RunOutcome): Status
  {
    if taskType !in ValidTaskTypes then Failed
    else match outcome
      case Raised(_) => Failed
      case Returned(v) =>
        if Structured(v) && !Truthy(Get(v, "success").value) then Failed else Completed
  }

  lemma ProgressKeepsRunning(taskId: string, r: Record, events: seq<ProgressEvent>)
    ensures Replay(taskId, r, ProgressCalls(taskId, events)).status == r.status
    ensures |events| > 0 ==> Replay(taskId, r, ProgressCalls(taskId, events)).progress == events[|events| - 1].percent
    decreases |events|
  {
    var cs := ProgressCalls(taskId, events);
    if |events| > 0 {
      var r1 := Apply(taskId, r, cs[0]);
      ProgressKeepsRunning(taskId, r1, events[1..]);
      assert cs[1..] == ProgressCalls(taskId, events[1..]);
    }
  }

  /** Replaying the calls of a background task on the queued record leaves
      the status the route promises, and a successful run at 100 percent. */
  lemma {:induction false} AgentTaskLifecycle(taskId: string, taskType: string, message: string, options: Value,
                                              events: seq<ProgressEvent>, outcome: RunOutcome, details: Value)
    ensures Replay(taskId, Fresh(Queued), ProcessAgentTask(taskId, taskType, message, options, events, outcome)).status
            == ExpectedStatus(taskType, outcome)
    ensures ExpectedStatus(taskType, outcome) == Completed ==>
            Replay(taskId, Fresh(Queued), ProcessAgentTask(taskId, taskType, message, options, events, outcome)).progress == 100
    ensures taskType in ValidTaskTypes && outcome.Raised? ==>
            Replay(taskId, Fresh(Queued), ProcessAgentTask(taskId, taskType, message, options, events, outcome)).result
            == Some(ErrorPayload(outcome.error))
    ensures taskType in ValidTaskTypes && outcome.Returned? && Structured(outcome.result)
            && Get(outcome.result, "data") != Some(JNull) ==>
            Replay(taskId, Fresh(Queued), ProcessAgentTask(taskId, taskType, message, options, events, outcome)).result
            == Some(GetOr(outcome.result, "data", JObj([])))
    ensures taskType in ValidTaskTypes && outcome.Returned? && !Structured(outcome.result) ==>
            Replay(taskId, Fresh(Queued), ProcessAgentTask(taskId, taskType, message, options, events, outcome)).result
            == Some(Single("response", outcome.result))
  {
    var calls := ProcessAgentTask(taskId, taskType, message, options, events, outcome);
    var r0 := Apply(taskId, Fresh(Queued), StartCall(taskId));
    if taskType in ValidTaskTypes {
      var mid := ProgressCalls(taskId, events);
      assert calls == [StartCall(taskId)] + mid + [FinalCall(taskId, outcome)];
      ReplayAppend(taskId, Fresh(Queued), [StartCall(taskId)] + mid, [FinalCall(taskId, outcome)]);
      ReplayAppend(taskId, Fresh(Queued), [StartCall(taskId)], mid);
      ProgressKeepsRunning(taskId, r0, events);
    } else {
      var final := FinalCall(taskId, Raised("Invalid task type: " + taskType));
      assert calls == [StartCall(taskId)] + [final];
      ReplayAppend(taskId, Fresh(Queued), [StartCall(taskId)], [final]);
    }
  }

  /** A run that ends failed, whether it raised or answered with a falsy
      "success", leaves progress where the last report put it (at the
      starting 0 when it made none). */
  lemma FailureFreezesProgress(taskId: string, taskType: string, message: string, options: Value,
                               events: seq<ProgressEvent>, outcome: RunOutcome)
    requires taskType in ValidTaskTypes && ExpectedStatus(taskType, outcome) == Failed
    ensures Replay(taskId, Fresh(Queued), ProcessAgentTask(taskId, taskType, message, options, events, outcome)).progress
            == if |events| > 0 then events[|events| - 1].percent else 0
  {
    var mid := ProgressCalls(taskId, events);
    var final := FinalCall(taskId, outcome);
    ReplayAppend(taskId, Fresh(Queued), [StartCall(taskId)] + mid, [final]);
    ReplayAppend(taskId, Fresh(Queued), [StartCall(taskId)], mid);
    ProgressKeepsRunning(taskId, Apply(taskId, Fresh(Queued), StartCall(taskId)), events);
  }

  // ------------------------------------------------------ status and cancel

  datatype TaskStatusResponse = TaskStatusResponse(
    taskId: string, status: Value, progress: Option<Value>, message: Option<Value>,
    result: Option<Value>, createdAt: Option<Value>, updatedAt: Option<Value>)

  /** GET /agent/tasks/{id}: 404 for a missing or empty record; a status that
      is absent reads "unknown"; the creation time comes from the details. */
  function GetTaskStatus(taskId: string, task: Option<Value>): (r: Result<TaskStatusResponse, HttpError>)
    ensures (task.None? || !Truthy(task.value)) ==> r.Err? && r.error.code == 404
    ensures r.Ok? ==> task.Some? && task.value.JObj? && r.value.taskId == taskId
    ensures r.Ok? && Get(task.value, "status").None? ==> r.value.status == JStr("unknown")
    ensures r.Ok? && Get(task.value, "status").Some? ==> r.value.status == Get(task.value, "status").value
  {
    if task.None? || !Truthy(task.value) then
      Err(HttpError(404, "Task with ID " + taskId + " not found"))
    else
      var t := task.value;
      var details := GetOr(t, "details", JObj([]));
      if !t.JObj? || !details.JObj? then Err(HttpError(500, "Internal Server Error"))
      else
        Ok(TaskStatusResponse(taskId, GetOr(t, "status", JStr("unknown")), Get(t, "progress"), Get(t, "message"),
                              Get(t, "result"), Get(details, "created_at"), Get(t, "updated_at")))
  }

  /** DELETE /agent/tasks/{id}: 404 exactly when the tracker refuses. */
  function CancelAgentTask(taskId: string, trackerAccepted: bool): (r: Result<Value, HttpError>)
    ensures r.Ok? <==> trackerAccepted
    ensures r.Err? ==> r.error.code == 404
    ensures r.Ok? ==> Get(r.value, "success") == Some(JBool(true))
  {
    if !trackerAccepted then
      Err(HttpError(404, "Task with ID " + taskId + " not found or could not be cancelled"))
    else
      Ok(JObj([("success", JBool(true)), ("message", JStr("Task " + taskId + " cancelled successfully"))]))
  }

  /** Against a tracker that behaves as documented, the endpoint succeeds
      exactly for tasks still in flight, and those end up cancelled. */
  lemma CancelEndpointMatchesTracker(taskId: string, r: Record)
    ensures CancelAgentTask(taskId, CancelAccepted(r)).Ok? <==> !IsTerminal(r.status)
    ensures CancelAgentTask(taskId, CancelAccepted(r)).Ok? ==> Apply(taskId, r, CancelTask(taskId)).status == Cancelled
    ensures CancelAgentTask(taskId, CancelAccepted(r)).Err? ==> Apply(taskId, r, CancelTask(taskId)) == r
  {
  }
}

=== FILE: api_server.dfy ===
/** Request handling of the HTTP API server that is not agent-specific:
    bearer-key verification, the status summary and the task-management
    endpoint. */
module ApiServer {
  import opened Wrappers
  import opened Text
  import opened Json
  import opened Tracker

  datatype HttpError = HttpError(code: nat, detail: string)

  /** `verify_api_key`: 500 when the server has no key configured, 401 when
      the presented bearer token differs, otherwise the token itself. */
  function VerifyApiKey(configured: Option<string>, presented: string): (r: Result<string, HttpError>)
    ensures r.Ok? <==> NonEmpty(configured) && presented == configured.value
    ensures r.Ok? ==> r.value == presented
    ensures !NonEmpty(configured) ==> r == Err(HttpError(500, "API key not configured on server"))
    ensures NonEmpty(configured) && presented != configured.value ==> r == Err(HttpError(401, "Invalid API Key"))
  {
    if !NonEmpty(configured) then Err(HttpError(500, "API key not configured on server"))
    else if presented != configured.value then Err(HttpError(401, "Invalid API Key"))
    else Ok(presented)
  }

  // ------------------------------------------------------------ /status

  const TerminalNames: seq<string> := ["completed", "failed", "cancelled"]

  /** A listed task counts as active unless its "status" entry names a
      terminal state. */
  predicate ActiveTask(task: Value)
  {
    !(exists n :: n in TerminalNames && Get(task, "status") == Some(JStr(n)))
  }

  /** The number of listed tasks that are active. */
  function CountActive(tasks: seq<Value>): (n: nat)
    ensures n <= |tasks|
    ensures n == |tasks| <==> forall i :: 0 <= i < |tasks| ==> ActiveTask(tasks[i])
    ensures n == 0 <==> forall i :: 0 <= i < |tasks| ==> !ActiveTask(tasks[i])
    decreases |tasks|
  {
    if |tasks| == 0 then 0
    else
      var rest := CountActive(tasks[1..]);
      assert forall i :: 1 <= i < |tasks| ==> tasks[i] == tasks[1..][i - 1];
      (if ActiveTask(tasks[0]) then 1 else 0) + rest
  }

  /** Counting in listing order: one more task adds one exactly when it is
      active. */
  lemma {:induction false} CountActiveAppend(tasks: seq<Value>, t: Value)
    ensures CountActive(tasks + [t]) == CountActive(tasks) + (if ActiveTask(t) then 1 else 0)
    decreases |tasks|
  {
    if |tasks| == 0 {
      assert tasks + [t] == [t];
    } else {
      assert (tasks + [t])[1..] == tasks[1..] + [t];
      CountActiveAppend(tasks[1..], t);
    }
  }

  datatype StatusData = StatusData(missingConfigs: seq<string>, activeTasks: nat, totalTasks: nat)

  /** The configuration and task summary of GET /status. */
  function ServerStatus(hfToken: Option<string>, resumable: seq<Value>): (r: StatusData)
    ensures r.missingConfigs == (if NonEmpty(hfToken) then [] else ["huggingface_token"])
    ensures r.totalTasks == |resumable| && r.activeTasks <= r.totalTasks
    ensures r.activeTasks == CountActive(resumable)
    ensures r.activeTasks == r.totalTasks <==> forall i :: 0 <= i < |resumable| ==> ActiveTask(resumable[i])
    ensures r.activeTasks == 0 <==> forall i :: 0 <= i < |resumable| ==> !ActiveTask(resumable[i])
  {
    StatusData(if NonEmpty(hfToken) then [] else ["huggingface_token"], CountActive(resumable), |resumable|)
  }

  /** The shape a record takes in the tracker's listing. */
  function RecordValue(status: Status): Value
  {
    JObj([("status", JStr(StatusName(status)))])
  }

  /** Since the tracker lists only queued and running tasks as resumable,
      every listed task is active: the two counts agree. */
  lemma {:induction false} ResumableAreActive(statuses: seq<Status>)
    requires forall i :: 0 <= i < |statuses| ==> !IsTerminal(statuses[i])
    ensures CountActive(seq(|statuses|, i requires 0 <= i < |statuses| => RecordValue(statuses[i]))) == |statuses|
    decreases |statuses|
  {
    var tasks := seq(|statuses|, i requires 0 <= i < |statuses| => RecordValue(statuses[i]));
    if |statuses| > 0 {
      ResumableAreActive(statuses[1..]);
      assert tasks[1..] == seq(|statuses[1..]|, i requires 0 <= i < |statuses[1..]| => RecordValue(statuses[1..][i]));
      assert Get(tasks[0], "status") == Some(JStr(StatusName(statuses[0])));
      assert ActiveTask(tasks[0]);
    }
  }

  // ------------------------------------------------------ /tasks/manage

  datatype ApiResponse = ApiResponse(success: bool, message: string, data: Option<Value>)

  /** What the tracker answers, for whichever question the request asks. */
  datatype TrackerAnswers = TrackerAnswers(resumable: seq<Value>, lookup: Option<Value>, cancelAccepted: bool)

  /** POST /tasks/manage. `action` and `taskId` are the request's entries
      (absent as `None`). Returns the response and the tracker calls made. */
  function ManageTasks(action: Option<string>, taskId: Option<string>, t: TrackerAnswers): (r: (ApiResponse, seq<Call>))
    ensures var a := Lower(action.GetOr(""));
      && (a == "list" ==> r.1 == [ListResumableTasks] && r.0.success
                          && r.0.message == "Found " + NatToString(|t.resumable|) + " tasks")
      && ((a == "status" || a == "cancel") && !NonEmpty(taskId) ==> r.1 == [] && !r.0.success)
      && (a == "status" && NonEmpty(taskId) ==>
            r.1 == [GetTask(taskId.value)] && (r.0.success <==> t.lookup.Some? && Truthy(t.lookup.value)))
      && (a == "cancel" && NonEmpty(taskId) ==>
            r.1 == [CancelTask(taskId.value)] && (r.0.success <==> t.cancelAccepted))
      && (a != "list" && a != "status" && a != "cancel" ==> r.1 == [] && !r.0.success)
  {
    var a := Lower(action.GetOr(""));
    if a == "list" then
      (ApiResponse(true, "Found " + NatToString(|t.resumable|) + " tasks", Some(Single("tasks", JArr(t.resumable)))),
       [ListResumableTasks])
    else if a == "status" then
      if !NonEmpty(taskId) then (ApiResponse(false, "Task ID is required for status action", None), [])
      else
        var id := taskId.value;
        if t.lookup.Some? && Truthy(t.lookup.value) then
          (ApiResponse(true, "Retrieved status for task '" + id + "'", Some(Single("task", t.lookup.value))), [GetTask(id)])
        else
          (ApiResponse(false, "No task found with ID '" + id + "'", None), [GetTask(id)])
    else if a == "cancel" then
      if !NonEmpty(taskId) then (ApiResponse(false, "Task ID is required for cancel action", None), [])
      else
        var id := taskId.value;
        if t.cancelAccepted then (ApiResponse(true, "Task '" + id + "' cancelled successfully", None), [CancelTask(id)])
        else (ApiResponse(false, "Failed to cancel task '" + id + "'", None), [CancelTask(id)])
    else
      (ApiResponse(false, "Invalid action: " + a + ". Must be 'list', 'status', or 'cancel'", None), [])
  }

  /** The action is matched case-insensitively. */
  lemma ManageTasksIgnoresCase(action: string, taskId: Option<string>, t: TrackerAnswers)
    ensures ManageTasks(Some(Upper(action)), taskId, t) == ManageTasks(Some(action), taskId, t)
  {
    LowerIdempotent(action);
  }

  /** Against a tracker that behaves as documented, cancelling through the
      endpoint reports success exactly for a task still in flight, and the
      record then reads cancelled. */
  lemma ManageCancelMatchesTracker(id: string, rec: Record, resumable: seq<Value>, lookup: Option<Value>)
    requires |id| > 0
    ensures var r := ManageTasks(Some("cancel"), Some(id), TrackerAnswers(resumable, lookup, CancelAccepted(rec)));
      (r.0.success <==> !IsTerminal(rec.status)) && Replay(id, rec, r.1).status == (if r.0.success then Cancelled else rec.status)
  {
    assert Lower("cancel") == "cancel";
  }
}

=== FILE: assistant.dfy ===
/** The AI assistant front ends: the keyword test that sends a query to an
    agent, the routing of a single query, and the command-line
    conversation loop with its history. */
module Assistant {
  import opened Wrappers
  import opened Text
  import opened Json
  import AgentGraph
  import LlmClient

  // ------------------------------------------------------- keyword routing

  /** The keywords of the full assistant. */
  const AgentKeywords: seq<string> := [
    "crawl", "scrape", "extract", "website", "search", "github",
    "repository", "knowledge graph", "graph", "dataset", "datasets",
    "find", "look up", "research", "information about", "tool", "when",
    "how", "what time", "current", "latest"]

  /** The command-line assistant's shorter list. */
  const CliAgentKeywords: seq<string> := [
    "crawl", "scrape", "extract", "website", "search", "github",
    "repository", "knowledge graph", "graph", "dataset", "datasets",
    "find", "look up", "research", "information about"]

  /** Some keyword occurs somewhere in the lower-cased query. */
  ghost predicate MentionsAny(query: string, keywords: seq<string>)
  {
    exists k, i: nat :: k in keywords && OccursAt(Lower(query), k, i)
  }

  /** `requires_agent_capabilities` of the full assistant. */
  predicate RequiresAgentCapabilities(query: string)
  {
    ContainsAny(Lower(query), AgentKeywords)
  }

  /** `requires_agent_capabilities` of the command-line assistant. */
  predicate CliRequiresAgentCapabilities(query: string)
  {
    ContainsAny(Lower(query), CliAgentKeywords)
  }

  /** `ContainsAny` finds a keyword exactly when one occurs in the text. */
  lemma ContainsAnyMeansMentions(query: string, keywords: seq<string>)
    ensures ContainsAny(Lower(query), keywords) <==> MentionsAny(query, keywords)
  {
    forall k | k in keywords { ContainsMeansOccurs(Lower(query), k); }
  }

  /** Both assistants send a query to an agent exactly when one of their
      keywords occurs in it, in any case. */
  lemma RoutingMeansMentions(query: string)
    ensures RequiresAgentCapabilities(query) <==> MentionsAny(query, AgentKeywords)
    ensures CliRequiresAgentCapabilities(query) <==> MentionsAny(query, CliAgentKeywords)
  {
    ContainsAnyMeansMentions(query, AgentKeywords);
    ContainsAnyMeansMentions(query, CliAgentKeywords);
  }

  /** Every command-line keyword is also a keyword of the full assistant,
      so a query the command line sends to an agent goes to one there too. */
  lemma CliAgentQueriesAreAgentQueries(query: string)
    ensures CliRequiresAgentCapabilities(query) ==> RequiresAgentCapabilities(query)
  {
    RoutingMeansMentions(query);
    assert forall k :: k in CliAgentKeywords ==> k in AgentKeywords;
  }

  /** Keyword routing does not see the case of ASCII letters. */
  lemma RoutingIgnoresCase(query: string)
    ensures RequiresAgentCapabilities(Upper(query)) == RequiresAgentCapabilities(query)
    ensures CliRequiresAgentCapabilities(Upper(query)) == CliRequiresAgentCapabilities(query)
  {
    LowerIdempotent(query);
  }

  /** The empty query never needs an agent. */
  lemma EmptyQueryNeedsNoAgent()
    ensures !RequiresAgentCapabilities("")
    ensures !CliRequiresAgentCapabilities("")
  {
    assert Lower("") == "";
    RoutingMeansMentions("");
    forall k, i: nat | k in AgentKeywords ensures !OccursAt("", k, i) {
      assert |k| > 0;
    }
  }

  // --------------------------------------------------- answering a query

  const AgentErrorText := "I encountered an error processing your request with agent capabilities."

  /** `generate_ai_response`: agent queries go to the ReAct agent graph
      (its turns are the model's and tools' contributions); the rest go to
      the chat client, whose answer or exception text is `chatReply`. */
  function GenerateAiResponse(query: string, agentTurns: seq<AgentGraph.Turn>, chatReply: Result<string, string>): (r: string)
    ensures !RequiresAgentCapabilities(query) && chatReply.Ok? ==> r == chatReply.value
    ensures !RequiresAgentCapabilities(query) && chatReply.Err? ==> r == "I encountered an error: " + chatReply.error
    ensures RequiresAgentCapabilities(query) && !AgentGraph.RunAgent(query, agentTurns).success ==> r == AgentErrorText
  {
    if RequiresAgentCapabilities(query) then
      var run := AgentGraph.RunAgent(query, agentTurns);
      if run.success then run.response else AgentErrorText
    else
      match chatReply
      case Ok(s) => s
      case Err(e) => "I encountered an error: " + e
  }

  /** When the agent succeeds, the reply is the closing answer of the
      agent's run: the last message of its history, an AI message without
      tool calls. */
  lemma AgentReplyIsClosingAnswer(query: string, agentTurns: seq<AgentGraph.Turn>, chatReply: Result<string, string>)
    requires RequiresAgentCapabilities(query) && AgentGraph.RunAgent(query, agentTurns).success
    ensures var ms := AgentGraph.RunAgent(query, agentTurns).messages;
      |ms| > 0 && AgentGraph.IsAnswer(ms[|ms| - 1]) && GenerateAiResponse(query, agentTurns, chatReply) == ms[|ms| - 1].content
  {
    AgentGraph.SuccessAnswersWithLastMessage(query, agentTurns);
  }

  /** `generate_ai_response` over `run_agent` as written, which never
      succeeds: every agent query gets the fixed error text, and other
      queries are answered as before. */
  function GenerateAiResponseAsWritten(query: string, agentTurns: seq<AgentGraph.Turn>, chatReply: Result<string, string>): (r: string)
    ensures RequiresAgentCapabilities(query) ==> r == AgentErrorText
    ensures !RequiresAgentCapabilities(query) ==> r == GenerateAiResponse(query, agentTurns, chatReply)
  {
    if RequiresAgentCapabilities(query) then
      var run := AgentGraph.RunAgentAsWritten(query, agentTurns);
      if run.success then run.response else AgentErrorText
    else GenerateAiResponse(query, agentTurns, chatReply)
  }

  /** An agent query the model answers at once: the intended agent replies
      with the answer, the code as written with the fixed error text. */
  lemma AgentQueryFailsAsWritten(query: string, answer: string, chatReply: Result<string, string>)
    requires RequiresAgentCapabilities(query)
    ensures GenerateAiResponseAsWritten(query, [AgentGraph.Turn(false, Ok(AgentGraph.Ai(answer, [])), [])], chatReply) == AgentErrorText
    ensures GenerateAiResponse(query, [AgentGraph.Turn(false, Ok(AgentGraph.Ai(answer, [])), [])], chatReply) == answer
  {
    AgentGraph.AgentDefectWitness(query, answer);
  }

  // ------------------------------------------------ command-line session

  const SystemPrompt := "You are an AI assistant for the Homework project. Your primary focus is helping users gather and organize information through web searching, web crawling, and dataset creation."
  const CliErrorText := "I encountered an error processing your request."

  predicate IsExitWord(input: string)
  {
    Lower(input) in ["exit", "quit", "q"]
  }

  /** "EXIT" ends the session just as "exit" does. */
  lemma ExitWordsIgnoreCase(input: string)
    ensures IsExitWord(Upper(input)) == IsExitWord(input)
  {
    LowerIdempotent(input);
  }

  datatype Entry = Entry(role: string, content: string)

  /** One line typed by the user and what the client would answer to it
      on either path. */
  datatype CliTurn = CliTurn(input: string, agent: LlmClient.AgentResult, chat: Result<string, string>)

  /** The command line's answer to one line: the agent's "response" when
      the run succeeded with data, a fixed text when it did not, or the
      chat client's answer or exception text. */
  function CliReply(t: CliTurn): string
  {
    if CliRequiresAgentCapabilities(t.input) then
      if t.agent.success && t.agent.data.Some? && Truthy(t.agent.data.value) then
        match Get(t.agent.data.value, "response")
        case Some(JStr(s)) => s
        case _ => CliErrorText
      else CliErrorText
    else
      match t.chat
      case Ok(s) => s
      case Err(e) => "I encountered an error: " + e
  }

  /** An agent query that fails, or succeeds without data, gets the fixed
      error text; any other query gets the chat answer or the text of the
      chat client's exception. */
  lemma CliReplyCases(t: CliTurn)
    ensures CliRequiresAgentCapabilities(t.input) && !(t.agent.success && t.agent.data.Some? && Truthy(t.agent.data.value))
            ==> CliReply(t) == CliErrorText
    ensures !CliRequiresAgentCapabilities(t.input) && t.chat.Ok? ==> CliReply(t) == t.chat.value
    ensures !CliRequiresAgentCapabilities(t.input) && t.chat.Err? ==> CliReply(t) == "I encountered an error: " + t.chat.error
  {
  }

  /** A successful agent run answers with its final output. */
  lemma CliAgentReplyIsFinalOutput(input: string, apiKey: Option<string>, hasSdk: bool, agentBuilt: bool,
                                   outcome: LlmClient.RunnerOutcome, chat: Result<string, string>)
    requires CliRequiresAgentCapabilities(input)
    requires LlmClient.RunAgent(apiKey, hasSdk, agentBuilt, outcome).0.success
    ensures CliReply(CliTurn(input, LlmClient.RunAgent(apiKey, hasSdk, agentBuilt, outcome).0, chat)) == outcome.output
  {
  }

  /** How many lines are answered before the first exit word. */
  function TurnsBeforeExit(turns: seq<CliTurn>): (n: nat)
    ensures n <= |turns|
    decreases |turns|
  {
    if |turns| == 0 || IsExitWord(turns[0].input) then 0 else 1 + TurnsBeforeExit(turns[1..])
  }

  /** The loop answers every line up to the first exit word and stops
      there. */
  lemma {:induction false} TurnsBeforeExitStops(turns: seq<CliTurn>)
    ensures forall i :: 0 <= i < TurnsBeforeExit(turns) ==> !IsExitWord(turns[i].input)
    ensures TurnsBeforeExit(turns) < |turns| ==> IsExitWord(turns[TurnsBeforeExit(turns)].input)
    decreases |turns|
  {
    if |turns| > 0 && !IsExitWord(turns[0].input) {
      var tail := turns[1..];
      TurnsBeforeExitStops(tail);
      forall i | 1 <= i < TurnsBeforeExit(turns) ensures !IsExitWord(turns[i].input) {
        assert turns[i] == tail[i - 1];
      }
      assert TurnsBeforeExit(turns) < |turns| ==> turns[TurnsBeforeExit(turns)] == tail[TurnsBeforeExit(tail)];
    }
  }

  /** The entries the loop appends: for each line before the exit word,
      the user's line and then the answer. */
  function Converse(turns: seq<CliTurn>): (h: seq<Entry>)
    ensures |h| == 2 * TurnsBeforeExit(turns)
    decreases |turns|
  {
    if |turns| == 0 || IsExitWord(turns[0].input) then []
    else [Entry("user", turns[0].input), Entry("assistant", CliReply(turns[0]))] + Converse(turns[1..])
  }

  /** Entry `2i` is the `i`-th line typed and entry `2i+1` its answer. */
  lemma {:induction false} ConverseEntries(turns: seq<CliTurn>)
    ensures forall i :: 0 <= i < TurnsBeforeExit(turns) ==>
      Converse(turns)[2 * i] == Entry("user", turns[i].input)
      && Converse(turns)[2 * i + 1] == Entry("assistant", CliReply(turns[i]))
    decreases |turns|
  {
    if |turns| > 0 && !IsExitWord(turns[0].input) {
      var tail := turns[1..];
      ConverseEntries(tail);
      var rest := Converse(tail);
      var h := Converse(turns);
      assert h == [Entry("user", turns[0].input), Entry("assistant", CliReply(turns[0]))] + rest;
      assert h[2..] == rest;
      var n := TurnsBeforeExit(turns);
      assert n == 1 + TurnsBeforeExit(tail);
      forall i | 1 <= i < n
        ensures h[2 * i] == Entry("user", turns[i].input) && h[2 * i + 1] == Entry("assistant", CliReply(turns[i]))
      {
        var k := 2 * (i - 1);
        assert tail[i - 1] == turns[i];
        PairShift(h, rest, k);
      }
    }
  }

  /** Past the first two entries, the history is the rest shifted by two. */
  lemma PairShift(h: seq<Entry>, rest: seq<Entry>, k: nat)
    requires |h| == |rest| + 2 && h[2..] == rest && k + 1 < |rest|
    ensures h[k + 2] == rest[k] && h[k + 3] == rest[k + 1]
  {
    assert h[2..][k] == h[k + 2];
    assert h[2..][k + 1] == h[k + 3];
  }

  datatype Session = NoKey | Conversation(history: seq<Entry>)

  /** `ai_assistant`: without an OpenAI key nothing starts; otherwise the
      history opens with the system entry and grows by one user and one
      assistant entry per answered line. */
  function AiAssistant(openAiKey: Option<string>, turns: seq<CliTurn>): (s: Session)
    ensures s.NoKey? <==> !NonEmpty(openAiKey)
    ensures s.Conversation? ==> |s.history| == 1 + 2 * TurnsBeforeExit(turns)
    ensures s.Conversation? ==> s.history[0] == Entry("system", SystemPrompt)
    ensures s.Conversation? ==>
      forall i :: 0 <= i < TurnsBeforeExit(turns) ==> s.history[1 + 2 * i] == Entry("user", turns[i].input)
    ensures s.Conversation? ==>
      forall i :: 0 <= i < TurnsBeforeExit(turns) ==> s.history[2 + 2 * i] == Entry("assistant", CliReply(turns[i]))
  {
    if !NonEmpty(openAiKey) then NoKey
    else
      var h := [Entry("system", SystemPrompt)] + Converse(turns);
      ConverseEntries(turns);
      assert forall i :: 0 <= i < TurnsBeforeExit(turns) ==> h[1 + 2 * i] == Converse(turns)[2 * i];
      assert forall i :: 0 <= i < TurnsBeforeExit(turns) ==> h[2 + 2 * i] == Converse(turns)[2 * i + 1];
      Conversation(h)
  }
}

=== FILE: chat_handler.dfy ===
/** The WebSocket chat handler: connection bookkeeping, routing of incoming
    messages by type, and the slash-free command language
    (`help`, `github ...`, `graph ...`, `task ...`, `status`). */
module ChatHandler {
  import opened Wrappers
  import opened Text
  import opened Json
  import opened Tracker

  // ------------------------------------------------------------ connections

  /** The ids of the connected clients (the sockets themselves are left out). */
  type Connections = set<string>

  function Connect(c: Connections, clientId: string): (r: Connections)
    ensures clientId in r && c <= r && r - {clientId} == c - {clientId}
  {
    c + {clientId}
  }

  function Disconnect(c: Connections, clientId: string): (r: Connections)
    ensures clientId !in r && r <= c && c - {clientId} == r
  {
    if clientId in c then c - {clientId} else c
  }

  /** Connecting then disconnecting a client leaves the others as they were. */
  lemma ConnectDisconnect(c: Connections, clientId: string)
    ensures Disconnect(Connect(c, clientId), clientId) == c - {clientId}
    ensures clientId !in c ==> Disconnect(Connect(c, clientId), clientId) == c
  {
  }

  // ------------------------------------------------------------ messages

  /** A "type" entry as Python compares it: a string, or any other JSON
      value together with the text `str()` makes of it. */
  datatype TypeValue = StrType(s: string) | OtherType(pythonStr: string)

  /** `"type": null`, which Python reads as `None`. */
  const NullType := OtherType("None")

  /** The text a type shows in the "Unknown message type" error. */
  function TypeText(t: TypeValue): string
  {
    match t
    case StrType(s) => s
    case OtherType(p) => p
  }

  /** An incoming frame: text that is not JSON, JSON that is not an object
      (its `.get` raises, with the given error text), or an object whose
      "type", "content" and "client_id" entries may be absent. */
  datatype Incoming =
    | NotJson(text: string)
    | NotAnObject(pythonError: string)
    | Message(msgType: Option<TypeValue>, content: Option<string>, clientId: Option<string>)

  datatype Route =
    | TextRoute(text: string, clientId: string)
    | CommandRoute(command: string, clientId: string)
    | TaskStatusRoute(taskId: string)
    | ErrorRoute(message: string)

  /** The three message types the handler serves. */
  predicate KnownType(t: TypeValue)
  {
    t.StrType? && t.s in ["text", "command", "task_status"]
  }

  /** `process_message`: undecodable text is chatted as-is from client
      "unknown"; a missing type means "text", missing content is "" and a
      missing client id is "unknown"; any other type, null included, is
      reported by its Python text. */
  function RouteMessage(m: Incoming): (r: Route)
    ensures m.NotJson? ==> r == TextRoute(m.text, "unknown")
    ensures m.NotAnObject? ==> r == ErrorRoute("Error processing message: " + m.pythonError)
    ensures m.Message? && m.msgType in {None, Some(StrType("text"))} ==>
      r == TextRoute(m.content.GetOr(""), m.clientId.GetOr("unknown"))
    ensures m.Message? && m.msgType == Some(StrType("command")) ==>
      r == CommandRoute(m.content.GetOr(""), m.clientId.GetOr("unknown"))
    ensures m.Message? && m.msgType == Some(StrType("task_status")) ==> r == TaskStatusRoute(m.content.GetOr(""))
    ensures m.Message? && m.msgType.Some? && !KnownType(m.msgType.value) ==>
      r == ErrorRoute("Unknown message type: " + TypeText(m.msgType.value))
    ensures r.ErrorRoute? <==> (m.NotAnObject? || (m.Message? && m.msgType.Some? && !KnownType(m.msgType.value)))
  {
    match m
    case NotJson(t) => TextRoute(t, "unknown")
    case NotAnObject(e) => ErrorRoute("Error processing message: " + e)
    case Message(ty, content, client) =>
      var t := ty.GetOr(StrType("text"));
      var body := content.GetOr("");
      var id := client.GetOr("unknown");
      if t == StrType("text") then TextRoute(body, id)
      else if t == StrType("command") then CommandRoute(body, id)
      else if t == StrType("task_status") then TaskStatusRoute(body)
      else ErrorRoute("Unknown message type: " + TypeText(t))
  }

  /** A JSON null type is not read as the default "text": it is reported as
      an unknown type, unlike an absent one. */
  lemma NullTypeIsUnknown(content: Option<string>, clientId: Option<string>)
    ensures RouteMessage(Message(Some(NullType), content, clientId)) == ErrorRoute("Unknown message type: None")
    ensures RouteMessage(Message(None, content, clientId)) == TextRoute(content.GetOr(""), clientId.GetOr("unknown"))
  {
  }

  /** The text path needs an LLM client; when there is none it retries once
      with the stored key, then the environment's key. */
  function LlmReady(hasClient: bool, storedKey: Option<string>, envKey: Option<string>, constructionFails: bool): (r: bool)
    ensures hasClient ==> r
    ensures !hasClient && !NonEmpty(storedKey) && !NonEmpty(envKey) ==> !r
    ensures !hasClient && constructionFails ==> !r
    ensures !hasClient && !constructionFails && (NonEmpty(storedKey) || NonEmpty(envKey)) ==> r
  {
    hasClient || (!constructionFails && (NonEmpty(storedKey) || NonEmpty(envKey)))
  }

  // ------------------------------------------------------------ commands

  datatype Reply = SystemReply(message: string) | ErrorReply(message: string)

  /** What a command leads to: a reply, or one of the operations the
      handler hands to the GitHub client or the graph store. */
  datatype Effect =
    | Replied(reply: Reply)
    | ShowHelp
    | ShowStatus(githubAvailable: bool, neo4jAvailable: bool, taskCount: nat)
    | FetchRepositories(owner: string)
    | SearchRepositories(query: string)
    | ListGraphs
    | GraphStatistics(graphName: string)

  /** `command.strip().lower().split(" ", 1)`. */
  function ParseCommand(command: string): (r: (string, string))
    ensures ' ' !in r.0
  {
    SplitOnce(Lower(Strip(command)), ' ')
  }

  /** `args.split(" ", 1)` for the sub-command and its parameter. */
  function ParseSub(args: string): (r: (string, string))
    ensures ' ' !in r.0
  {
    SplitOnce(args, ' ')
  }

  const GithubUnavailableText := "GitHub client is not available. Please configure GitHub credentials in settings."
  const Neo4jUnavailableText := "Neo4j connection is not available. Please configure Neo4j in settings."

  /** `github repos <owner>` and `github search <query>`. */
  function GithubCommand(args: string, available: bool): (e: Effect)
    ensures !available ==> e == Replied(ErrorReply(GithubUnavailableText))
    ensures e.FetchRepositories? ==> available && |e.owner| > 0 && ParseSub(args) == ("repos", e.owner)
    ensures e.SearchRepositories? ==> available && |e.query| > 0 && ParseSub(args) == ("search", e.query)
    ensures available && ParseSub(args).0 == "repos" ==>
      e == (if ParseSub(args).1 == "" then Replied(ErrorReply("Please specify a username or organization name."))
            else FetchRepositories(ParseSub(args).1))
    ensures available && ParseSub(args).0 == "search" ==>
      e == (if ParseSub(args).1 == "" then Replied(ErrorReply("Please specify a search query."))
            else SearchRepositories(ParseSub(args).1))
    ensures available && ParseSub(args).0 !in ["repos", "search"] ==>
      e == Replied(ErrorReply("Unknown GitHub command: " + ParseSub(args).0 + ". Available: repos, search"))
  {
    if !available then
      Replied(ErrorReply(GithubUnavailableText))
    else
      var (sub, params) := ParseSub(args);
      if sub == "repos" then
        if params == "" then Replied(ErrorReply("Please specify a username or organization name."))
        else FetchRepositories(params)
      else if sub == "search" then
        if params == "" then Replied(ErrorReply("Please specify a search query."))
        else SearchRepositories(params)
      else Replied(ErrorReply("Unknown GitHub command: " + sub + ". Available: repos, search"))
  }

  /** `graph list` and `graph stats <name>`. */
  function GraphCommand(args: string, available: bool): (e: Effect)
    ensures !available ==> e == Replied(ErrorReply(Neo4jUnavailableText))
    ensures e.ListGraphs? ==> available && ParseSub(args).0 == "list"
    ensures e.GraphStatistics? ==> available && |e.graphName| > 0 && ParseSub(args) == ("stats", e.graphName)
    ensures available && ParseSub(args).0 == "list" ==> e == ListGraphs
    ensures available && ParseSub(args).0 == "stats" ==>
      e == (if ParseSub(args).1 == "" then Replied(ErrorReply("Please specify a graph name."))
            else GraphStatistics(ParseSub(args).1))
    ensures available && ParseSub(args).0 !in ["list", "stats"] ==>
      e == Replied(ErrorReply("Unknown graph command: " + ParseSub(args).0 + ". Available: list, stats"))
  {
    if !available then
      Replied(ErrorReply(Neo4jUnavailableText))
    else
      var (sub, params) := ParseSub(args);
      if sub == "list" then ListGraphs
      else if sub == "stats" then
        if params == "" then Replied(ErrorReply("Please specify a graph name.")) else GraphStatistics(params)
      else Replied(ErrorReply("Unknown graph command: " + sub + ". Available: list, stats"))
  }

  /** The tracker's answers to whatever a task command asks. */
  datatype TaskAnswers = TaskAnswers(resumable: seq<Value>, lookup: Option<Value>, cancelAccepted: bool)

  /** `str(v)` for a JSON scalar: None, True, False, the decimal digits of
      an integer, or the string itself. */
  function ScalarText(v: Value): (r: Option<string>)
    ensures r.Some? <==> !(v.JReal? || v.JArr? || v.JObj?)
  {
    match v
    case JNull => Some("None")
    case JBool(b) => Some(if b then "True" else "False")
    case JNum(n) => Some(IntToString(n))
    case JStr(s) => Some(s)
    case _ => None
  }

  /** `task.get('status', 'unknown')` as an f-string shows it. */
  function StatusText(task: Value): (r: string)
    ensures Get(task, "status").None? ==> r == "unknown"
    ensures Get(task, "status").Some? && ScalarText(Get(task, "status").value).Some? ==>
      r == ScalarText(Get(task, "status").value).value
  {
    match Get(task, "status")
    case None => "unknown"
    case Some(v) => ScalarText(v).GetOr("unknown")
  }

  /** A stored status of null is shown as Python shows it, not as "unknown". */
  lemma NullStatusShowsNone(id: Value)
    ensures StatusText(JObj([("status", JNull), ("id", id)])) == "None"
    ensures StatusText(JObj([("id", id)])) == "unknown"
    ensures StatusText(JObj([("status", JStr("running"))])) == "running"
  {
  }

  /** The task sub-commands the handler knows. */
  datatype TaskSub = ListSub | StatusSub | CancelSub | OtherSub

  function TaskSubOf(sub: string): (k: TaskSub)
    ensures k == ListSub <==> sub == "list"
    ensures k == StatusSub <==> sub == "status"
    ensures k == CancelSub <==> sub == "cancel"
  {
    if sub == "list" then ListSub
    else if sub == "status" then StatusSub
    else if sub == "cancel" then CancelSub
    else OtherSub
  }

  function TaskCommand(args: string, t: TaskAnswers): (r: (Effect, seq<Call>))
    ensures r.0.Replied?
    ensures |r.1| <= 1
    ensures |r.1| == 1 ==> r.1[0] in [ListResumableTasks, GetTask(ParseSub(args).1), CancelTask(ParseSub(args).1)]
    ensures r.1 == [] ==> r.0.reply.ErrorReply?
    ensures r.0.reply.SystemReply? && ParseSub(args).0 == "cancel" ==> t.cancelAccepted
    ensures ParseSub(args).0 == "list" ==> r.1 == [ListResumableTasks] && r.0.reply.SystemReply?
    ensures ParseSub(args).0 in ["status", "cancel"] && ParseSub(args).1 == "" ==> r.1 == [] && r.0.reply.ErrorReply?
    ensures ParseSub(args).0 == "status" && ParseSub(args).1 != "" ==>
      (r.0.reply.SystemReply? <==> t.lookup.Some? && Truthy(t.lookup.value))
    ensures ParseSub(args).0 == "cancel" && ParseSub(args).1 != "" ==> (r.0.reply.SystemReply? <==> t.cancelAccepted)
    ensures ParseSub(args).0 !in ["list", "status", "cancel"] ==> r.1 == [] && r.0.reply.ErrorReply?
  {
    var (sub, params) := ParseSub(args);
    match TaskSubOf(sub)
    case ListSub =>
      (Replied(SystemReply("Found " + NatToString(|t.resumable|) + " tasks")), [ListResumableTasks])
    case StatusSub =>
      if params == "" then (Replied(ErrorReply("Please specify a task ID.")), [])
      else if t.lookup.Some? && Truthy(t.lookup.value) then
        (Replied(SystemReply("Status for task " + params + ": " + StatusText(t.lookup.value))), [GetTask(params)])
      else (Replied(ErrorReply("No task found with ID " + params)), [GetTask(params)])
    case CancelSub =>
      if params == "" then (Replied(ErrorReply("Please specify a task ID.")), [])
      else if t.cancelAccepted then (Replied(SystemReply("Task " + params + " cancelled successfully")), [CancelTask(params)])
      else (Replied(ErrorReply("Failed to cancel task " + params)), [CancelTask(params)])
    case OtherSub => (Replied(ErrorReply("Unknown task command: " + sub + ". Available: list, status, cancel")), [])
  }

  /** The commands the handler knows. */
  datatype Verb = HelpVerb | GithubVerb | GraphVerb | TaskVerb | StatusVerb | OtherVerb

  function VerbOf(cmd: string): (v: Verb)
    ensures v == HelpVerb <==> cmd == "help"
    ensures v == TaskVerb <==> cmd == "task"
    ensures v == StatusVerb <==> cmd == "status"
    ensures v == OtherVerb <==> cmd !in ["help", "github", "graph", "task", "status"]
  {
    if cmd == "help" then HelpVerb
    else if cmd == "github" then GithubVerb
    else if cmd == "graph" then GraphVerb
    else if cmd == "task" then TaskVerb
    else if cmd == "status" then StatusVerb
    else OtherVerb
  }

  /** `_process_command`: the whole command line, with the services'
      availability and the tracker's answers. */
  function ProcessCommand(command: string, github: bool, graph: bool, t: TaskAnswers): (r: (Effect, seq<Call>))
    ensures r.1 == (if ParseCommand(command).0 == "task" then TaskCommand(ParseCommand(command).1, t).1
                    else if ParseCommand(command).0 == "status" then [ListResumableTasks]
                    else [])
    ensures ParseCommand(command).0 == "help" ==> r == (ShowHelp, [])
    ensures ParseCommand(command).0 == "github" ==> r == (GithubCommand(ParseCommand(command).1, github), [])
    ensures ParseCommand(command).0 == "graph" ==> r == (GraphCommand(ParseCommand(command).1, graph), [])
    ensures ParseCommand(command).0 == "task" ==> r == TaskCommand(ParseCommand(command).1, t)
    ensures ParseCommand(command).0 == "status" ==> r == (ShowStatus(github, graph, |t.resumable|), [ListResumableTasks])
    ensures ParseCommand(command).0 !in ["help", "github", "graph", "task", "status"] ==>
      r.1 == [] && r.0.Replied? && r.0.reply.ErrorReply?
  {
    var (cmd, args) := ParseCommand(command);
    match VerbOf(cmd)
    case HelpVerb => (ShowHelp, [])
    case GithubVerb => (GithubCommand(args, github), [])
    case GraphVerb => (GraphCommand(args, graph), [])
    case TaskVerb => TaskCommand(args, t)
    case StatusVerb => (ShowStatus(github, graph, |t.resumable|), [ListResumableTasks])
    case OtherVerb => (Replied(ErrorReply("Unknown command: " + cmd + ". Type 'help' for available commands.")), [])
  }

  /** Every argument the command language passes on has been lower-cased,
      so a task id typed in upper case reaches the tracker in lower case. */
  lemma CommandArgumentsAreLowerCase(command: string, github: bool, graph: bool, t: TaskAnswers)
    ensures forall c :: c in ProcessCommand(command, github, graph, t).1 && (c.GetTask? || c.CancelTask?) ==>
      Lower(c.taskId) == c.taskId
  {
    TaskCallIds(ParseCommand(command).1, t);
    TaskIdIsLowerCase(command);
  }

  /** The id after `task <sub>` is a suffix of the lower-cased line. */
  lemma TaskIdIsLowerCase(command: string)
    ensures Lower(ParseSub(ParseCommand(command).1).1) == ParseSub(ParseCommand(command).1).1
  {
    var line := Lower(Strip(command));
    LowerIdempotent(Strip(command));
    var args := ParseCommand(command).1;
    var params := ParseSub(args).1;
    SplitTailIsSuffix(line, ' ');
    SplitTailIsSuffix(args, ' ');
    EndsWithTrans(line, args, params);
    LowerOfSuffix(line, params);
  }

  lemma TaskCallIds(args: string, t: TaskAnswers)
    ensures forall c :: c in TaskCommand(args, t).1 && (c.GetTask? || c.CancelTask?) ==> c.taskId == ParseSub(args).1
    ensures ParseSub(args).0 == "status" && ParseSub(args).1 != "" ==> TaskCommand(args, t).1 == [GetTask(ParseSub(args).1)]
    ensures ParseSub(args).0 == "cancel" && ParseSub(args).1 != "" ==> TaskCommand(args, t).1 == [CancelTask(ParseSub(args).1)]
  {
    var (sub, params) := ParseSub(args);
    var k := TaskSubOf(sub);
  }

  lemma EndsWithTrans(a: string, b: string, c: string)
    requires EndsWith(a, b) && EndsWith(b, c)
    ensures EndsWith(a, c)
  {
    assert a[|a| - |c|..] == b[|b| - |c|..];
  }

  lemma SplitTailIsSuffix(s: string, c: char)
    ensures EndsWith(s, SplitOnce(s, c).1)
  {
    var (h, t) := SplitOnce(s, c);
    if c in s {
      assert s == (h + [c]) + t;
    }
  }

  /** A suffix of a lower-cased string is lower-cased. */
  lemma LowerOfSuffix(s: string, suffix: string)
    requires Lower(s) == s && EndsWith(s, suffix)
    ensures Lower(suffix) == suffix
  {
    forall i | 0 <= i < |suffix| ensures ToLower(suffix[i]) == suffix[i] {
      assert suffix[i] == s[|s| - |suffix| + i];
      assert ToLower(s[|s| - |suffix| + i]) == s[|s| - |suffix| + i];
    }
  }

  /** Composing a command line and parsing it again gives back the task
      operation and id: `task status <id>` looks the id up and `task cancel
      <id>` cancels it, for any id in the command language's own form. */
  lemma TaskCommandRoundTrip(verb: string, id: string, t: TaskAnswers)
    requires verb == "status" || verb == "cancel"
    requires |id| > 0 && Lower(id) == id && Strip(id) == id
    ensures verb == "status" ==> ProcessCommand("task " + verb + " " + id, true, true, t).1 == [GetTask(id)]
    ensures verb == "cancel" ==> ProcessCommand("task " + verb + " " + id, true, true, t).1 == [CancelTask(id)]
  {
    ParseOf(verb, id);
    TaskLineCalls("task " + verb + " " + id, verb + " " + id, id, t);
  }

  lemma TaskLineCalls(line: string, rest: string, id: string, t: TaskAnswers)
    requires ParseCommand(line) == ("task", rest) && |id| > 0
    ensures ParseSub(rest) == ("status", id) ==> ProcessCommand(line, true, true, t).1 == [GetTask(id)]
    ensures ParseSub(rest) == ("cancel", id) ==> ProcessCommand(line, true, true, t).1 == [CancelTask(id)]
  {
    TaskCallIds(rest, t);
  }

  lemma ParseOf(verb: string, id: string)
    requires verb == "status" || verb == "cancel"
    requires |id| > 0 && Lower(id) == id && Strip(id) == id
    ensures ParseCommand("task " + verb + " " + id) == ("task", verb + " " + id)
    ensures ParseSub(verb + " " + id) == (verb, id)
  {
    ParseLine(verb, id);
    ParseVerb(verb, id);
  }

  lemma ParseLine(verb: string, id: string)
    requires verb == "status" || verb == "cancel"
    requires |id| > 0 && Lower(id) == id && Strip(id) == id
    ensures ParseCommand("task " + verb + " " + id) == ("task", verb + " " + id)
  {
    var rest := verb + [' '] + id;
    assert "task " + verb + " " + id == "task" + [' '] + rest;
    assert verb + " " + id == rest;
    CommandLineIsNormal(verb, id);
    SplitOnceOfJoin("task", ' ', rest);
  }

  lemma ParseVerb(verb: string, id: string)
    requires verb == "status" || verb == "cancel"
    ensures ParseSub(verb + " " + id) == (verb, id)
  {
    assert verb + " " + id == verb + [' '] + id;
    SplitOnceOfJoin(verb, ' ', id);
  }

  lemma CommandLineIsNormal(verb: string, id: string)
    requires verb == "status" || verb == "cancel"
    requires |id| > 0 && Lower(id) == id && Strip(id) == id
    ensures Lower(Strip("task" + [' '] + (verb + [' '] + id))) == "task" + [' '] + (verb + [' '] + id)
  {
    var line := "task" + [' '] + (verb + [' '] + id);
    assert !IsSpace(id[|id| - 1]);
    assert line[|line| - 1] == id[|id| - 1];
    assert Strip(line) == line;
    forall i | 0 <= i < |line| ensures !IsUpper(line[i]) {
      if i >= |line| - |id| {
        assert line[i] == id[i - (|line| - |id|)];
        assert ToLower(id[i - (|line| - |id|)]) == id[i - (|line| - |id|)];
      }
    }
    LowerOfNoUpper(line);
  }

  /** `_send_task_status`. */
  function TaskStatusReply(taskId: string, lookup: Option<Value>): (r: Reply)
    ensures r.SystemReply? <==> lookup.Some? && Truthy(lookup.value)
  {
    if lookup.Some? && Truthy(lookup.value) then
      SystemReply("Task " + taskId + " status: " + StatusText(lookup.value))
    else ErrorReply("No task found with ID " + taskId)
  }
}

=== FILE: cli_config.dfy ===
/** The command-line configuration menu's decisions: which credentials the
    guided setup saves, how a typed port is judged, and how a typed graph
    number and a deletion confirmation are read. */
module CliConfig {
  import opened Wrappers
  import opened Text

  // ---------------------------------------------------------------- ports

  const MinPort := 1024
  const MaxPort := 65535

  predicate InPortRange(p: int)
  {
    MinPort <= p <= MaxPort
  }

  datatype PortDecision = UseDefault | NotANumber | OutOfRange(port: int) | Accept(port: int)

  /** The server-settings menu: `int(input)`, then the range check. */
  function MenuPort(input: string): (d: PortDecision)
    ensures d.Accept? <==> ParseInt(input).Some? && InPortRange(ParseInt(input).value)
    ensures d.Accept? ==> d.port == ParseInt(input).value
    ensures d.NotANumber? <==> ParseInt(input).None?
    ensures !d.UseDefault?
  {
    match ParseInt(input)
    case None => NotANumber
    case Some(p) => if InPortRange(p) then Accept(p) else OutOfRange(p)
  }

  /** The guided setup: an empty answer keeps the current port, anything
      else is judged as in the menu. */
  function WizardPort(input: string): (d: PortDecision)
    ensures |input| == 0 <==> d.UseDefault?
    ensures |input| > 0 ==> d == MenuPort(input)
  {
    if |input| == 0 then UseDefault else MenuPort(input)
  }

  /** Every port in range, typed as digits, is accepted as itself; every
      number outside it is refused. */
  lemma PortRoundTrip(p: int)
    ensures InPortRange(p) ==> WizardPort(IntToString(p)) == Accept(p) && MenuPort(IntToString(p)) == Accept(p)
    ensures !InPortRange(p) ==> MenuPort(IntToString(p)) == OutOfRange(p)
  {
    ParseIntRoundTrip(p);
    assert |IntToString(p)| > 0 by {
      assert ParseInt(IntToString(p)).Some?;
    }
  }

  /** The two prompts agree on every non-empty answer, and only the menu
      calls an empty answer "not a number". */
  lemma PromptsAgree(input: string)
    ensures |input| > 0 ==> WizardPort(input) == MenuPort(input)
    ensures |input| == 0 ==> MenuPort(input) == NotANumber
  {
    if |input| == 0 {
      assert Strip(input) == "";
    }
  }

  // -------------------------------------------------------- guided setup

  datatype Action =
    | SaveHuggingface(username: string, token: string)
    | SetGithubTokenForSession(token: string)
    | SaveOpenAi(key: string)
    | SaveNeo4j(uri: string, username: string, password: string)
    | SaveServerPort(port: int)
    | SaveTempDir(path: string)

  /** The answers typed into the guided setup, in order.  The Neo4j
      fields are read only after a "y". */
  datatype Answers = Answers(hfUsername: string, hfToken: string, githubToken: string, openAiKey: string,
                             configureNeo4j: string, neo4jUri: string, neo4jUser: string, neo4jPassword: string,
                             port: string, tempDir: string)

  predicate SavesHuggingface(a: Answers)
  {
    |a.hfUsername| > 0 && |a.hfToken| > 0
  }

  predicate SavesNeo4j(a: Answers)
  {
    Lower(a.configureNeo4j) == "y" && |a.neo4jUri| > 0 && |a.neo4jUser| > 0 && |a.neo4jPassword| > 0
  }

  /** What the guided setup saves, group by group in the order it asks
      (`None` is skipped). */
  datatype Plan = Plan(huggingface: Option<Action>, github: Option<Action>, openAi: Option<Action>,
                       neo4j: Option<Action>, port: Option<Action>, tempDir: Option<Action>)

  /** The guided setup: each group is saved only when every field it needs
      was given, and the port only when it passes the check. */
  function GuidedSetup(a: Answers): (p: Plan)
    ensures p.huggingface.Some? <==> SavesHuggingface(a)
    ensures p.huggingface.Some? ==> p.huggingface.value == SaveHuggingface(a.hfUsername, a.hfToken)
    ensures p.neo4j.Some? <==> SavesNeo4j(a)
    ensures p.neo4j.Some? ==> p.neo4j.value == SaveNeo4j(a.neo4jUri, a.neo4jUser, a.neo4jPassword)
    ensures p.openAi == (if |a.openAiKey| > 0 then Some(SaveOpenAi(a.openAiKey)) else None)
    ensures p.github == (if |a.githubToken| > 0 then Some(SetGithubTokenForSession(a.githubToken)) else None)
    ensures p.port.Some? <==> WizardPort(a.port).Accept?
    ensures p.port.Some? ==> p.port.value == SaveServerPort(WizardPort(a.port).port) && InPortRange(p.port.value.port)
    ensures p.tempDir.Some? <==> |a.tempDir| > 0
  {
    Plan(if SavesHuggingface(a) then Some(SaveHuggingface(a.hfUsername, a.hfToken)) else None,
         if |a.githubToken| > 0 then Some(SetGithubTokenForSession(a.githubToken)) else None,
         if |a.openAiKey| > 0 then Some(SaveOpenAi(a.openAiKey)) else None,
         if SavesNeo4j(a) then Some(SaveNeo4j(a.neo4jUri, a.neo4jUser, a.neo4jPassword)) else None,
         match WizardPort(a.port) case Accept(p) => Some(SaveServerPort(p)) case _ => None,
         if |a.tempDir| > 0 then Some(SaveTempDir(a.tempDir)) else None)
  }

  /** Answering "Y" to the Neo4j question counts as "y". */
  lemma Neo4jQuestionIgnoresCase(a: Answers)
    ensures SavesNeo4j(a.(configureNeo4j := Upper(a.configureNeo4j))) == SavesNeo4j(a)
  {
    LowerIdempotent(a.configureNeo4j);
  }

  // ---------------------------------------------------- graph selection

  datatype Selection = NotANumberTyped | Cancel | Select(index: nat) | InvalidGraphNumber

  /** `int(input) - 1` against a list of `count` graphs: below zero
      cancels, an index in range selects, anything else is invalid. */
  function SelectGraph(input: string, count: nat): (s: Selection)
    ensures s.NotANumberTyped? <==> ParseInt(input).None?
    ensures s.Cancel? <==> ParseInt(input).Some? && ParseInt(input).value <= 0
    ensures s.Select? <==> ParseInt(input).Some? && 1 <= ParseInt(input).value <= count
    ensures s.Select? ==> s.index == ParseInt(input).value - 1 && s.index < count
  {
    match ParseInt(input)
    case None => NotANumberTyped
    case Some(n) =>
      var index := n - 1;
      if index < 0 then Cancel
      else if index < count then Select(index)
      else InvalidGraphNumber
  }

  /** The numbers printed beside the graphs, 1 to `count`, select the graph
      listed there; 0 cancels. */
  lemma PrintedNumbersSelect(n: nat, count: nat)
    ensures 1 <= n <= count ==> SelectGraph(NatToString(n), count) == Select(n - 1)
    ensures n == 0 ==> SelectGraph(NatToString(n), count) == Cancel
    ensures n > count ==> SelectGraph(NatToString(n), count) == InvalidGraphNumber
  {
    ParseNatString(n);
  }

  /** Deletion goes ahead only on "yes", in any case. */
  predicate ConfirmsDeletion(answer: string)
  {
    Lower(answer) == "yes"
  }

  lemma ConfirmationIgnoresCase(answer: string)
    ensures ConfirmsDeletion(Upper(answer)) == ConfirmsDeletion(answer)
    ensures !ConfirmsDeletion("y") && !ConfirmsDeletion("")
  {
    LowerIdempotent(answer);
  }
}

=== FILE: config_handler.dfy ===
/** The configuration endpoint's handler: which credentials it saves and
    which `.env` assignments it writes for a submitted form. */
module ConfigHandler {
  import opened Wrappers
  import opened EnvFile

  /** The submitted form; every field is optional. */
  datatype ConfigurationModel = ConfigurationModel(
    huggingfaceToken: Option<string>,
    githubToken: Option<string>,
    openaiApiKey: Option<string>,
    neo4jUri: Option<string>,
    neo4jUsername: Option<string>,
    neo4jPassword: Option<string>)

  /** Calls made on the credentials manager. */
  datatype SaveCall =
    | SaveHuggingface(username: string, token: string)
    | SaveOpenAi(key: string)
    | SaveNeo4j(uri: string, username: string, password: string)
    | SaveGithub(token: string)

  /** The username stored with a token submitted through the API. */
  const DefaultUsername := "homework_user"

  /** The groups the response lists as updated. */
  datatype Item = Huggingface | OpenAi | Neo4j | Github

  /** The name an item has in the response. */
  function ItemName(i: Item): string
  {
    match i
    case Huggingface => "huggingface"
    case OpenAi => "openai"
    case Neo4j => "neo4j"
    case Github => "github"
  }

  datatype Plan = Plan(saves: seq<SaveCall>, updatedItems: seq<Item>, envUpdates: seq<(string, string)>)

  predicate Neo4jComplete(c: ConfigurationModel)
  {
    NonEmpty(c.neo4jUri) && NonEmpty(c.neo4jUsername) && NonEmpty(c.neo4jPassword)
  }

  function HfPart(c: ConfigurationModel): Plan
  {
    if NonEmpty(c.huggingfaceToken) then
      Plan([SaveHuggingface(DefaultUsername, c.huggingfaceToken.value)], [Huggingface],
           [("HUGGINGFACE_TOKEN", c.huggingfaceToken.value)])
    else Plan([], [], [])
  }

  function OpenAiPart(c: ConfigurationModel): Plan
  {
    if NonEmpty(c.openaiApiKey) then
      Plan([SaveOpenAi(c.openaiApiKey.value)], [OpenAi], [("OPENAI_API_KEY", c.openaiApiKey.value)])
    else Plan([], [], [])
  }

  function Neo4jPart(c: ConfigurationModel): Plan
  {
    if Neo4jComplete(c) then
      Plan([SaveNeo4j(c.neo4jUri.value, c.neo4jUsername.value, c.neo4jPassword.value)], [Neo4j],
           [("NEO4J_URI", c.neo4jUri.value), ("NEO4J_USER", c.neo4jUsername.value),
            ("NEO4J_PASSWORD", c.neo4jPassword.value)])
    else Plan([], [], [])
  }

  function GithubPart(c: ConfigurationModel): Plan
  {
    if NonEmpty(c.githubToken) then
      Plan([SaveGithub(c.githubToken.value)], [Github], [("GITHUB_TOKEN", c.githubToken.value)])
    else Plan([], [], [])
  }

  function Then(a: Plan, b: Plan): Plan
  {
    Plan(a.saves + b.saves, a.updatedItems + b.updatedItems, a.envUpdates + b.envUpdates)
  }

  /** The items of the groups taken, in the handler's order. */
  function Chosen(hf: bool, openAi: bool, neo4j: bool, github: bool): (s: seq<Item>)
    ensures Huggingface in s <==> hf
    ensures OpenAi in s <==> openAi
    ensures Neo4j in s <==> neo4j
    ensures Github in s <==> github
    ensures forall i, j :: 0 <= i < j < |s| ==> s[i] != s[j]
  {
    var a := if hf then [Huggingface] else [];
    var b := if openAi then [OpenAi] else [];
    var d := if neo4j then [Neo4j] else [];
    var e := if github then [Github] else [];
    assert forall x :: x in a + b + d + e <==> x in a || x in b || x in d || x in e;
    a + b + d + e
  }

  /** The decisions of `update_configuration`, in the order it takes them:
      each group at most once, Hugging Face, OpenAI, Neo4j, GitHub. */
  function PlanUpdates(c: ConfigurationModel): (p: Plan)
    ensures p.updatedItems == Chosen(NonEmpty(c.huggingfaceToken), NonEmpty(c.openaiApiKey),
                                     Neo4jComplete(c), NonEmpty(c.githubToken))
    ensures |p.saves| == |p.updatedItems|
    ensures |p.envUpdates| == 0 <==> |p.updatedItems| == 0
    ensures NonEmpty(c.huggingfaceToken) ==> SaveHuggingface(DefaultUsername, c.huggingfaceToken.value) in p.saves
    ensures forall s :: s in p.saves && s.SaveHuggingface? ==>
      NonEmpty(c.huggingfaceToken) && s == SaveHuggingface(DefaultUsername, c.huggingfaceToken.value)
    ensures NonEmpty(c.openaiApiKey) ==> SaveOpenAi(c.openaiApiKey.value) in p.saves
    ensures forall s :: s in p.saves && s.SaveOpenAi? ==> NonEmpty(c.openaiApiKey) && s == SaveOpenAi(c.openaiApiKey.value)
    ensures Neo4jComplete(c) ==> SaveNeo4j(c.neo4jUri.value, c.neo4jUsername.value, c.neo4jPassword.value) in p.saves
    ensures forall s :: s in p.saves && s.SaveNeo4j? ==>
      Neo4jComplete(c) && s == SaveNeo4j(c.neo4jUri.value, c.neo4jUsername.value, c.neo4jPassword.value)
    ensures NonEmpty(c.githubToken) ==> SaveGithub(c.githubToken.value) in p.saves
    ensures forall s :: s in p.saves && s.SaveGithub? ==> NonEmpty(c.githubToken) && s == SaveGithub(c.githubToken.value)
  {
    Then(Then(Then(HfPart(c), OpenAiPart(c)), Neo4jPart(c)), GithubPart(c))
  }

  datatype Response =
    | Updated(items: seq<Item>)
    | ServerError(detail: string)

  datatype Handled = Handled(saves: seq<SaveCall>, envFile: Option<string>, response: Response)

  /** `update_configuration`: make the saves, then rewrite `.env` when some
      assignment is due.  `existingEnv` is the file (None when absent) and
      `envWriteError` the failure of writing it, if any. */
  function UpdateConfiguration(c: ConfigurationModel, existingEnv: Option<string>, envWriteError: Option<string>): (h: Handled)
    ensures h.saves == PlanUpdates(c).saves
    ensures h.envFile.Some? <==> |PlanUpdates(c).envUpdates| > 0 && envWriteError.None?
    ensures h.response.Updated? <==> (|PlanUpdates(c).envUpdates| == 0 || envWriteError.None?)
    ensures h.response.Updated? ==> h.response.items == PlanUpdates(c).updatedItems
    ensures h.envFile.Some? ==> h.envFile.value == UpdateEnvFile(existingEnv, PlanUpdates(c).envUpdates)
  {
    var p := PlanUpdates(c);
    if |p.envUpdates| == 0 then Handled(p.saves, None, Updated(p.updatedItems))
    else if envWriteError.Some? then
      Handled(p.saves, None, ServerError("Failed to update configuration: " + envWriteError.value))
    else Handled(p.saves, Some(UpdateEnvFile(existingEnv, p.envUpdates)), Updated(p.updatedItems))
  }

  /** The submitted values contain no line break. */
  predicate SingleLineValues(c: ConfigurationModel)
  {
    (c.huggingfaceToken.Some? ==> '\n' !in c.huggingfaceToken.value)
    && (c.githubToken.Some? ==> '\n' !in c.githubToken.value)
    && (c.openaiApiKey.Some? ==> '\n' !in c.openaiApiKey.value)
    && (c.neo4jUri.Some? ==> '\n' !in c.neo4jUri.value)
    && (c.neo4jUsername.Some? ==> '\n' !in c.neo4jUsername.value)
    && (c.neo4jPassword.Some? ==> '\n' !in c.neo4jPassword.value)
  }

  /** Every key of `u` starts with one of `letters`. */
  predicate KeysStartIn(u: seq<(string, string)>, letters: set<char>)
  {
    forall i :: 0 <= i < |u| ==> |u[i].0| > 0 && u[i].0[0] in letters
  }

  /** Concatenated update lists stay well formed when their keys start
      with different letters. */
  lemma WellFormedAppend(a: seq<(string, string)>, la: set<char>, b: seq<(string, string)>, lb: set<char>)
    requires WellFormedUpdates(a) && WellFormedUpdates(b)
    requires KeysStartIn(a, la) && KeysStartIn(b, lb) && la !! lb
    ensures WellFormedUpdates(a + b) && KeysStartIn(a + b, la + lb)
  {
    var ab := a + b;
    forall i, j | 0 <= i < j < |ab| ensures ab[i].0 != ab[j].0 {
      if j < |a| {
      } else if i >= |a| {
        assert ab[i] == b[i - |a|] && ab[j] == b[j - |a|];
      } else {
        assert ab[j] == b[j - |a|];
      }
    }
  }

  // Each group's assignments on their own are well formed, and the
  // groups' keys start with different letters.

  lemma HfPartWellFormed(c: ConfigurationModel)
    requires c.huggingfaceToken.Some? ==> '\n' !in c.huggingfaceToken.value
    ensures WellFormedUpdates(HfPart(c).envUpdates) && KeysStartIn(HfPart(c).envUpdates, {'H'})
  {
    assert '=' !in "HUGGINGFACE_TOKEN" && '\n' !in "HUGGINGFACE_TOKEN";
  }

  lemma OpenAiPartWellFormed(c: ConfigurationModel)
    requires c.openaiApiKey.Some? ==> '\n' !in c.openaiApiKey.value
    ensures WellFormedUpdates(OpenAiPart(c).envUpdates) && KeysStartIn(OpenAiPart(c).envUpdates, {'O'})
  {
    assert '=' !in "OPENAI_API_KEY" && '\n' !in "OPENAI_API_KEY";
  }

  lemma Neo4jPartWellFormed(c: ConfigurationModel)
    requires c.neo4jUri.Some? ==> '\n' !in c.neo4jUri.value
    requires c.neo4jUsername.Some? ==> '\n' !in c.neo4jUsername.value
    requires c.neo4jPassword.Some? ==> '\n' !in c.neo4jPassword.value
    ensures WellFormedUpdates(Neo4jPart(c).envUpdates) && KeysStartIn(Neo4jPart(c).envUpdates, {'N'})
  {
    var uk, nk, pk := "NEO4J_URI", "NEO4J_USER", "NEO4J_PASSWORD";
    assert '=' !in uk && '\n' !in uk;
    assert '=' !in nk && '\n' !in nk;
    assert '=' !in pk && '\n' !in pk;
    assert uk != nk && nk != pk && uk != pk;
  }

  lemma GithubPartWellFormed(c: ConfigurationModel)
    requires c.githubToken.Some? ==> '\n' !in c.githubToken.value
    ensures WellFormedUpdates(GithubPart(c).envUpdates) && KeysStartIn(GithubPart(c).envUpdates, {'G'})
  {
    assert '=' !in "GITHUB_TOKEN" && '\n' !in "GITHUB_TOKEN";
  }

  /** The planned assignments use distinct keys without `=` or newlines. */
  lemma PlannedUpdatesWellFormed(c: ConfigurationModel)
    requires SingleLineValues(c)
    ensures WellFormedUpdates(PlanUpdates(c).envUpdates)
  {
    var a, b, d, e := HfPart(c).envUpdates, OpenAiPart(c).envUpdates, Neo4jPart(c).envUpdates, GithubPart(c).envUpdates;
    assert PlanUpdates(c).envUpdates == a + b + d + e;
    HfPartWellFormed(c);
    OpenAiPartWellFormed(c);
    Neo4jPartWellFormed(c);
    GithubPartWellFormed(c);
    WellFormedAppend(a, {'H'}, b, {'O'});
    WellFormedAppend(a + b, {'H', 'O'}, d, {'N'});
    WellFormedAppend(a + b + d, {'H', 'O', 'N'}, e, {'G'});
  }

  /** Each submitted group's assignments are among the planned ones. */
  lemma PlannedAssignments(c: ConfigurationModel)
    ensures var u := PlanUpdates(c).envUpdates;
      (NonEmpty(c.huggingfaceToken) ==> ("HUGGINGFACE_TOKEN", c.huggingfaceToken.value) in u)
      && (NonEmpty(c.openaiApiKey) ==> ("OPENAI_API_KEY", c.openaiApiKey.value) in u)
      && (NonEmpty(c.githubToken) ==> ("GITHUB_TOKEN", c.githubToken.value) in u)
      && (Neo4jComplete(c) ==>
            (("NEO4J_URI", c.neo4jUri.value) in u
             && ("NEO4J_USER", c.neo4jUsername.value) in u
             && ("NEO4J_PASSWORD", c.neo4jPassword.value) in u))
  {
    var a, b, d, e := HfPart(c).envUpdates, OpenAiPart(c).envUpdates, Neo4jPart(c).envUpdates, GithubPart(c).envUpdates;
    assert PlanUpdates(c).envUpdates == a + b + d + e;
  }

  /** After a successful update the `.env` text assigns each submitted
      credential its new value, and nothing else for those keys. */
  lemma UpdatedEnvHoldsSubmittedValues(c: ConfigurationModel, existingEnv: Option<string>)
    requires SingleLineValues(c)
    ensures var h := UpdateConfiguration(c, existingEnv, None);
      var lines := SplitLines(h.envFile.GetOr(""));
      (NonEmpty(c.huggingfaceToken) ==> Sets(lines, "HUGGINGFACE_TOKEN", c.huggingfaceToken.value))
      && (NonEmpty(c.openaiApiKey) ==> Sets(lines, "OPENAI_API_KEY", c.openaiApiKey.value))
      && (NonEmpty(c.githubToken) ==> Sets(lines, "GITHUB_TOKEN", c.githubToken.value))
      && (Neo4jComplete(c) ==>
            (Sets(lines, "NEO4J_URI", c.neo4jUri.value)
             && Sets(lines, "NEO4J_USER", c.neo4jUsername.value)
             && Sets(lines, "NEO4J_PASSWORD", c.neo4jPassword.value)))
  {
    UpdatedEnvSetsPlanned(c, existingEnv);
    PlannedAssignments(c);
  }

  /** Every planned assignment holds in the written `.env` text. */
  lemma UpdatedEnvSetsPlanned(c: ConfigurationModel, existingEnv: Option<string>)
    requires SingleLineValues(c)
    ensures var lines := SplitLines(UpdateConfiguration(c, existingEnv, None).envFile.GetOr(""));
      forall kv :: kv in PlanUpdates(c).envUpdates ==> Sets(lines, kv.0, kv.1)
  {
    var u := PlanUpdates(c).envUpdates;
    var lines := SplitLines(UpdateConfiguration(c, existingEnv, None).envFile.GetOr(""));
    PlannedUpdatesWellFormed(c);
    if |u| > 0 {
      ApplyUpdatesSetsAll(existingEnv.GetOr(Header), u);
      assert lines == SplitLines(ApplyUpdates(existingEnv.GetOr(Header), u));
      forall kv | kv in u ensures Sets(lines, kv.0, kv.1) {
        var i :| 0 <= i < |u| && u[i] == kv;
      }
    }
  }
}

=== FILE: credentials.dfy ===
/** The credentials manager: where each secret is looked up, in which order,
    where a saved secret goes, and what the configuration log line shows. */
module Credentials {
  import opened Wrappers
  import opened Json
  import opened EnvFile

  /** The parsed configuration file. */
  type Config = map<string, Value>

  const DefaultServerPort := 8080
  const DefaultAwsRegion := "us-east-1"

  /** `has_keyring` is `usable`; a `broken` keyring raises on every call. */
  datatype Keyring = Keyring(usable: bool, broken: bool, stored: map<string, string>)

  /** Everything a lookup reads besides the keyring: the process
      environment, the variables loaded at start-up, the configuration
      file, and the text of `.env` when it can be read. */
  datatype Sources = Sources(osEnv: map<string, string>, loaded: map<string, string>, config: Config, dotEnv: Option<string>)

  /** A lookup's answer and the value of `has_keyring` afterwards. */
  datatype Found<T> = Found(value: Option<T>, keyringUsable: bool)

  // ------------------------------------------------------------- sources

  /** `d.get(key)` on a string dictionary. */
  function EnvGet(m: map<string, string>, key: string): (r: Option<string>)
    ensures r.Some? <==> key in m
  {
    if key in m then Some(m[key]) else None
  }

  /** `config.get(key)` for a secret, which the file stores as a string. */
  function ConfigString(config: Config, key: string): (r: Option<string>)
    ensures r.Some? ==> key in config && config[key] == JStr(r.value)
  {
    if key in config && config[key].JStr? then Some(config[key].s) else None
  }

  /** Python's `a or b` on optional strings. */
  function Or(a: Option<string>, b: Option<string>): (r: Option<string>)
    ensures NonEmpty(r) <==> NonEmpty(a) || NonEmpty(b)
    ensures NonEmpty(a) ==> r == a
  {
    if NonEmpty(a) then a else b
  }

  /** The `.env` fallback: `re.search(NAME + "=(.+)")`, stripped. */
  function DotEnv(src: Sources, name: string): Option<string>
  {
    match src.dotEnv
    case None => None
    case Some(text) => SearchAssignment(text, name)
  }

  /** `keyring.get_password`, skipped when `has_keyring` is false; a
      failing keyring yields nothing and turns `has_keyring` off. */
  function KeyringRead(kr: Keyring, key: string): (r: Found<string>)
    ensures !kr.usable ==> r == Found(None, false)
    ensures kr.usable && kr.broken ==> r == Found(None, false)
    ensures kr.usable && !kr.broken ==> r == Found(EnvGet(kr.stored, key), true)
  {
    if !kr.usable || kr.broken then Found(None, false)
    else Found(EnvGet(kr.stored, key), true)
  }

  // ----------------------------------------------------------- reference

  /** The reference resolution: the first source holding a non-empty value. */
  function FirstNonEmpty(sources: seq<Option<string>>): (r: Option<string>)
    ensures r.None? <==> forall i :: 0 <= i < |sources| ==> !NonEmpty(sources[i])
    ensures r.Some? ==> NonEmpty(r) && r in sources
    decreases |sources|
  {
    if |sources| == 0 then None
    else if NonEmpty(sources[0]) then sources[0]
    else FirstNonEmpty(sources[1..])
  }

  /** Earlier sources win: the answer is the earliest non-empty source. */
  lemma {:induction false} FirstNonEmptyIsEarliest(sources: seq<Option<string>>, i: nat)
    requires i < |sources| && NonEmpty(sources[i])
    requires forall j :: 0 <= j < i ==> !NonEmpty(sources[j])
    ensures FirstNonEmpty(sources) == sources[i]
    decreases i
  {
    if i > 0 {
      FirstNonEmptyIsEarliest(sources[1..], i - 1);
    }
  }

  lemma FirstNonEmptyCons(a: Option<string>, rest: seq<Option<string>>)
    ensures FirstNonEmpty([a] + rest) == if NonEmpty(a) then a else FirstNonEmpty(rest)
  {
    assert ([a] + rest)[1..] == rest;
  }

  // ------------------------------------------------- single-secret lookups

  /** The chain shared by the HuggingFace token and the OpenAPI key: the
      keyring, then the configuration file, then the loaded environment,
      each under the same key.  The answer keeps the last value tried, so
      it may be an empty string. */
  function KeyringConfigEnv(src: Sources, kr: Keyring, key: string): (r: Found<string>)
    ensures r.keyringUsable == (kr.usable && !kr.broken)
  {
    var read := KeyringRead(kr, key);
    var t := read.value;
    var t := if !NonEmpty(t) && key in src.config then ConfigString(src.config, key) else t;
    var t := if !NonEmpty(t) && NonEmpty(EnvGet(src.loaded, key)) then EnvGet(src.loaded, key) else t;
    Found(t, read.keyringUsable)
  }

  /** Up to truthiness, the chain is the first non-empty of its sources. */
  lemma KeyringConfigEnvResolves(src: Sources, kr: Keyring, key: string)
    ensures var r := KeyringConfigEnv(src, kr, key).value;
      var first := FirstNonEmpty([KeyringRead(kr, key).value, ConfigString(src.config, key), EnvGet(src.loaded, key)]);
      (NonEmpty(r) <==> first.Some?) && (NonEmpty(r) ==> r == first)
  {
    var a, b, c := KeyringRead(kr, key).value, ConfigString(src.config, key), EnvGet(src.loaded, key);
    assert [a, b, c] == [a] + ([b] + ([c] + []));
    FirstNonEmptyCons(a, [b] + ([c] + []));
    FirstNonEmptyCons(b, [c] + []);
    FirstNonEmptyCons(c, []);
  }

  /** `get_huggingface_credentials`: the username always comes from the
      configuration file (default ""), the token from the shared chain. */
  function HuggingfaceCredentials(src: Sources, kr: Keyring): (r: (Value, Found<string>))
    ensures r.0 == (if "huggingface_username" in src.config then src.config["huggingface_username"] else JStr(""))
    ensures r.1 == KeyringConfigEnv(src, kr, "huggingface_token")
  {
    var username := if "huggingface_username" in src.config then src.config["huggingface_username"] else JStr("");
    (username, KeyringConfigEnv(src, kr, "huggingface_token"))
  }

  /** `get_openapi_key`, the server's own API key: the shared keyring,
      configuration file, loaded environment chain under "openapi_key". */
  function OpenApiKey(src: Sources, kr: Keyring): Found<string>
  {
    KeyringConfigEnv(src, kr, "openapi_key")
  }

  /** `get_openai_key`: process environment, loaded environment, keyring,
      configuration file, `.env`; the first non-empty value is returned. */
  function OpenAiKey(src: Sources, kr: Keyring): (r: Found<string>)
    ensures r.value.Some? ==> NonEmpty(r.value)
  {
    var os := EnvGet(src.osEnv, "OPENAI_API_KEY");
    var loaded := EnvGet(src.loaded, "openai_api_key");
    if NonEmpty(os) then Found(os, kr.usable)
    else if NonEmpty(loaded) then Found(loaded, kr.usable)
    else
      var read := KeyringRead(kr, "openai_key");
      if NonEmpty(read.value) then read
      else
        var cfg := ConfigString(src.config, "openai_key");
        var dot := DotEnv(src, "OPENAI_API_KEY");
        if NonEmpty(cfg) then Found(cfg, read.keyringUsable)
        else if NonEmpty(dot) then Found(dot, read.keyringUsable)
        else Found(None, read.keyringUsable)
  }

  /** The OpenAI key is the first non-empty of its five sources, and the
      keyring is switched off only when it was reached and failed. */
  lemma OpenAiKeyResolves(src: Sources, kr: Keyring)
    ensures var early := [EnvGet(src.osEnv, "OPENAI_API_KEY"), EnvGet(src.loaded, "openai_api_key")];
      var r := OpenAiKey(src, kr);
      r.value == FirstNonEmpty(early + [KeyringRead(kr, "openai_key").value,
                                        ConfigString(src.config, "openai_key"), DotEnv(src, "OPENAI_API_KEY")])
      && r.keyringUsable == (kr.usable && (FirstNonEmpty(early).Some? || !kr.broken))
  {
    var a, b := EnvGet(src.osEnv, "OPENAI_API_KEY"), EnvGet(src.loaded, "openai_api_key");
    var c, d, e := KeyringRead(kr, "openai_key").value, ConfigString(src.config, "openai_key"), DotEnv(src, "OPENAI_API_KEY");
    assert [a, b] + [c, d, e] == [a] + ([b] + ([c] + ([d] + ([e] + []))));
    assert [a, b] == [a] + ([b] + []);
    FirstNonEmptyCons(a, [b] + []);
    FirstNonEmptyCons(b, []);
    FirstNonEmptyCons(a, [b] + ([c] + ([d] + ([e] + []))));
    FirstNonEmptyCons(b, [c] + ([d] + ([e] + [])));
    FirstNonEmptyCons(c, [d] + ([e] + []));
    FirstNonEmptyCons(d, [e] + []);
    FirstNonEmptyCons(e, []);
  }

  /** `get_github_token`: like the OpenAI key, with both spellings of the
      loaded variable. */
  function GithubToken(src: Sources, kr: Keyring): (r: Found<string>)
    ensures r.value.Some? ==> NonEmpty(r.value)
  {
    var os := EnvGet(src.osEnv, "GITHUB_TOKEN");
    var loaded := Or(EnvGet(src.loaded, "github_token"), EnvGet(src.loaded, "GITHUB_TOKEN"));
    if NonEmpty(os) then Found(os, kr.usable)
    else if NonEmpty(loaded) then Found(loaded, kr.usable)
    else
      var read := KeyringRead(kr, "github_token");
      if NonEmpty(read.value) then read
      else
        var cfg := ConfigString(src.config, "github_token");
        var dot := DotEnv(src, "GITHUB_TOKEN");
        if NonEmpty(cfg) then Found(cfg, read.keyringUsable)
        else if NonEmpty(dot) then Found(dot, read.keyringUsable)
        else Found(None, read.keyringUsable)
  }

  lemma GithubTokenResolves(src: Sources, kr: Keyring)
    ensures GithubToken(src, kr).value == FirstNonEmpty([
      EnvGet(src.osEnv, "GITHUB_TOKEN"), EnvGet(src.loaded, "github_token"), EnvGet(src.loaded, "GITHUB_TOKEN"),
      KeyringRead(kr, "github_token").value, ConfigString(src.config, "github_token"), DotEnv(src, "GITHUB_TOKEN")])
  {
    var a, b1, b2 := EnvGet(src.osEnv, "GITHUB_TOKEN"), EnvGet(src.loaded, "github_token"), EnvGet(src.loaded, "GITHUB_TOKEN");
    var c, d, e := KeyringRead(kr, "github_token").value, ConfigString(src.config, "github_token"), DotEnv(src, "GITHUB_TOKEN");
    ChainOfSix(a, b1, b2, c, d, e);
  }

  lemma ChainOfSix(a: Option<string>, b1: Option<string>, b2: Option<string>, c: Option<string>, d: Option<string>, e: Option<string>)
    ensures FirstNonEmpty([a, b1, b2, c, d, e])
      == if NonEmpty(a) then a else if NonEmpty(Or(b1, b2)) then Or(b1, b2)
         else if NonEmpty(c) then c else if NonEmpty(d) then d else if NonEmpty(e) then e else None
  {
    assert [a, b1, b2, c, d, e] == [a] + ([b1] + ([b2] + ([c] + ([d] + ([e] + [])))));
    FirstNonEmptyCons(a, [b1] + ([b2] + ([c] + ([d] + ([e] + [])))));
    FirstNonEmptyCons(b1, [b2] + ([c] + ([d] + ([e] + []))));
    FirstNonEmptyCons(b2, [c] + ([d] + ([e] + [])));
    FirstNonEmptyCons(c, [d] + ([e] + []));
    FirstNonEmptyCons(d, [e] + []);
    FirstNonEmptyCons(e, []);
  }

  // ------------------------------------------------------ grouped lookups

  datatype Neo4jCredentials = Neo4jCredentials(uri: string, username: string, password: string)

  /** One source's three Neo4j values. */
  datatype Triple = Triple(uri: Option<string>, username: Option<string>, password: Option<string>)

  predicate Complete(t: Triple)
  {
    NonEmpty(t.uri) && NonEmpty(t.username) && NonEmpty(t.password)
  }

  /** The reference: the first source whose three values are all non-empty. */
  function FirstComplete(groups: seq<Triple>): (r: Option<Neo4jCredentials>)
    ensures r.None? <==> forall i :: 0 <= i < |groups| ==> !Complete(groups[i])
    ensures r.Some? ==> exists i :: (0 <= i < |groups| && Complete(groups[i]) &&
      r.value == Neo4jCredentials(groups[i].uri.value, groups[i].username.value, groups[i].password.value))
    decreases |groups|
  {
    if |groups| == 0 then None
    else if Complete(groups[0]) then
      Some(Neo4jCredentials(groups[0].uri.value, groups[0].username.value, groups[0].password.value))
    else
      var r := FirstComplete(groups[1..]);
      assert forall i :: 1 <= i < |groups| ==> groups[i] == groups[1..][i - 1];
      r
  }

  function KeyringTriple(kr: Keyring): Triple
  {
    Triple(KeyringRead(kr, "neo4j_uri").value, KeyringRead(kr, "neo4j_username").value,
           KeyringRead(kr, "neo4j_password").value)
  }

  function Neo4jSources(src: Sources, kr: Keyring): seq<Triple>
  {
    [ Triple(EnvGet(src.osEnv, "NEO4J_URI"), EnvGet(src.osEnv, "NEO4J_USER"), EnvGet(src.osEnv, "NEO4J_PASSWORD")),
      KeyringTriple(kr),
      Triple(ConfigString(src.config, "neo4j_uri"), ConfigString(src.config, "neo4j_username"),
             ConfigString(src.config, "neo4j_password")),
      Triple(Or(EnvGet(src.loaded, "neo4j_uri"), EnvGet(src.loaded, "NEO4J_URI")),
             Or(EnvGet(src.loaded, "neo4j_username"), EnvGet(src.loaded, "NEO4J_USER")),
             Or(EnvGet(src.loaded, "neo4j_password"), EnvGet(src.loaded, "NEO4J_PASSWORD"))),
      Triple(DotEnv(src, "NEO4J_URI"), DotEnv(src, "NEO4J_USER"), DotEnv(src, "NEO4J_PASSWORD")) ]
  }

  /** `get_neo4j_credentials`, source by source with early returns. */
  function Neo4jLookup(src: Sources, kr: Keyring): (r: Found<Neo4jCredentials>)
  {
    var groups := Neo4jSources(src, kr);
    var afterKeyring := kr.usable && !kr.broken;
    if Complete(groups[0]) then
      Found(Some(Neo4jCredentials(groups[0].uri.value, groups[0].username.value, groups[0].password.value)), kr.usable)
    else if Complete(groups[1]) then
      Found(Some(Neo4jCredentials(groups[1].uri.value, groups[1].username.value, groups[1].password.value)), afterKeyring)
    else if Complete(groups[2]) then
      Found(Some(Neo4jCredentials(groups[2].uri.value, groups[2].username.value, groups[2].password.value)), afterKeyring)
    else if Complete(groups[3]) then
      Found(Some(Neo4jCredentials(groups[3].uri.value, groups[3].username.value, groups[3].password.value)), afterKeyring)
    else if Complete(groups[4]) then
      Found(Some(Neo4jCredentials(groups[4].uri.value, groups[4].username.value, groups[4].password.value)), afterKeyring)
    else Found(None, afterKeyring)
  }

  /** A source is used only when all three values are present there; an
      incomplete source never contributes a value. */
  lemma Neo4jLookupResolves(src: Sources, kr: Keyring)
    ensures Neo4jLookup(src, kr).value == FirstComplete(Neo4jSources(src, kr))
  {
    var g := Neo4jSources(src, kr);
    FirstCompleteOfFive(g);
  }

  lemma FirstCompleteOfFive(g: seq<Triple>)
    requires |g| == 5
    ensures FirstComplete(g) ==
      if Complete(g[0]) then Some(Neo4jCredentials(g[0].uri.value, g[0].username.value, g[0].password.value))
      else if Complete(g[1]) then Some(Neo4jCredentials(g[1].uri.value, g[1].username.value, g[1].password.value))
      else if Complete(g[2]) then Some(Neo4jCredentials(g[2].uri.value, g[2].username.value, g[2].password.value))
      else if Complete(g[3]) then Some(Neo4jCredentials(g[3].uri.value, g[3].username.value, g[3].password.value))
      else if Complete(g[4]) then Some(Neo4jCredentials(g[4].uri.value, g[4].username.value, g[4].password.value))
      else None
  {
    assert g[1..][0] == g[1] && g[1..][1..] == g[2..];
    assert g[2..][0] == g[2] && g[2..][1..] == g[3..];
    assert g[3..][0] == g[3] && g[3..][1..] == g[4..];
    assert g[4..][0] == g[4] && g[4..][1..] == [];
    var a := FirstComplete(g[1..]);
    var b := FirstComplete(g[2..]);
    var c := FirstComplete(g[3..]);
    var d := FirstComplete(g[4..]);
    var e := FirstComplete(g[4..][1..]);
  }

  datatype AwsCredentials = AwsCredentials(accessKey: string, secretKey: string, region: string)

  /** One source's AWS values, with the region already resolved the way
      that source resolves it. */
  datatype AwsGroup = AwsGroup(accessKey: Option<string>, secretKey: Option<string>, region: string)

  function FirstPair(groups: seq<AwsGroup>): (r: Option<AwsCredentials>)
    ensures r.None? <==> forall i :: 0 <= i < |groups| ==> !(NonEmpty(groups[i].accessKey) && NonEmpty(groups[i].secretKey))
    decreases |groups|
  {
    if |groups| == 0 then None
    else if NonEmpty(groups[0].accessKey) && NonEmpty(groups[0].secretKey) then
      Some(AwsCredentials(groups[0].accessKey.value, groups[0].secretKey.value, groups[0].region))
    else
      var r := FirstPair(groups[1..]);
      assert forall i :: 1 <= i < |groups| ==> groups[i] == groups[1..][i - 1];
      r
  }

  function AwsSources(src: Sources, kr: Keyring): seq<AwsGroup>
  {
    var dotRegion := if DotEnv(src, "AWS_REGION").Some? then DotEnv(src, "AWS_REGION") else DotEnv(src, "AWS_DEFAULT_REGION");
    [ AwsGroup(EnvGet(src.osEnv, "AWS_ACCESS_KEY_ID"), EnvGet(src.osEnv, "AWS_SECRET_ACCESS_KEY"),
               OrDefault(Or(EnvGet(src.osEnv, "AWS_REGION"), EnvGet(src.osEnv, "AWS_DEFAULT_REGION")), DefaultAwsRegion)),
      AwsGroup(Or(EnvGet(src.loaded, "aws_access_key_id"), EnvGet(src.loaded, "AWS_ACCESS_KEY_ID")),
               Or(EnvGet(src.loaded, "aws_secret_access_key"), EnvGet(src.loaded, "AWS_SECRET_ACCESS_KEY")),
               OrDefault(Or(Or(EnvGet(src.loaded, "aws_region"), EnvGet(src.loaded, "AWS_REGION")),
                            EnvGet(src.loaded, "AWS_DEFAULT_REGION")), DefaultAwsRegion)),
      AwsGroup(KeyringRead(kr, "aws_access_key").value, KeyringRead(kr, "aws_secret_key").value,
               OrDefault(KeyringRead(kr, "aws_region").value, DefaultAwsRegion)),
      AwsGroup(ConfigString(src.config, "aws_access_key"), ConfigString(src.config, "aws_secret_key"),
               OrDefault(ConfigString(src.config, "aws_region"), DefaultAwsRegion)),
      AwsGroup(DotEnv(src, "AWS_ACCESS_KEY_ID"), DotEnv(src, "AWS_SECRET_ACCESS_KEY"),
               dotRegion.GetOr(DefaultAwsRegion)) ]
  }

  predicate PairComplete(g: AwsGroup)
  {
    NonEmpty(g.accessKey) && NonEmpty(g.secretKey)
  }

  function AwsOf(g: AwsGroup): AwsCredentials
    requires PairComplete(g)
  {
    AwsCredentials(g.accessKey.value, g.secretKey.value, g.region)
  }

  /** `get_aws_credentials`, source by source with early returns. */
  function AwsLookup(src: Sources, kr: Keyring): (r: Found<AwsCredentials>)
  {
    AwsPick(AwsSources(src, kr), kr.usable, kr.usable && !kr.broken)
  }

  /** The early returns over the five groups; `before` and `after` are
      `has_keyring` before and after the keyring is consulted. */
  function AwsPick(g: seq<AwsGroup>, before: bool, after: bool): (r: Found<AwsCredentials>)
    requires |g| == 5
  {
    if PairComplete(g[0]) then Found(Some(AwsOf(g[0])), before)
    else if PairComplete(g[1]) then Found(Some(AwsOf(g[1])), before)
    else if PairComplete(g[2]) then Found(Some(AwsOf(g[2])), after)
    else if PairComplete(g[3]) then Found(Some(AwsOf(g[3])), after)
    else if PairComplete(g[4]) then Found(Some(AwsOf(g[4])), after)
    else Found(None, after)
  }

  lemma AwsLookupResolves(src: Sources, kr: Keyring)
    ensures AwsLookup(src, kr).value == FirstPair(AwsSources(src, kr))
  {
    FirstPairOfFive(AwsSources(src, kr));
  }

  lemma FirstPairOfFive(g: seq<AwsGroup>)
    requires |g| == 5
    ensures FirstPair(g) ==
      if PairComplete(g[0]) then Some(AwsOf(g[0]))
      else if PairComplete(g[1]) then Some(AwsOf(g[1]))
      else if PairComplete(g[2]) then Some(AwsOf(g[2]))
      else if PairComplete(g[3]) then Some(AwsOf(g[3]))
      else if PairComplete(g[4]) then Some(AwsOf(g[4]))
      else None
  {
    assert g[1..][0] == g[1] && g[1..][1..] == g[2..];
    assert g[2..][0] == g[2] && g[2..][1..] == g[3..];
    assert g[3..][0] == g[3] && g[3..][1..] == g[4..];
    assert g[4..][0] == g[4] && g[4..][1..] == [];
    var a := FirstPair(g[1..]);
    var b := FirstPair(g[2..]);
    var c := FirstPair(g[3..]);
    var d := FirstPair(g[4..]);
    var e := FirstPair(g[4..][1..]);
  }

  /** Outside `.env`, a source without a region gets "us-east-1", so the
      region is never empty. */
  lemma AwsRegionDefaults(src: Sources, kr: Keyring)
    requires src.dotEnv.None?
    ensures AwsLookup(src, kr).value.Some? ==> |AwsLookup(src, kr).value.value.region| > 0
  {
  }

  // Once the keyring has failed, lookups never consult it again: the
  // answer is the same whatever it stores.

  lemma DisabledKeyringSkippedBySingleLookups(src: Sources, kr1: Keyring, kr2: Keyring, key: string)
    requires !kr1.usable && !kr2.usable
    ensures KeyringConfigEnv(src, kr1, key) == KeyringConfigEnv(src, kr2, key)
    ensures OpenAiKey(src, kr1) == OpenAiKey(src, kr2)
    ensures GithubToken(src, kr1) == GithubToken(src, kr2)
  {
  }

  lemma DisabledKeyringSkippedByNeo4j(src: Sources, kr1: Keyring, kr2: Keyring)
    requires !kr1.usable && !kr2.usable
    ensures Neo4jLookup(src, kr1) == Neo4jLookup(src, kr2)
  {
    assert Neo4jSources(src, kr1) == Neo4jSources(src, kr2);
  }

  lemma DisabledKeyringSkippedByAws(src: Sources, kr1: Keyring, kr2: Keyring)
    requires !kr1.usable && !kr2.usable
    ensures AwsLookup(src, kr1) == AwsLookup(src, kr2)
  {
    assert KeyringRead(kr1, "aws_access_key") == KeyringRead(kr2, "aws_access_key");
    assert KeyringRead(kr1, "aws_secret_key") == KeyringRead(kr2, "aws_secret_key");
    assert KeyringRead(kr1, "aws_region") == KeyringRead(kr2, "aws_region");
    assert AwsSources(src, kr1) == AwsSources(src, kr2);
  }

  /** A failing keyring is switched off by the first lookup that reaches it. */
  lemma FailingKeyringIsSwitchedOff(src: Sources, kr: Keyring)
    requires kr.broken
    ensures !KeyringConfigEnv(src, kr, "huggingface_token").keyringUsable
    ensures !OpenApiKey(src, kr).keyringUsable
    ensures !Neo4jLookup(src, kr).keyringUsable || Complete(Neo4jSources(src, kr)[0])
  {
  }

  // --------------------------------------------------------------- saving

  /** What a save leaves behind: the configuration written to disk and
      the keyring's contents. */
  datatype Saved = Saved(config: Config, keyring: map<string, string>)

  function StoreAll(config: Config, entries: seq<(string, string)>): (r: Config)
    ensures forall i :: 0 <= i < |entries| ==> entries[i].0 in r
    ensures forall k :: k in config ==> k in r
    decreases |entries|
  {
    if |entries| == 0 then config
    else StoreAll(config[entries[0].0 := JStr(entries[0].1)], entries[1..])
  }

  function KeepAll(stored: map<string, string>, entries: seq<(string, string)>): map<string, string>
    decreases |entries|
  {
    if |entries| == 0 then stored
    else KeepAll(stored[entries[0].0 := entries[0].1], entries[1..])
  }

  /** The shared shape of every `save_*`: into the keyring when it is
      available and accepts the writes, otherwise into the configuration;
      the configuration is written either way. */
  function SaveSecrets(config: Config, kr: Keyring, entries: seq<(string, string)>): (r: Saved)
    ensures kr.usable && !kr.broken ==> r == Saved(config, KeepAll(kr.stored, entries))
    ensures !(kr.usable && !kr.broken) ==> r == Saved(StoreAll(config, entries), kr.stored)
  {
    if kr.usable && !kr.broken then Saved(config, KeepAll(kr.stored, entries))
    else Saved(StoreAll(config, entries), kr.stored)
  }

  /** Either store after three secrets, written in order. */
  lemma SaveThree(config: Config, stored: map<string, string>, a: (string, string), b: (string, string), c: (string, string))
    ensures KeepAll(stored, [a, b, c]) == stored[a.0 := a.1][b.0 := b.1][c.0 := c.1]
    ensures StoreAll(config, [a, b, c]) == config[a.0 := JStr(a.1)][b.0 := JStr(b.1)][c.0 := JStr(c.1)]
  {
    var e := [a, b, c];
    assert e[1..] == [b, c] && e[1..][1..] == [c] && e[1..][1..][1..] == [];
    var k3 := stored[a.0 := a.1][b.0 := b.1][c.0 := c.1];
    assert KeepAll(stored[a.0 := a.1][b.0 := b.1], [c]) == KeepAll(k3, []) == k3;
    var c3 := config[a.0 := JStr(a.1)][b.0 := JStr(b.1)][c.0 := JStr(c.1)];
    assert StoreAll(config[a.0 := JStr(a.1)][b.0 := JStr(b.1)], [c]) == StoreAll(c3, []) == c3;
  }

  /** `save_huggingface_credentials`: the username always goes to the
      configuration, the token to whichever store takes secrets. */
  function SaveHuggingface(config: Config, kr: Keyring, username: string, token: string): (r: Saved)
    ensures kr.usable && !kr.broken ==>
      r.config == config["huggingface_username" := JStr(username)] && r.keyring == kr.stored["huggingface_token" := token]
    ensures !(kr.usable && !kr.broken) ==>
      r.config == config["huggingface_username" := JStr(username)]["huggingface_token" := JStr(token)] && r.keyring == kr.stored
  {
    var c1 := config["huggingface_username" := JStr(username)];
    assert KeepAll(kr.stored, [("huggingface_token", token)]) == kr.stored["huggingface_token" := token];
    assert StoreAll(c1, [("huggingface_token", token)]) == c1["huggingface_token" := JStr(token)];
    SaveSecrets(c1, kr, [("huggingface_token", token)])
  }

  /** `save_openai_key`. */
  function SaveOpenAi(config: Config, kr: Keyring, key: string): (r: Saved)
    ensures kr.usable && !kr.broken ==> r.config == config && r.keyring == kr.stored["openai_key" := key]
    ensures !(kr.usable && !kr.broken) ==> r.config == config["openai_key" := JStr(key)] && r.keyring == kr.stored
  {
    assert KeepAll(kr.stored, [("openai_key", key)]) == kr.stored["openai_key" := key];
    assert StoreAll(config, [("openai_key", key)]) == config["openai_key" := JStr(key)];
    SaveSecrets(config, kr, [("openai_key", key)])
  }

  /** `save_neo4j_credentials`: all three values go to the same store. */
  function SaveNeo4j(config: Config, kr: Keyring, uri: string, username: string, password: string): (r: Saved)
    ensures kr.usable && !kr.broken ==>
      r.config == config && r.keyring == kr.stored["neo4j_uri" := uri]["neo4j_username" := username]["neo4j_password" := password]
    ensures !(kr.usable && !kr.broken) ==>
      r.keyring == kr.stored && r.config == config["neo4j_uri" := JStr(uri)]["neo4j_username" := JStr(username)]["neo4j_password" := JStr(password)]
  {
    var e := [("neo4j_uri", uri), ("neo4j_username", username), ("neo4j_password", password)];
    SaveThree(config, kr.stored, e[0], e[1], e[2]);
    SaveSecrets(config, kr, e)
  }

  /** `save_aws_credentials`: a missing region becomes "us-east-1". */
  function SaveAws(config: Config, kr: Keyring, accessKey: string, secretKey: string, region: Option<string>): (r: Saved)
    ensures kr.usable && !kr.broken ==>
      r.config == config && r.keyring == kr.stored["aws_access_key" := accessKey]["aws_secret_key" := secretKey]["aws_region" := OrDefault(region, DefaultAwsRegion)]
    ensures !(kr.usable && !kr.broken) ==>
      r.keyring == kr.stored && r.config == config["aws_access_key" := JStr(accessKey)]["aws_secret_key" := JStr(secretKey)]["aws_region" := JStr(OrDefault(region, DefaultAwsRegion))]
  {
    var e := [("aws_access_key", accessKey), ("aws_secret_key", secretKey), ("aws_region", OrDefault(region, DefaultAwsRegion))];
    SaveThree(config, kr.stored, e[0], e[1], e[2]);
    SaveSecrets(config, kr, e)
  }

  /** The keyring after a save, as the next lookup sees it. */
  function AfterSave(kr: Keyring, s: Saved): Keyring
  {
    Keyring(kr.usable, kr.broken, s.keyring)
  }

  /** A saved HuggingFace token is what the next lookup returns, whether it
      went to the keyring or to the configuration file. */
  lemma SavedHuggingfaceTokenIsFound(src: Sources, kr: Keyring, username: string, token: string)
    requires |token| > 0
    ensures var s := SaveHuggingface(src.config, kr, username, token);
      var r := HuggingfaceCredentials(src.(config := s.config), AfterSave(kr, s));
      r.0 == JStr(username) && r.1.value == Some(token)
  {
    var c1 := src.config["huggingface_username" := JStr(username)];
    var s := SaveHuggingface(src.config, kr, username, token);
    assert KeepAll(kr.stored, [("huggingface_token", token)]) == kr.stored["huggingface_token" := token];
    assert StoreAll(c1, [("huggingface_token", token)]) == c1["huggingface_token" := JStr(token)];
  }

  /** A saved OpenAI key is found next time unless the process or loaded
      environment already supplies one, which then takes precedence. */
  lemma SavedOpenAiKeyIsFound(src: Sources, kr: Keyring, key: string)
    requires |key| > 0
    requires !NonEmpty(EnvGet(src.osEnv, "OPENAI_API_KEY")) && !NonEmpty(EnvGet(src.loaded, "openai_api_key"))
    ensures var s := SaveOpenAi(src.config, kr, key);
      OpenAiKey(src.(config := s.config), AfterSave(kr, s)).value == Some(key)
  {
    assert KeepAll(kr.stored, [("openai_key", key)]) == kr.stored["openai_key" := key];
    assert StoreAll(src.config, [("openai_key", key)]) == src.config["openai_key" := JStr(key)];
  }

  /** Saved Neo4j credentials are found next time unless the process
      environment holds a complete set. */
  lemma SavedNeo4jIsFound(src: Sources, kr: Keyring, uri: string, username: string, password: string)
    requires |uri| > 0 && |username| > 0 && |password| > 0
    requires !Complete(Neo4jSources(src, kr)[0])
    ensures var s := SaveNeo4j(src.config, kr, uri, username, password);
      Neo4jLookup(src.(config := s.config), AfterSave(kr, s)).value == Some(Neo4jCredentials(uri, username, password))
  {
    var e := [("neo4j_uri", uri), ("neo4j_username", username), ("neo4j_password", password)];
    assert e[1..] == [("neo4j_username", username), ("neo4j_password", password)];
    assert e[1..][1..] == [("neo4j_password", password)];
    assert e[1..][1..][1..] == [];
    var k1 := kr.stored["neo4j_uri" := uri];
    var k2 := k1["neo4j_username" := username];
    var k3 := k2["neo4j_password" := password];
    assert KeepAll(k2, e[1..][1..]) == KeepAll(k3, []) == k3;
    assert KeepAll(k1, e[1..]) == k3;
    assert KeepAll(kr.stored, e) == k3;
    var c1 := src.config["neo4j_uri" := JStr(uri)];
    var c2 := c1["neo4j_username" := JStr(username)];
    var c3 := c2["neo4j_password" := JStr(password)];
    assert StoreAll(c2, e[1..][1..]) == StoreAll(c3, []) == c3;
    assert StoreAll(c1, e[1..]) == c3;
    assert StoreAll(src.config, e) == c3;
    var s := SaveNeo4j(src.config, kr, uri, username, password);
    var src2 := src.(config := s.config);
    var kr2 := AfterSave(kr, s);
    if kr.usable && !kr.broken {
      assert Complete(KeyringTriple(kr2));
      assert Neo4jSources(src2, kr2)[1] == KeyringTriple(kr2);
    } else {
      assert !Complete(KeyringTriple(kr2));
    }
  }

  // ------------------------------------------------------- configuration

  const SensitiveKeys: set<string> := {
    "huggingface_token", "openapi_key", "openai_key",
    "neo4j_password", "neo4j_uri", "neo4j_username", "github_token",
    "aws_access_key", "aws_secret_key" }

  const Mask := "*****"

  /** The copy of the configuration that is logged. */
  function Redact(config: Config): (r: Config)
    ensures r.Keys == config.Keys
    ensures forall k :: k in r && k in SensitiveKeys ==> r[k] == JStr(Mask)
    ensures forall k :: k in r && k !in SensitiveKeys ==> r[k] == config[k]
  {
    map k | k in config :: if k in SensitiveKeys then JStr(Mask) else config[k]
  }

  /** Redacting the logged copy again changes nothing. */
  lemma RedactIdempotent(config: Config)
    ensures Redact(Redact(config)) == Redact(config)
  {
  }

  /** The state of the configuration file when it is loaded. */
  datatype ConfigFile = Missing | Unparsable | Parsed(contents: Config)

  function LoadConfig(f: ConfigFile): (r: Config)
    ensures f.Parsed? ==> r == f.contents
    ensures !f.Parsed? ==> r == map["huggingface_username" := JStr("")]
  {
    match f
    case Parsed(c) => c
    case _ => map["huggingface_username" := JStr("")]
  }

  /** `get_server_port`. */
  function ServerPort(config: Config): (r: Value)
    ensures "server_port" !in config ==> r == JNum(DefaultServerPort)
    ensures "server_port" in config ==> r == config["server_port"]
  {
    if "server_port" in config then config["server_port"] else JNum(DefaultServerPort)
  }

  /** `_extract_usernames_from_env`: copy the loaded username into the
      configuration when a loaded token exists and no username is set. */
  function ExtractUsername(config: Config, loaded: map<string, string>): (r: Config)
    ensures r.Keys >= config.Keys
    ensures forall k :: k in config && k != "huggingface_username" ==> r[k] == config[k]
    ensures "huggingface_username" in config && Truthy(config["huggingface_username"]) ==> r == config
    ensures NonEmpty(EnvGet(loaded, "huggingface_token"))
            && !("huggingface_username" in config && Truthy(config["huggingface_username"]))
            && NonEmpty(EnvGet(loaded, "huggingface_username")) ==>
      r == config["huggingface_username" := JStr(loaded["huggingface_username"])]
    ensures !NonEmpty(EnvGet(loaded, "huggingface_token")) || !NonEmpty(EnvGet(loaded, "huggingface_username")) ==> r == config
  {
    var hasToken := NonEmpty(EnvGet(loaded, "huggingface_token"));
    var hasName := "huggingface_username" in config && Truthy(config["huggingface_username"]);
    var name := EnvGet(loaded, "huggingface_username");
    if hasToken && !hasName && NonEmpty(name) then config["huggingface_username" := JStr(name.value)]
    else config
  }
}

=== FILE: env_file.dfy ===
/** The `.env` file as text: the line rewriter that stores `KEY=value`
    assignments, and the `KEY=(.+)` search used to read one back. */
module EnvFile {
  import opened Wrappers
  import opened Text

  /** What a freshly created `.env` file holds. */
  const Header := "# Environment variables for the homework app\n\n"

  // ------------------------------------------------------------- lines

  /** `s.split("\n")`: always at least one piece, none holding a newline. */
  function SplitLines(s: string): (r: seq<string>)
    ensures |r| >= 1
    ensures forall i :: 0 <= i < |r| ==> '\n' !in r[i]
    decreases |s|
  {
    match IndexOf(s, '\n')
    case None => [s]
    case Some(i) => [s[..i]] + SplitLines(s[i + 1..])
  }

  function JoinLines(lines: seq<string>): string
  {
    Join(lines, "\n")
  }

  /** Joining the pieces with newlines gives the text back. */
  lemma {:induction false} JoinSplitLines(s: string)
    ensures JoinLines(SplitLines(s)) == s
    decreases |s|
  {
    match IndexOf(s, '\n')
    case None =>
    case Some(i) =>
      JoinSplitLines(s[i + 1..]);
      assert s[..i] + "\n" + s[i + 1..] == s;
  }

  /** Splitting undoes joining lines that hold no newline. */
  lemma {:induction false} SplitJoinLines(lines: seq<string>)
    requires |lines| >= 1
    requires forall i :: 0 <= i < |lines| ==> '\n' !in lines[i]
    ensures SplitLines(JoinLines(lines)) == lines
    decreases |lines|
  {
    if |lines| == 1 {
      assert IndexOf(lines[0], '\n') == None;
    } else {
      var rest := JoinLines(lines[1..]);
      SplitJoinLines(lines[1..]);
      assert JoinLines(lines) == lines[0] + "\n" + rest;
      SplitLinesCons(lines[0], rest);
      assert lines == [lines[0]] + lines[1..];
    }
  }

  /** A first line without a newline splits off on its own. */
  lemma SplitLinesCons(head: string, rest: string)
    requires '\n' !in head
    ensures SplitLines(head + "\n" + rest) == [head] + SplitLines(rest)
  {
    var s := head + "\n" + rest;
    assert s == head + ['\n'] + rest;
    SplitOnceOfJoin(head, '\n', rest);
    assert IndexOf(s, '\n') == Some(|head|);
    assert s[..|head|] == head;
    assert s[|head| + 1..] == rest;
  }

  /** Appending one line after a newline. */
  lemma {:induction false} JoinLinesSnoc(lines: seq<string>, last: string)
    requires |lines| >= 1
    ensures JoinLines(lines + [last]) == JoinLines(lines) + "\n" + last
    decreases |lines|
  {
    if |lines| == 1 {
      assert (lines + [last])[1..] == [last];
      assert JoinLines([last]) == last;
      assert JoinLines(lines + [last]) == lines[0] + "\n" + JoinLines([last]);
    } else {
      assert (lines + [last])[1..] == lines[1..] + [last];
      JoinLinesSnoc(lines[1..], last);
    }
  }

  // ------------------------------------------------------------ updating

  function KeyLine(key: string, value: string): string
  {
    key + "=" + value
  }

  /** The line is matched by `^KEY=.*$`. */
  predicate AssignsKey(line: string, key: string)
  {
    StartsWith(line, key + "=")
  }

  /** The lines state `KEY=value` and no other value for `KEY`. */
  predicate Sets(lines: seq<string>, key: string, value: string)
  {
    KeyLine(key, value) in lines
    && forall i :: 0 <= i < |lines| && AssignsKey(lines[i], key) ==> lines[i] == KeyLine(key, value)
  }

  function ReplaceAssignments(lines: seq<string>, key: string, value: string): (r: seq<string>)
    ensures |r| == |lines|
    ensures forall i :: 0 <= i < |lines| ==>
      r[i] == (if AssignsKey(lines[i], key) then KeyLine(key, value) else lines[i])
  {
    seq(|lines|, i requires 0 <= i < |lines| =>
      if AssignsKey(lines[i], key) then KeyLine(key, value) else lines[i])
  }

  predicate HasAssignment(content: string, key: string)
  {
    var lines := SplitLines(content);
    exists i :: 0 <= i < |lines| && AssignsKey(lines[i], key)
  }

  /** One step of the update loop: every `KEY=...` line becomes
      `KEY=value`; without one, `"\nKEY=value"` is appended. */
  function UpdateKey(content: string, key: string, value: string): (r: string)
    ensures !HasAssignment(content, key) ==> r == content + "\n" + KeyLine(key, value)
  {
    if HasAssignment(content, key) then JoinLines(ReplaceAssignments(SplitLines(content), key, value))
    else content + "\n" + KeyLine(key, value)
  }

  /** The line view of one update: existing assignments are rewritten in
      place, or the assignment becomes a new last line. */
  lemma UpdateKeyLines(content: string, key: string, value: string)
    requires '\n' !in key && '\n' !in value
    ensures var old_ := SplitLines(content);
      SplitLines(UpdateKey(content, key, value))
        == if HasAssignment(content, key) then ReplaceAssignments(old_, key, value)
           else old_ + [KeyLine(key, value)]
  {
    var lines := SplitLines(content);
    var kl := KeyLine(key, value);
    assert '\n' !in kl;
    if HasAssignment(content, key) {
      SplitJoinLines(ReplaceAssignments(lines, key, value));
    } else {
      JoinSplitLines(content);
      JoinLinesSnoc(lines, kl);
      SplitJoinLines(lines + [kl]);
    }
  }

  /** After an update the key holds exactly the new value. */
  lemma UpdateKeySets(content: string, key: string, value: string)
    requires '\n' !in key && '\n' !in value
    ensures Sets(SplitLines(UpdateKey(content, key, value)), key, value)
  {
    UpdateKeyLines(content, key, value);
    var lines := SplitLines(content);
    if HasAssignment(content, key) {
      var i :| 0 <= i < |lines| && AssignsKey(lines[i], key);
      ReplacedSets(lines, key, value, i);
    } else {
      AppendedSets(lines, key, value);
    }
  }

  lemma ReplacedSets(lines: seq<string>, key: string, value: string, i: nat)
    requires i < |lines| && AssignsKey(lines[i], key)
    ensures Sets(ReplaceAssignments(lines, key, value), key, value)
  {
    assert ReplaceAssignments(lines, key, value)[i] == KeyLine(key, value);
  }

  lemma AppendedSets(lines: seq<string>, key: string, value: string)
    requires forall i :: 0 <= i < |lines| ==> !AssignsKey(lines[i], key)
    ensures Sets(lines + [KeyLine(key, value)], key, value)
  {
    assert (lines + [KeyLine(key, value)])[|lines|] == KeyLine(key, value);
  }

  /** Lines that do not assign the key keep their place and text, and no
      line is removed. */
  lemma UpdateKeyKeepsOtherLines(content: string, key: string, value: string)
    requires '\n' !in key && '\n' !in value
    ensures var before := SplitLines(content);
      var after := SplitLines(UpdateKey(content, key, value));
      |before| <= |after|
      && forall i :: 0 <= i < |before| && !AssignsKey(before[i], key) ==> after[i] == before[i]
  {
    UpdateKeyLines(content, key, value);
  }

  /** Distinct keys without `=` never match each other's lines. */
  lemma DistinctKeysDoNotClash(line: string, k1: string, k2: string)
    requires k1 != k2 && '=' !in k1 && '=' !in k2
    requires AssignsKey(line, k1)
    ensures !AssignsKey(line, k2)
  {
    var p1 := k1 + "=";
    assert line[..|p1|] == p1;
    if |k2| < |k1| {
      assert line[|k2|] == k1[|k2|] != '=';
    } else if |k2| == |k1| {
      assert line[..|k1|] == k1;
    } else {
      assert line[|k1|] == '=' != k2[|k1|];
    }
  }

  /** Updating one key leaves another key's value in place. */
  lemma UpdateKeyPreservesOthers(content: string, key: string, value: string, other: string, v: string)
    requires '\n' !in key && '\n' !in value && '=' !in key && '=' !in other && key != other
    requires Sets(SplitLines(content), other, v)
    ensures Sets(SplitLines(UpdateKey(content, key, value)), other, v)
  {
    UpdateKeyLines(content, key, value);
    var before := SplitLines(content);
    var after := SplitLines(UpdateKey(content, key, value));
    var j :| 0 <= j < |before| && before[j] == KeyLine(other, v);
    assert AssignsKey(before[j], other) by {
      assert before[j][..|other| + 1] == other + "=";
    }
    DistinctKeysDoNotClash(before[j], other, key);
    assert after[j] == before[j];
    forall i | 0 <= i < |after| && AssignsKey(after[i], other)
      ensures after[i] == KeyLine(other, v)
    {
      if i < |before| && AssignsKey(before[i], key) {
        assert after[i] == KeyLine(key, value);
        assert AssignsKey(after[i], key) by {
          assert after[i][..|key| + 1] == key + "=";
        }
        DistinctKeysDoNotClash(after[i], other, key);
      } else if i == |before| {
        assert after[i] == KeyLine(key, value);
        assert AssignsKey(after[i], key) by {
          assert after[i][..|key| + 1] == key + "=";
        }
        DistinctKeysDoNotClash(after[i], other, key);
      }
    }
  }

  /** Writing the same assignment twice changes nothing the second time. */
  lemma UpdateKeyIdempotent(content: string, key: string, value: string)
    requires '\n' !in key && '\n' !in value
    ensures UpdateKey(UpdateKey(content, key, value), key, value) == UpdateKey(content, key, value)
  {
    var once := UpdateKey(content, key, value);
    UpdateKeySets(content, key, value);
    var lines := SplitLines(once);
    var j :| 0 <= j < |lines| && lines[j] == KeyLine(key, value);
    assert AssignsKey(lines[j], key) by {
      assert lines[j][..|key| + 1] == key + "=";
    }
    assert HasAssignment(once, key);
    assert ReplaceAssignments(lines, key, value) == lines;
    JoinSplitLines(once);
  }

  /** `update_env_file`: start from the header when there is no file, then
      apply the updates in order. */
  function UpdateEnvFile(existing: Option<string>, updates: seq<(string, string)>): (r: string)
  {
    ApplyUpdates(existing.GetOr(Header), updates)
  }

  /** With no file, the header comes first; after the update every updated
      key holds its new value. */
  lemma UpdateEnvFileSetsAll(existing: Option<string>, updates: seq<(string, string)>)
    requires WellFormedUpdates(updates)
    ensures forall i :: 0 <= i < |updates| ==>
      Sets(SplitLines(UpdateEnvFile(existing, updates)), updates[i].0, updates[i].1)
    ensures updates == [] ==> UpdateEnvFile(existing, updates) == existing.GetOr(Header)
  {
    ApplyUpdatesSetsAll(existing.GetOr(Header), updates);
  }

  function ApplyUpdates(content: string, updates: seq<(string, string)>): string
    decreases |updates|
  {
    if |updates| == 0 then content
    else ApplyUpdates(UpdateKey(content, updates[0].0, updates[0].1), updates[1..])
  }

  predicate WellFormedUpdates(updates: seq<(string, string)>)
  {
    (forall i :: 0 <= i < |updates| ==>
      '\n' !in updates[i].0 && '=' !in updates[i].0 && '\n' !in updates[i].1)
    && (forall i, j :: 0 <= i < j < |updates| ==> updates[i].0 != updates[j].0)
  }

  /** After the whole loop every updated key holds its new value. */
  lemma {:induction false} ApplyUpdatesSetsAll(content: string, updates: seq<(string, string)>)
    requires WellFormedUpdates(updates)
    ensures forall i :: 0 <= i < |updates| ==>
      Sets(SplitLines(ApplyUpdates(content, updates)), updates[i].0, updates[i].1)
    decreases |updates|
  {
    if |updates| > 0 {
      var (k, v) := updates[0];
      var next := UpdateKey(content, k, v);
      var rest := updates[1..];
      assert WellFormedUpdates(rest);
      ApplyUpdatesSetsAll(next, rest);
      UpdateKeySets(content, k, v);
      KeepsSetting(next, rest, k, v);
      forall i | 1 <= i < |updates|
        ensures Sets(SplitLines(ApplyUpdates(content, updates)), updates[i].0, updates[i].1)
      {
        assert updates[i] == rest[i - 1];
      }
    }
  }

  /** The line assigns none of the updated keys. */
  predicate Untouched(line: string, updates: seq<(string, string)>)
  {
    forall u :: u in updates ==> !AssignsKey(line, u.0)
  }

  /** The lines of the original text that assign none of the updated keys
      are still there, at the same position. */
  lemma {:induction false} ApplyUpdatesKeepsLines(content: string, updates: seq<(string, string)>)
    requires WellFormedUpdates(updates)
    ensures var before := SplitLines(content);
      var after := SplitLines(ApplyUpdates(content, updates));
      |before| <= |after|
      && forall i :: 0 <= i < |before| && Untouched(before[i], updates) ==> after[i] == before[i]
    decreases |updates|
  {
    if |updates| > 0 {
      var (k, v) := updates[0];
      var next := UpdateKey(content, k, v);
      var rest := updates[1..];
      assert WellFormedUpdates(rest);
      ApplyUpdatesKeepsLines(next, rest);
      UpdateKeyKeepsOtherLines(content, k, v);
      var before := SplitLines(content);
      var mid := SplitLines(next);
      var after := SplitLines(ApplyUpdates(content, updates));
      assert after == SplitLines(ApplyUpdates(next, rest));
      forall i | 0 <= i < |before| && Untouched(before[i], updates)
        ensures after[i] == before[i]
      {
        UntouchedTail(before[i], updates);
        assert mid[i] == before[i];
      }
    }
  }

  /** A line untouched by a list of updates is untouched by its first
      update and by the rest. */
  lemma UntouchedTail(line: string, updates: seq<(string, string)>)
    requires |updates| > 0 && Untouched(line, updates)
    ensures !AssignsKey(line, updates[0].0) && Untouched(line, updates[1..])
  {
    assert updates[0] in updates;
    forall u | u in updates[1..] ensures !AssignsKey(line, u.0) {
      var j :| 0 <= j < |updates[1..]| && updates[1..][j] == u;
      assert updates[j + 1] == u;
    }
  }

  /** Later updates with other keys keep an earlier key's value. */
  lemma {:induction false} KeepsSetting(content: string, updates: seq<(string, string)>, key: string, value: string)
    requires WellFormedUpdates(updates)
    requires '=' !in key
    requires forall i :: 0 <= i < |updates| ==> updates[i].0 != key
    requires Sets(SplitLines(content), key, value)
    ensures Sets(SplitLines(ApplyUpdates(content, updates)), key, value)
    decreases |updates|
  {
    if |updates| > 0 {
      UpdateKeyPreservesOthers(content, updates[0].0, updates[0].1, key, value);
      assert WellFormedUpdates(updates[1..]);
      KeepsSetting(UpdateKey(content, updates[0].0, updates[0].1), updates[1..], key, value);
    }
  }

  // ----------------------------------------------------------- searching

  /** `re.search(NAME + "=(.+)")` matches at `i`: the name, `=`, and at
      least one character that is not a newline. */
  predicate MatchAt(s: string, name: string, i: nat)
  {
    var p := name + "=";
    i + |p| < |s| && OccursAt(s, p, i) && s[i + |p|] != '\n'
  }

  /** The first index from `j` on where the line containing `j` ends. */
  function LineEnd(s: string, j: nat): (e: nat)
    requires j <= |s|
    ensures j <= e <= |s|
    ensures forall k :: j <= k < e ==> s[k] != '\n'
    ensures e < |s| ==> s[e] == '\n'
    decreases |s| - j
  {
    if j == |s| || s[j] == '\n' then j else LineEnd(s, j + 1)
  }

  /** Leftmost match at or after `from`. */
  function FirstMatch(s: string, name: string, from: nat): (r: Option<nat>)
    requires from <= |s|
    ensures r.Some? ==> from <= r.value && MatchAt(s, name, r.value)
    ensures r.Some? ==> forall j :: from <= j < r.value ==> !MatchAt(s, name, j)
    ensures r.None? ==> forall j :: from <= j ==> !MatchAt(s, name, j)
    decreases |s| - from
  {
    if from + |name| + 1 >= |s| then None
    else if MatchAt(s, name, from) then Some(from)
    else FirstMatch(s, name, from + 1)
  }

  /** `m.group(1).strip()` of the first match, if there is one. */
  function SearchAssignment(s: string, name: string): (r: Option<string>)
    ensures r.None? <==> forall j :: !MatchAt(s, name, j)
  {
    match FirstMatch(s, name, 0)
    case None => None
    case Some(i) =>
      var start := i + |name| + 1;
      Some(Strip(s[start..LineEnd(s, start)]))
  }

  /** A file whose first line assigns the name gives that value back,
      stripped. */
  lemma SearchFindsLeadingAssignment(name: string, value: string, rest: string)
    requires |value| > 0 && '\n' !in value
    requires |rest| == 0 || rest[0] == '\n'
    ensures SearchAssignment(KeyLine(name, value) + rest, name) == Some(Strip(value))
  {
    var s := KeyLine(name, value) + rest;
    var start := |name| + 1;
    assert s[..start] == name + "=";
    assert MatchAt(s, name, 0);
    assert FirstMatch(s, name, 0) == Some(0);
    var e := LineEnd(s, start);
    assert forall k :: start <= k < start + |value| ==> s[k] == value[k - start];
    assert start + |value| < |s| ==> s[start + |value|] == rest[0];
    assert e == start + |value|;
    assert s[start..e] == value;
  }
}

=== FILE: github_flow.dfy ===
/** The command-line "dataset from GitHub" flow: the URL checks, the fetch,
    dataset and knowledge-graph options, and which progress reports are
    printed. */
module GithubFlow {
  import opened Wrappers
  import opened Text

  // ------------------------------------------------------------------ URLs

  const GithubPrefix := "https://github.com/"

  /** The repository URL must start with the GitHub prefix. */
  predicate IsGithubUrl(url: string)
  {
    StartsWith(url, GithubPrefix)
  }

  /** One path segment: at least one character, no slash. */
  predicate Segment(s: string)
  {
    |s| > 0 && '/' !in s
  }

  /** What may follow "github.com/" in an organisation URL: one segment,
      an optional slash, and (as `$` allows) one final newline after it. */
  predicate OrgTail(t: string)
  {
    || Segment(t)
    || (|t| >= 2 && t[|t| - 1] == '/' && Segment(t[..|t| - 1]))
    || (|t| >= 3 && t[|t| - 2..] == "/\n" && Segment(t[..|t| - 2]))
  }

  /** `re.match(r"https?://github\.com/([^/]+)/?$", url)`. */
  predicate IsOrgUrl(url: string)
  {
    || (StartsWith(url, "https://github.com/") && OrgTail(url[|"https://github.com/"|..]))
    || (StartsWith(url, "http://github.com/") && OrgTail(url[|"http://github.com/"|..]))
  }

  /** An owner's page, with or without a trailing slash, is an
      organisation URL; a repository under it is not (a "repository"
      that is a lone newline would be read as the trailing newline). */
  lemma OrgUrlShapes(owner: string, repo: string)
    requires Segment(owner) && Segment(repo) && repo != "\n"
    ensures IsOrgUrl(GithubPrefix + owner)
    ensures IsOrgUrl(GithubPrefix + owner + "/")
    ensures !IsOrgUrl(GithubPrefix + owner + "/" + repo)
  {
    var p := GithubPrefix;
    assert (p + owner)[|p|..] == owner;
    assert (p + owner + "/")[|p|..] == owner + "/";
    assert (owner + "/")[..|owner|] == owner;
    var u := p + owner + "/" + repo;
    assert u[|p|..] == owner + "/" + repo;
    RepoTailNotOrg(owner, repo);
    assert !StartsWith(u, "http://github.com/") by {
      assert u[4] == 's';
    }
  }

  /** "owner/repo" is neither a segment nor a segment with a closing slash. */
  lemma RepoTailNotOrg(owner: string, repo: string)
    requires Segment(owner) && Segment(repo) && repo != "\n"
    ensures !OrgTail(owner + "/" + repo)
  {
    var t := owner + "/" + repo;
    assert t[|owner|] == '/';
    assert t[..|t| - 1][|owner|] == '/';
    if |repo| >= 2 {
      assert t[..|t| - 2][|owner|] == '/';
    } else {
      assert t[|t| - 2..] == "/" + repo;
    }
  }

  // ---------------------------------------------------------- fetch option

  /** AI-guided fetching is used when option 2 is chosen with a non-empty
      description; otherwise the default fetch runs. */
  function UseAiGuidance(option: string, instructions: string): (r: bool)
    ensures r <==> option == "2" && |instructions| > 0
  {
    var wanted := option == "2";
    if wanted && |instructions| == 0 then false else wanted
  }

  // ------------------------------------------------------- dataset option

  datatype DatasetChoice =
    | NewDataset(name: string)
    | ExistingDataset(id: string)
    | NoToken
    | InvalidDatasetNumber
    | NotANumber
    | InvalidChoice

  /** Option 1 asks for a name; option 2 needs a Hugging Face token, then
      offers the user's datasets by number (0 or less asks for a new
      name, a listed number updates that dataset). */
  function ChooseDataset(option: string, hfToken: Option<string>, datasetIds: seq<string>,
                         numberInput: string, nameInput: string): (c: DatasetChoice)
    ensures option == "1" ==> c == NewDataset(nameInput)
    ensures option != "1" && option != "2" ==> c == InvalidChoice
    ensures option == "2" && !NonEmpty(hfToken) ==> c == NoToken
    ensures option == "2" && NonEmpty(hfToken) && |datasetIds| == 0 ==> c == NewDataset(nameInput)
    ensures c.ExistingDataset? <==>
      option == "2" && NonEmpty(hfToken) && |datasetIds| > 0 && ParseInt(numberInput).Some?
      && 1 <= ParseInt(numberInput).value <= |datasetIds|
    ensures c.ExistingDataset? ==> c.id == datasetIds[ParseInt(numberInput).value - 1]
  {
    if option == "1" then NewDataset(nameInput)
    else if option == "2" then
      if !NonEmpty(hfToken) then NoToken
      else if |datasetIds| == 0 then NewDataset(nameInput)
      else PickByNumber(ParseInt(numberInput), datasetIds, nameInput)
    else InvalidChoice
  }

  /** The answer to "enter the number of the dataset", once read by `int()`. */
  function PickByNumber(number: Option<int>, datasetIds: seq<string>, nameInput: string): (c: DatasetChoice)
    ensures c.NotANumber? <==> number.None?
    ensures c.ExistingDataset? <==> number.Some? && 1 <= number.value <= |datasetIds|
    ensures c.ExistingDataset? ==> c.id == datasetIds[number.value - 1]
    ensures c.NewDataset? ==> c.name == nameInput
  {
    match number
    case None => NotANumber
    case Some(n) =>
      var index := n - 1;
      if index < 0 then NewDataset(nameInput)
      else if index < |datasetIds| then ExistingDataset(datasetIds[index])
      else InvalidDatasetNumber
  }

  /** Only an existing dataset is updated in place. */
  function UpdateExisting(c: DatasetChoice): bool
  {
    c.ExistingDataset?
  }

  /** The number printed beside a dataset picks that dataset. */
  lemma PrintedDatasetNumberSelects(hfToken: string, datasetIds: seq<string>, n: nat, nameInput: string)
    requires |hfToken| > 0 && 1 <= n <= |datasetIds|
    ensures ChooseDataset("2", Some(hfToken), datasetIds, NatToString(n), nameInput) == ExistingDataset(datasetIds[n - 1])
  {
    ParseNatString(n);
  }

  // --------------------------------------------------------- graph option

  datatype GraphChoice = NoExport | DefaultGraph | NamedGraph(name: string) | Abort

  /** What the user and the graph store said during option 3. */
  datatype GraphDialog = GraphDialog(connected: bool, proceed: string, graphs: seq<string>, select: string,
                                     newName: string, created: bool, numberInput: string)

  /** Option 3: a specific graph, or no export when anything goes wrong
      (declining to proceed without a connection aborts the flow). */
  function SpecificGraph(d: GraphDialog): (c: GraphChoice)
    ensures c != DefaultGraph
    ensures c == Abort <==> !d.connected && Lower(d.proceed) != "y"
    ensures c.NamedGraph? ==> d.connected && ((c.name == d.newName && d.created) || c.name in d.graphs)
  {
    if !d.connected then
      if Lower(d.proceed) != "y" then Abort else NoExport
    else
      var select := if |d.graphs| > 0 then d.select else "1";
      if select == "1" then
        if d.created then NamedGraph(d.newName) else NoExport
      else if select == "2" && |d.graphs| > 0 then
        match ParseInt(d.numberInput)
        case None => NoExport
        case Some(n) => if 0 <= n - 1 < |d.graphs| then NamedGraph(d.graphs[n - 1]) else NoExport
      else NoExport
  }

  /** The knowledge-graph option: 1 no export, 2 the default graph,
      3 a specific one; anything else ends the flow. */
  function ChooseGraph(option: string, d: GraphDialog): (c: GraphChoice)
    ensures option == "1" ==> c == NoExport
    ensures option == "2" ==> c == DefaultGraph
    ensures option == "3" ==> c == SpecificGraph(d)
    ensures option !in ["1", "2", "3"] ==> c == Abort
  {
    if option == "1" then NoExport
    else if option == "2" then DefaultGraph
    else if option == "3" then SpecificGraph(d)
    else Abort
  }

  /** With no graphs to list, option 3 always creates a new one. */
  lemma EmptyStoreCreates(d: GraphDialog)
    requires d.connected && |d.graphs| == 0
    ensures SpecificGraph(d) == (if d.created then NamedGraph(d.newName) else NoExport)
  {
  }

  // ------------------------------------------------------------- the plan

  /** Where the flow stops before anything is fetched. */
  datatype FlowStop = BadUrl | DatasetStop(reason: DatasetChoice) | GraphStop

  /** What the flow goes on to fetch and create. */
  datatype FlowPlan = FlowPlan(aiGuided: bool, dataset: DatasetChoice, updateExisting: bool,
                               exportToGraph: bool, graphName: Option<string>)

  predicate Proceeds(c: DatasetChoice)
  {
    c.NewDataset? || c.ExistingDataset?
  }

  /** The questions in order: URL, fetch option, dataset option, then the
      knowledge-graph option; the first refusal ends the flow. */
  function PlanFlow(url: string, fetchOption: string, instructions: string,
                    datasetOption: string, hfToken: Option<string>, datasetIds: seq<string>,
                    numberInput: string, nameInput: string,
                    graphOption: string, dialog: GraphDialog): (r: Result<FlowPlan, FlowStop>)
    ensures !IsGithubUrl(url) ==> r == Err(BadUrl)
    ensures r.Ok? <==>
      IsGithubUrl(url)
      && Proceeds(ChooseDataset(datasetOption, hfToken, datasetIds, numberInput, nameInput))
      && ChooseGraph(graphOption, dialog) != Abort
    ensures r.Ok? ==> r.value.dataset == ChooseDataset(datasetOption, hfToken, datasetIds, numberInput, nameInput)
    ensures r.Ok? ==> (r.value.updateExisting <==> r.value.dataset.ExistingDataset?)
    ensures r.Ok? ==> (r.value.aiGuided <==> fetchOption == "2" && |instructions| > 0)
    ensures r.Ok? ==> (r.value.exportToGraph <==> graphOption == "2" || (graphOption == "3" && SpecificGraph(dialog).NamedGraph?))
    ensures r.Ok? && r.value.graphName.Some? ==> r.value.exportToGraph && graphOption == "3"
  {
    if !IsGithubUrl(url) then Err(BadUrl)
    else
      var aiGuided := UseAiGuidance(fetchOption, instructions);
      var dataset := ChooseDataset(datasetOption, hfToken, datasetIds, numberInput, nameInput);
      if !Proceeds(dataset) then Err(DatasetStop(dataset))
      else match ChooseGraph(graphOption, dialog)
        case Abort => Err(GraphStop)
        case NoExport => Ok(FlowPlan(aiGuided, dataset, UpdateExisting(dataset), false, None))
        case DefaultGraph => Ok(FlowPlan(aiGuided, dataset, UpdateExisting(dataset), true, None))
        case NamedGraph(name) => Ok(FlowPlan(aiGuided, dataset, UpdateExisting(dataset), true, Some(name)))
  }

  // ------------------------------------------------------ progress output

  /** Progress is printed at whole tens and at 100.  Python's `%` with a
      positive divisor agrees with Dafny's, negative percentages included. */
  predicate ShouldPrint(percent: int)
  {
    percent % 10 == 0 || percent == 100
  }

  function ProgressLine(percent: int, message: Option<string>): (r: string)
    ensures StartsWith(r, "Progress: " + IntToString(percent) + "%")
    ensures NonEmpty(message) ==> EndsWith(r, " - " + message.value)
  {
    var head := "Progress: " + IntToString(percent) + "%";
    if NonEmpty(message) then head + " - " + message.value else head
  }

  /** The lines a sequence of progress reports prints, in order. */
  function Printed(reports: seq<(int, Option<string>)>): (lines: seq<string>)
    ensures |lines| <= |reports|
    ensures |lines| == |reports| <==> forall i :: 0 <= i < |reports| ==> ShouldPrint(reports[i].0)
    decreases |reports|
  {
    if |reports| == 0 then []
    else
      var rest := Printed(reports[1..]);
      var r := reports[0];
      if ShouldPrint(r.0) then
        assert forall i :: 1 <= i < |reports| ==> reports[i] == reports[1..][i - 1];
        [ProgressLine(r.0, r.1)] + rest
      else rest
  }

  /** Every report at a whole ten (or 100) is printed, and every printed
      line comes from such a report. */
  lemma {:induction false} PrintedLines(reports: seq<(int, Option<string>)>)
    ensures forall r :: r in reports && ShouldPrint(r.0) ==> ProgressLine(r.0, r.1) in Printed(reports)
    ensures forall l :: l in Printed(reports) ==> exists r :: r in reports && ShouldPrint(r.0) && l == ProgressLine(r.0, r.1)
    decreases |reports|
  {
    if |reports| > 0 {
      var tail := reports[1..];
      PrintedLines(tail);
      var head := reports[0];
      assert forall x :: x in tail ==> x in reports;
      assert forall x :: x in reports ==> x == head || x in tail;
      if ShouldPrint(head.0) {
        assert Printed(reports) == [ProgressLine(head.0, head.1)] + Printed(tail);
      } else {
        assert Printed(reports) == Printed(tail);
      }
    }
  }
}

=== FILE: graph_store.dfy ===
/** The knowledge-graph store's pure post-processing: cleaning names,
    reading the JSON part of a model's answer, filtering extracted
    entities and relationships, tidying entity rows and folding query rows
    into a concept map. */
module GraphStore {
  import opened Wrappers
  import opened Text
  import opened Json

  // ------------------------------------------------------------ backticks

  /** `_remove_backticks`. */
  function RemoveBackticks(s: string): (r: string)
    ensures '`' !in r
    ensures '`' !in s ==> r == s
  {
    RemoveChar(s, '`')
  }

  /** Removal works piece by piece, so the remaining characters keep
      their order. */
  lemma {:induction false} RemoveBackticksDistributes(a: string, b: string)
    ensures RemoveBackticks(a + b) == RemoveBackticks(a) + RemoveBackticks(b)
    decreases |a|
  {
    if |a| > 0 {
      assert (a + b)[0] == a[0];
      assert (a + b)[1..] == a[1..] + b;
      RemoveBackticksDistributes(a[1..], b);
    } else {
      assert a + b == b;
    }
  }

  lemma RemoveBackticksIdempotent(s: string)
    ensures RemoveBackticks(RemoveBackticks(s)) == RemoveBackticks(s)
  {
  }

  // -------------------------------------------------------- the JSON span

  /** From the first `{` to the last `}` inclusive; no span when either is
      missing.  When the last `}` comes before the first `{` the slice is
      empty, and parsing it fails later. */
  function JsonSpan(text: string): (r: Option<string>)
    ensures r.None? <==> '{' !in text || '}' !in text
    ensures r.Some? && |r.value| > 0 ==> r.value[0] == '{' && r.value[|r.value| - 1] == '}'
  {
    match (IndexOf(text, '{'), LastIndexOf(text, '}'))
    case (Some(start), Some(end)) =>
      if end < start then Some("")
      else Some(text[start..end + 1])
    case _ => None
  }

  /** The span holds no `{` before its start and no `}` after its end:
      it is the widest braced region of the text. */
  lemma JsonSpanIsWidest(text: string, before: string, body: string, after: string)
    requires '{' !in before && '}' !in after
    requires text == before + "{" + body + "}" + after
    ensures JsonSpan(text) == Some("{" + body + "}")
  {
    var start := |before|;
    var end := |before| + 1 + |body|;
    assert text[start] == '{';
    assert forall k :: 0 <= k < start ==> text[k] == before[k];
    assert text[end] == '}';
    assert forall k :: end < k < |text| ==> text[k] == after[k - end - 1];
    assert IndexOf(text, '{') == Some(start);
    assert LastIndexOf(text, '}') == Some(end);
    assert text[start..end + 1] == "{" + body + "}";
  }

  // ------------------------------------------------------ query parameters

  /** The keys bound in `props`. */
  function Keys(props: seq<(string, Value)>): set<string>
    decreases |props|
  {
    if |props| == 0 then {} else Keys(props[..|props| - 1]) + {props[|props| - 1].0}
  }

  /** Some binding in `props` has key `k`. */
  predicate HasKey(props: seq<(string, Value)>, k: string)
  {
    k in Keys(props)
  }

  /** `HasKey` is what its name says: some binding has the key. */
  lemma {:induction false} HasKeyMeansBound(props: seq<(string, Value)>, k: string)
    ensures HasKey(props, k) <==> exists i :: 0 <= i < |props| && props[i].0 == k
    decreases |props|
  {
    if |props| > 0 {
      var init := props[..|props| - 1];
      HasKeyMeansBound(init, k);
      assert forall i :: 0 <= i < |init| ==> init[i] == props[i];
      if !HasKey(init, k) && props[|props| - 1].0 != k {
        forall i | 0 <= i < |props| ensures props[i].0 != k {
          if i < |init| { assert init[i] == props[i]; }
        }
      }
    }
  }

  /** The value of the last binding of `k`. */
  function LastValue(props: seq<(string, Value)>, k: string): (v: Value)
    requires HasKey(props, k)
    ensures exists i :: 0 <= i < |props| && props[i] == (k, v) && forall j :: i < j < |props| ==> props[j].0 != k
    decreases |props|
  {
    var last := props[|props| - 1];
    if last.0 == k then last.1
    else
      var init := props[..|props| - 1];
      assert forall i :: 0 <= i < |init| ==> init[i] == props[i];
      LastValue(init, k)
  }

  /** The query parameters once the property loop has run: `base`, then
      `params[key] = value` for each property in order, so a property
      overrides a base entry of the same name and a later property an
      earlier one. */
  function Overlay(base: map<string, Value>, props: seq<(string, Value)>): (m: map<string, Value>)
    ensures m.Keys == base.Keys + Keys(props)
    ensures forall k :: k in base && !HasKey(props, k) ==> m[k] == base[k]
    ensures forall k :: HasKey(props, k) ==> m[k] == LastValue(props, k)
    decreases |props|
  {
    if |props| == 0 then base
    else
      var init := props[..|props| - 1];
      var last := props[|props| - 1];
      Overlay(base, init)[last.0 := last.1]
  }

  // ----------------------------------------------------- extracted entities

  /** An entity as the model returned it: `None` fields were absent, and a
      present "id" or "name" is whatever JSON value it holds, null included. */
  datatype Extracted = Extracted(id: Option<Value>, etype: Option<string>, name: Option<Value>, properties: seq<(string, Value)>)

  /** What is written for an accepted entity: its label, the id, name and
      document the query starts from, and the properties, each of which
      gets a SET clause and a query parameter. */
  datatype EntityWrite = EntityWrite(etype: string, id: Value, name: Value, docId: string, properties: seq<(string, Value)>)

  predicate Accepted(e: Extracted, allowed: set<string>)
  {
    e.etype.Some? && e.etype.value in allowed
  }

  /** `entity_params` as the query receives it: id, name and doc_id, then
      one entry per property, so a property named "id", "name" or "doc_id"
      replaces that parameter (the node MERGE matches, the name written,
      the document the MENTIONS edge comes from). */
  function EntityParams(w: EntityWrite): (m: map<string, Value>)
    ensures forall k :: k in m <==> k in {"id", "name", "doc_id"} || HasKey(w.properties, k)
    ensures forall k :: HasKey(w.properties, k) ==> m[k] == LastValue(w.properties, k)
    ensures !HasKey(w.properties, "id") ==> m["id"] == w.id
    ensures !HasKey(w.properties, "name") ==> m["name"] == w.name
    ensures !HasKey(w.properties, "doc_id") ==> m["doc_id"] == JStr(w.docId)
  {
    var base := map["id" := w.id, "name" := w.name, "doc_id" := JStr(w.docId)];
    assert base.Keys == {"id", "name", "doc_id"};
    Overlay(base, w.properties)
  }

  /** An accepted entity's write: its own id (null included) or a fresh one
      when absent, its own name or "Unnamed <type>" when absent, and the
      document's id. */
  function WriteFor(e: Extracted, freshId: string, docId: string): (w: EntityWrite)
    requires e.etype.Some?
    ensures w.etype == e.etype.value && w.properties == e.properties && w.docId == docId
    ensures e.id.Some? ==> w.id == e.id.value
    ensures e.id.None? ==> w.id == JStr(freshId)
    ensures e.name.Some? ==> w.name == e.name.value
    ensures e.name.None? ==> w.name == JStr("Unnamed " + e.etype.value)
  {
    EntityWrite(e.etype.value, e.id.GetOr(JStr(freshId)), e.name.GetOr(JStr("Unnamed " + e.etype.value)), docId, e.properties)
  }

  /** The parameters an accepted entity's query runs with: the property
      keys besides id, name and doc_id; each property's last value; and,
      where no property overrides them, the entity's id or a fresh one, its
      name or "Unnamed <type>", and the document's id. */
  lemma WriteForParams(e: Extracted, freshId: string, docId: string)
    requires e.etype.Some?
    ensures forall k :: k in EntityParams(WriteFor(e, freshId, docId)) <==> k in {"id", "name", "doc_id"} || HasKey(e.properties, k)
    ensures forall k :: HasKey(e.properties, k) ==> EntityParams(WriteFor(e, freshId, docId))[k] == LastValue(e.properties, k)
    ensures !HasKey(e.properties, "id") ==> EntityParams(WriteFor(e, freshId, docId))["id"] == e.id.GetOr(JStr(freshId))
    ensures !HasKey(e.properties, "name") ==> EntityParams(WriteFor(e, freshId, docId))["name"] == e.name.GetOr(JStr("Unnamed " + e.etype.value))
    ensures !HasKey(e.properties, "doc_id") ==> EntityParams(WriteFor(e, freshId, docId))["doc_id"] == JStr(docId)
  {
    var w := WriteFor(e, freshId, docId);
    var m := EntityParams(w);
    assert w.properties == e.properties;
  }

  /** A property named like a parameter wins: an entity "a" named "Ann"
      whose properties say name "Bob" and id "b" is merged as node "b"
      and written with name "Bob". */
  lemma PropertiesOverrideIdAndName(etype: string, freshId: string, docId: string)
    ensures var m := EntityParams(WriteFor(Extracted(Some(JStr("a")), Some(etype), Some(JStr("Ann")), [("name", JStr("Bob")), ("id", JStr("b"))]), freshId, docId));
      m["id"] == JStr("b") && m["name"] == JStr("Bob") && m["doc_id"] == JStr(docId)
  {
    var props := [("name", JStr("Bob")), ("id", JStr("b"))];
    var w := WriteFor(Extracted(Some(JStr("a")), Some(etype), Some(JStr("Ann")), props), freshId, docId);
    assert props[..1] == [("name", JStr("Bob"))] && props[..1][..0] == [];
    assert Keys(props) == {"name", "id"};
    assert LastValue(props, "id") == JStr("b");
    assert LastValue(props, "name") == JStr("Bob");
    assert w.properties == props;
  }

  /** An explicit null id or name reaches the query as null: only an absent
      one is replaced by the fresh id or "Unnamed <type>". */
  lemma NullIdIsKept(etype: string, freshId: string, docId: string)
    ensures EntityParams(WriteFor(Extracted(Some(JNull), Some(etype), Some(JNull), []), freshId, docId))["id"] == JNull
    ensures EntityParams(WriteFor(Extracted(Some(JNull), Some(etype), Some(JNull), []), freshId, docId))["name"] == JNull
    ensures EntityParams(WriteFor(Extracted(None, Some(etype), None, []), freshId, docId))["id"] == JStr(freshId)
  {
  }

  /** The entity loop: entities whose type is not allowed are skipped.
      `freshIds[i]` stands for the identifier generated for entity `i`. */
  function EntityWrites(entities: seq<Extracted>, allowed: set<string>, freshIds: seq<string>, docId: string): (r: seq<EntityWrite>)
    requires |freshIds| == |entities|
    ensures |r| <= |entities|
    ensures forall j :: 0 <= j < |r| ==> r[j].etype in allowed
    ensures |r| == |entities| <==> forall i :: 0 <= i < |entities| ==> Accepted(entities[i], allowed)
    ensures |r| == 0 <==> forall i :: 0 <= i < |entities| ==> !Accepted(entities[i], allowed)
    decreases |entities|
  {
    if |entities| == 0 then []
    else
      var rest := EntityWrites(entities[1..], allowed, freshIds[1..], docId);
      assert forall i :: 1 <= i < |entities| ==> entities[i] == entities[1..][i - 1];
      if Accepted(entities[0], allowed) then [WriteFor(entities[0], freshIds[0], docId)] + rest
      else rest
  }

  /** Every accepted entity is written. */
  lemma {:induction false} AcceptedEntitiesAreWritten(entities: seq<Extracted>, allowed: set<string>, freshIds: seq<string>, docId: string, i: nat)
    requires |freshIds| == |entities| && i < |entities| && Accepted(entities[i], allowed)
    ensures WriteFor(entities[i], freshIds[i], docId) in EntityWrites(entities, allowed, freshIds, docId)
    decreases i
  {
    if i > 0 {
      AcceptedEntitiesAreWritten(entities[1..], allowed, freshIds[1..], docId, i - 1);
    }
  }

  /** Every write is that of an accepted entity, with its own fresh id. */
  lemma {:induction false} WritesComeFromAcceptedEntities(entities: seq<Extracted>, allowed: set<string>, freshIds: seq<string>, docId: string)
    requires |freshIds| == |entities|
    ensures forall w :: w in EntityWrites(entities, allowed, freshIds, docId) ==>
      exists i :: 0 <= i < |entities| && Accepted(entities[i], allowed) && w == WriteFor(entities[i], freshIds[i], docId)
    decreases |entities|
  {
    if |entities| > 0 {
      var tail, ids := entities[1..], freshIds[1..];
      WritesComeFromAcceptedEntities(tail, allowed, ids, docId);
      forall w | w in EntityWrites(entities, allowed, freshIds, docId)
        ensures exists i :: 0 <= i < |entities| && Accepted(entities[i], allowed) && w == WriteFor(entities[i], freshIds[i], docId)
      {
        if !(Accepted(entities[0], allowed) && w == WriteFor(entities[0], freshIds[0], docId)) {
          assert w in EntityWrites(tail, allowed, ids, docId);
          var k :| 0 <= k < |tail| && Accepted(tail[k], allowed) && w == WriteFor(tail[k], ids[k], docId);
          assert entities[k + 1] == tail[k] && freshIds[k + 1] == ids[k];
        }
      }
    }
  }

  /** The writes keep the order of the entities: one more entity adds its
      write, if accepted, at the end. */
  lemma {:induction false} EntityWritesAppend(entities: seq<Extracted>, allowed: set<string>, freshIds: seq<string>, docId: string, e: Extracted, id: string)
    requires |freshIds| == |entities|
    ensures EntityWrites(entities + [e], allowed, freshIds + [id], docId)
         == EntityWrites(entities, allowed, freshIds, docId) + (if Accepted(e, allowed) then [WriteFor(e, id, docId)] else [])
    decreases |entities|
  {
    if |entities| == 0 {
      assert entities + [e] == [e] && freshIds + [id] == [id];
    } else {
      assert (entities + [e])[1..] == entities[1..] + [e];
      assert (freshIds + [id])[1..] == freshIds[1..] + [id];
      EntityWritesAppend(entities[1..], allowed, freshIds[1..], docId, e, id);
    }
  }

  // ---------------------------------------------------- relationship types

  /** `t.upper().replace(" ", "_")`. */
  function NormalizeRelType(t: string): (r: string)
    ensures |r| == |t|
    ensures ' ' !in r
    ensures forall i :: 0 <= i < |r| ==> !IsLower(r[i])
    ensures forall i :: 0 <= i < |t| && t[i] != ' ' ==> r[i] == ToUpper(t[i])
  {
    ReplaceChar(Upper(t), ' ', '_')
  }

  lemma NormalizeRelTypeIdempotent(t: string)
    ensures NormalizeRelType(NormalizeRelType(t)) == NormalizeRelType(t)
  {
    var r := NormalizeRelType(t);
    assert forall i :: 0 <= i < |r| ==> ToUpper(r[i]) == r[i];
  }

  datatype ExtractedRel = ExtractedRel(sourceId: Option<string>, targetId: Option<string>, rtype: Option<string>, properties: seq<(string, Value)>)

  /** What is written for a linked relationship: its type, the two ends
      the query starts from, and the properties, each of which gets a SET
      clause and a query parameter. */
  datatype RelWrite = RelWrite(rtype: string, sourceId: string, targetId: string, properties: seq<(string, Value)>)

  predicate Linked(r: ExtractedRel)
  {
    NonEmpty(r.sourceId) && NonEmpty(r.targetId)
  }

  /** `rel_params` as the query receives it: source_id and target_id, then
      one entry per property, so a property named "source_id" or
      "target_id" replaces the end the query matches. */
  function RelParams(w: RelWrite): (m: map<string, Value>)
    ensures forall k :: k in m <==> k in {"source_id", "target_id"} || HasKey(w.properties, k)
    ensures forall k :: HasKey(w.properties, k) ==> m[k] == LastValue(w.properties, k)
    ensures !HasKey(w.properties, "source_id") ==> m["source_id"] == JStr(w.sourceId)
    ensures !HasKey(w.properties, "target_id") ==> m["target_id"] == JStr(w.targetId)
  {
    var base := map["source_id" := JStr(w.sourceId), "target_id" := JStr(w.targetId)];
    assert base.Keys == {"source_id", "target_id"};
    Overlay(base, w.properties)
  }

  /** The write one linked relationship makes: its normalised type
      (RELATED_TO when absent), its checked ends and its properties. */
  function WriteOf(x: ExtractedRel): (w: RelWrite)
    requires Linked(x)
    ensures w.rtype == NormalizeRelType(x.rtype.GetOr("RELATED_TO")) && w.properties == x.properties
    ensures |w.sourceId| > 0 && |w.targetId| > 0
    ensures !HasKey(x.properties, "source_id") ==> RelParams(w)["source_id"] == JStr(x.sourceId.value)
    ensures !HasKey(x.properties, "target_id") ==> RelParams(w)["target_id"] == JStr(x.targetId.value)
  {
    RelWrite(NormalizeRelType(x.rtype.GetOr("RELATED_TO")), x.sourceId.value, x.targetId.value, x.properties)
  }

  /** The relationship loop: a missing type is RELATED_TO, and a
      relationship without both ends is skipped. */
  function RelWrites(rels: seq<ExtractedRel>): (r: seq<RelWrite>)
    ensures |r| <= |rels|
    ensures forall j :: 0 <= j < |r| ==> |r[j].sourceId| > 0 && |r[j].targetId| > 0 && ' ' !in r[j].rtype
    ensures |r| == |rels| <==> forall i :: 0 <= i < |rels| ==> Linked(rels[i])
    decreases |rels|
  {
    if |rels| == 0 then []
    else
      var rest := RelWrites(rels[1..]);
      assert forall i :: 1 <= i < |rels| ==> rels[i] == rels[1..][i - 1];
      var x := rels[0];
      if Linked(x) then
        [WriteOf(x)] + rest
      else rest
  }

  /** Every linked relationship is written, and every write comes from a
      linked relationship. */
  lemma LinkedRelsAreWritten(rels: seq<ExtractedRel>)
    ensures forall i :: 0 <= i < |rels| && Linked(rels[i]) ==> WriteOf(rels[i]) in RelWrites(rels)
    ensures forall w :: w in RelWrites(rels) ==> exists i :: 0 <= i < |rels| && Linked(rels[i]) && w == WriteOf(rels[i])
  {
    forall i | 0 <= i < |rels| && Linked(rels[i])
      ensures WriteOf(rels[i]) in RelWrites(rels)
    {
      LinkedRelIsWritten(rels, i);
    }
    RelWritesComeFromLinked(rels);
  }

  lemma {:induction false} LinkedRelIsWritten(rels: seq<ExtractedRel>, i: nat)
    requires i < |rels| && Linked(rels[i])
    ensures WriteOf(rels[i]) in RelWrites(rels)
    decreases i
  {
    if i > 0 {
      LinkedRelIsWritten(rels[1..], i - 1);
      assert rels[1..][i - 1] == rels[i];
    }
  }

  lemma {:induction false} RelWritesComeFromLinked(rels: seq<ExtractedRel>)
    ensures forall w :: w in RelWrites(rels) ==> exists i :: 0 <= i < |rels| && Linked(rels[i]) && w == WriteOf(rels[i])
    decreases |rels|
  {
    if |rels| > 0 {
      var tail := rels[1..];
      RelWritesComeFromLinked(tail);
      forall w | w in RelWrites(rels)
        ensures exists i :: 0 <= i < |rels| && Linked(rels[i]) && w == WriteOf(rels[i])
      {
        if !(Linked(rels[0]) && w == WriteOf(rels[0])) {
          assert w in RelWrites(tail);
          var k :| 0 <= k < |tail| && Linked(tail[k]) && w == WriteOf(tail[k]);
          assert rels[k + 1] == tail[k];
        }
      }
    }
  }

  /** The writes keep the order of the extraction: one more relationship
      adds its write, if any, at the end. */
  lemma {:induction false} RelWritesAppend(rels: seq<ExtractedRel>, x: ExtractedRel)
    ensures RelWrites(rels + [x]) == RelWrites(rels) + (if Linked(x) then [WriteOf(x)] else [])
    decreases |rels|
  {
    if |rels| == 0 {
      assert rels + [x] == [x];
    } else {
      assert (rels + [x])[1..] == rels[1..] + [x];
      RelWritesAppend(rels[1..], x);
    }
  }

  /** An untyped relationship becomes RELATED_TO; with no properties it
      joins its own ends. */
  lemma DefaultRelType(x: ExtractedRel)
    requires Linked(x) && x.rtype.None?
    ensures |RelWrites([x])| == 1 && RelWrites([x])[0].rtype == "RELATED_TO"
    ensures x.properties == [] ==>
      RelWrites([x]) == [RelWrite("RELATED_TO", x.sourceId.value, x.targetId.value, [])]
  {
    var w := WriteOf(x);
    assert RelWrites([x]) == [w] by {
      assert [x][1..] == [];
    }
    RelatedToIsNormal();
  }

  lemma RelatedToIsNormal()
    ensures NormalizeRelType("RELATED_TO") == "RELATED_TO"
  {
    var r := NormalizeRelType("RELATED_TO");
    assert forall i :: 0 <= i < |r| ==> r[i] == "RELATED_TO"[i];
  }

  /** A property named "target_id" redirects the relationship to another
      node. */
  lemma PropertyOverridesTarget(src: string, tgt: string, other: Value)
    requires |src| > 0 && |tgt| > 0
    ensures var m := RelParams(WriteOf(ExtractedRel(Some(src), Some(tgt), None, [("target_id", other)])));
      m["target_id"] == other && m["source_id"] == JStr(src)
  {
    var props := [("target_id", other)];
    assert props[0].0 == "target_id";
    assert props[..0] == [];
    assert Keys(props) == {"target_id"};
  }

  // ------------------------------------------------------ document entities

  /** Keys the cleanup removes: internal ones and the ones the row already
      carries. */
  predicate Internal(key: string)
  {
    StartsWith(key, "_") || key in {"id", "name", "graph_name"}
  }

  function CleanProperties(props: map<string, Value>): (r: map<string, Value>)
    ensures forall k :: k in r <==> k in props && !Internal(k)
    ensures forall k :: k in r ==> r[k] == props[k]
  {
    map k | k in props && !Internal(k) :: props[k]
  }

  /** The first label other than "Entity", else "Entity". */
  function PrimaryType(labels: seq<string>): (r: string)
    ensures r != "Entity" ==> r in labels
    ensures r == "Entity" <==> forall i :: 0 <= i < |labels| ==> labels[i] == "Entity"
    decreases |labels|
  {
    if |labels| == 0 then "Entity"
    else if labels[0] != "Entity" then labels[0]
    else
      var r := PrimaryType(labels[1..]);
      assert forall i :: 1 <= i < |labels| ==> labels[i] == labels[1..][i - 1];
      r
  }

  /** The primary type is the earliest label that is not "Entity". */
  lemma {:induction false} PrimaryTypeIsFirst(labels: seq<string>, i: nat)
    requires i < |labels| && labels[i] != "Entity"
    requires forall j :: 0 <= j < i ==> labels[j] == "Entity"
    ensures PrimaryType(labels) == labels[i]
    decreases i
  {
    if i > 0 {
      PrimaryTypeIsFirst(labels[1..], i - 1);
    }
  }

  /** A row of the document-entity query. */
  datatype EntityRow = EntityRow(id: Value, types: Option<seq<string>>, name: Value, relationshipType: string,
                                 properties: Option<map<string, Value>>)

  /** A row after cleanup: `types` is kept only when it was absent or empty. */
  datatype CleanRow = CleanRow(id: Value, types: Option<seq<string>>, primaryType: Option<string>, name: Value,
                               relationshipType: string, properties: Option<map<string, Value>>)

  function CleanEntity(e: EntityRow): (c: CleanRow)
    ensures e.types.Some? && |e.types.value| > 0 ==> c.types.None? && c.primaryType == Some(PrimaryType(e.types.value))
    ensures !(e.types.Some? && |e.types.value| > 0) ==> c.types == e.types && c.primaryType.None?
    ensures e.properties.Some? && |e.properties.value| > 0 ==> c.properties == Some(CleanProperties(e.properties.value))
    ensures !(e.properties.Some? && |e.properties.value| > 0) ==> c.properties == e.properties
    ensures c.id == e.id && c.name == e.name && c.relationshipType == e.relationshipType
  {
    var props := if e.properties.Some? && |e.properties.value| > 0 then Some(CleanProperties(e.properties.value)) else e.properties;
    if e.types.Some? && |e.types.value| > 0 then
      CleanRow(e.id, None, Some(PrimaryType(e.types.value)), e.name, e.relationshipType, props)
    else CleanRow(e.id, e.types, None, e.name, e.relationshipType, props)
  }

  /** Cleaning a cleaned property map changes nothing. */
  lemma CleanPropertiesIdempotent(props: map<string, Value>)
    ensures CleanProperties(CleanProperties(props)) == CleanProperties(props)
  {
  }

  // ---------------------------------------------------------- concept map

  /** A row of the concept-map query. */
  datatype MapRow = MapRow(sourceId: string, sourceName: Value, sourceTypes: seq<string>,
                           targetId: string, targetName: Value, targetTypes: seq<string>, relTypes: seq<string>)

  datatype MapNode = MapNode(id: string, name: Value, ntype: string)

  datatype MapRel = MapRel(source: string, target: string, rtype: string)

  function Ids(nodes: seq<MapNode>): (r: seq<string>)
    ensures |r| == |nodes|
    ensures forall i :: 0 <= i < |nodes| ==> r[i] == nodes[i].id
  {
    seq(|nodes|, i requires 0 <= i < |nodes| => nodes[i].id)
  }

  predicate Distinct(ids: seq<string>)
  {
    forall i, j :: 0 <= i < j < |ids| ==> ids[i] != ids[j]
  }

  /** The two nodes a row mentions, source first. */
  function Mentions(row: MapRow): seq<MapNode>
  {
    [MapNode(row.sourceId, row.sourceName, PrimaryType(row.sourceTypes)),
     MapNode(row.targetId, row.targetName, PrimaryType(row.targetTypes))]
  }

  function AllMentions(rows: seq<MapRow>): (r: seq<MapNode>)
    ensures |r| == 2 * |rows|
    decreases |rows|
  {
    if |rows| == 0 then [] else AllMentions(rows[..|rows| - 1]) + Mentions(rows[|rows| - 1])
  }

  /** `if id not in nodes: nodes[id] = node`. */
  function Insert(nodes: seq<MapNode>, n: MapNode): (r: seq<MapNode>)
    ensures n.id in Ids(nodes) ==> r == nodes
    ensures n.id !in Ids(nodes) ==> r == nodes + [n]
  {
    if n.id in Ids(nodes) then nodes else nodes + [n]
  }

  /** The reference: insert the mentions one after another. */
  function InsertAll(nodes: seq<MapNode>, ms: seq<MapNode>): seq<MapNode>
    decreases |ms|
  {
    if |ms| == 0 then nodes else InsertAll(Insert(nodes, ms[0]), ms[1..])
  }

  lemma {:induction false} InsertAllAppend(nodes: seq<MapNode>, a: seq<MapNode>, b: seq<MapNode>)
    ensures InsertAll(nodes, a + b) == InsertAll(InsertAll(nodes, a), b)
    decreases |a|
  {
    if |a| > 0 {
      assert (a + b)[0] == a[0];
      assert (a + b)[1..] == a[1..] + b;
      InsertAllAppend(Insert(nodes, a[0]), a[1..], b);
    } else {
      assert a + b == b;
    }
  }

  /** Inserting keeps identifiers distinct, adds exactly the mentioned
      identifiers, and never replaces a node already present. */
  lemma {:induction false} InsertAllKeeps(nodes: seq<MapNode>, ms: seq<MapNode>)
    requires Distinct(Ids(nodes))
    ensures var r := InsertAll(nodes, ms);
      Distinct(Ids(r))
      && |nodes| <= |r| && r[..|nodes|] == nodes
      && (forall x :: x in Ids(r) <==> x in Ids(nodes) || x in Ids(ms))
    decreases |ms|
  {
    if |ms| > 0 {
      var next := Insert(nodes, ms[0]);
      assert Distinct(Ids(next));
      InsertAllKeeps(next, ms[1..]);
      assert Ids(ms) == [ms[0].id] + Ids(ms[1..]);
      if ms[0].id !in Ids(nodes) {
        assert Ids(next) == Ids(nodes) + [ms[0].id];
        assert next[..|nodes|] == nodes;
      }
    }
  }

  /** The relationships a row contributes, one per relationship type. */
  function RowRels(row: MapRow): (r: seq<MapRel>)
    ensures |r| == |row.relTypes|
    ensures forall j :: 0 <= j < |r| ==> r[j] == MapRel(row.sourceId, row.targetId, row.relTypes[j])
  {
    seq(|row.relTypes|, j requires 0 <= j < |row.relTypes| => MapRel(row.sourceId, row.targetId, row.relTypes[j]))
  }

  function AllRels(rows: seq<MapRow>): seq<MapRel>
    decreases |rows|
  {
    if |rows| == 0 then [] else AllRels(rows[..|rows| - 1]) + RowRels(rows[|rows| - 1])
  }

  function TotalRelTypes(rows: seq<MapRow>): nat
    decreases |rows|
  {
    if |rows| == 0 then 0 else TotalRelTypes(rows[..|rows| - 1]) + |rows[|rows| - 1].relTypes|
  }

  lemma {:induction false} AllRelsCount(rows: seq<MapRow>)
    ensures |AllRels(rows)| == TotalRelTypes(rows)
    decreases |rows|
  {
    if |rows| > 0 {
      AllRelsCount(rows[..|rows| - 1]);
    }
  }

  /** `get_concept_map`: one pass over the rows, collecting each node once
      (the first row mentioning it wins) and one relationship per type. */
  method ConceptMap(rows: seq<MapRow>) returns (nodes: seq<MapNode>, rels: seq<MapRel>)
    ensures nodes == InsertAll([], AllMentions(rows))
    ensures rels == AllRels(rows)
    ensures |rels| == TotalRelTypes(rows)
    ensures Distinct(Ids(nodes))
    ensures forall i :: 0 <= i < |rows| ==> rows[i].sourceId in Ids(nodes) && rows[i].targetId in Ids(nodes)
  {
    nodes, rels := [], [];
    var i := 0;
    while i < |rows|
      invariant 0 <= i <= |rows|
      invariant nodes == InsertAll([], AllMentions(rows[..i]))
      invariant rels == AllRels(rows[..i])
    {
      var row := rows[i];
      assert rows[..i + 1][..i] == rows[..i];
      assert rows[..i + 1][i] == row;
      assert AllMentions(rows[..i + 1]) == AllMentions(rows[..i]) + Mentions(row);
      assert AllRels(rows[..i + 1]) == AllRels(rows[..i]) + RowRels(row);
      InsertAllAppend([], AllMentions(rows[..i]), Mentions(row));
      var src := MapNode(row.sourceId, row.sourceName, PrimaryType(row.sourceTypes));
      var tgt := MapNode(row.targetId, row.targetName, PrimaryType(row.targetTypes));
      assert Mentions(row)[1..] == [tgt];
      assert InsertAll(nodes, Mentions(row)) == InsertAll(Insert(nodes, src), [tgt]);
      assert InsertAll(Insert(nodes, src), [tgt]) == InsertAll(Insert(Insert(nodes, src), tgt), []);
      nodes := Insert(nodes, src);
      nodes := Insert(nodes, tgt);
      rels := rels + RowRels(row);
      i := i + 1;
    }
    assert rows[..|rows|] == rows;
    AllRelsCount(rows);
    InsertAllKeeps([], AllMentions(rows));
    forall i | 0 <= i < |rows|
      ensures rows[i].sourceId in Ids(nodes) && rows[i].targetId in Ids(nodes)
    {
      MentionedRowsAppear(rows, i);
    }
  }

  /** Each row's ends are among the mentions. */
  lemma {:induction false} MentionedRowsAppear(rows: seq<MapRow>, i: nat)
    requires i < |rows|
    ensures rows[i].sourceId in Ids(AllMentions(rows)) && rows[i].targetId in Ids(AllMentions(rows))
    decreases |rows|
  {
    var last := |rows| - 1;
    var front := AllMentions(rows[..last]);
    var m := front + Mentions(rows[last]);
    assert Ids(m)[|front|] == rows[last].sourceId;
    assert Ids(m)[|front| + 1] == rows[last].targetId;
    if i < last {
      MentionedRowsAppear(rows[..last], i);
      assert rows[..last][i] == rows[i];
      assert forall x :: x in Ids(front) ==> x in Ids(m) by {
        forall x | x in Ids(front) ensures x in Ids(m) {
          var k :| 0 <= k < |front| && Ids(front)[k] == x;
          assert Ids(m)[k] == x;
        }
      }
    }
  }
}

=== FILE: json.dfy ===
/** JSON-shaped values: the dictionaries, lists and scalars the application
    passes between its layers (task details, results, configuration). */
module Json {
  import opened Wrappers

  datatype Value =
    | JNull
    | JBool(b: bool)
    | JNum(n: int)
    | JReal(x: real)
    | JStr(s: string)
    | JArr(items: seq<Value>)
    | JObj(fields: seq<(string, Value)>)

  /** The value bound to `key` in an association list (first binding wins). */
  function Lookup(fields: seq<(string, Value)>, key: string): (r: Option<Value>)
    ensures r.Some? <==> exists i :: 0 <= i < |fields| && fields[i].0 == key
    ensures r.Some? ==> exists i :: 0 <= i < |fields| && fields[i] == (key, r.value)
    decreases |fields|
  {
    if |fields| == 0 then None
    else if fields[0].0 == key then Some(fields[0].1)
    else
      var r := Lookup(fields[1..], key);
      assert forall i :: 1 <= i < |fields| ==> fields[i] == fields[1..][i - 1];
      r
  }

  /** `d.get(key)` on a dictionary; anything that is not an object has no keys. */
  function Get(v: Value, key: string): Option<Value>
  {
    if v.JObj? then Lookup(v.fields, key) else None
  }

  /** `d.get(key, default)`. */
  function GetOr(v: Value, key: string, default: Value): Value
  {
    Get(v, key).GetOr(default)
  }

  /** Python truthiness of a JSON value. */
  predicate Truthy(v: Value)
  {
    match v
    case JNull => false
    case JBool(b) => b
    case JNum(n) => n != 0
    case JReal(x) => x != 0.0
    case JStr(s) => |s| > 0
    case JArr(items) => |items| > 0
    case JObj(fields) => |fields| > 0
  }

  /** `{key: value}`. */
  function Single(key: string, value: Value): (r: Value)
    ensures Get(r, key) == Some(value)
  {
    JObj([(key, value)])
  }

  /** `{"error": message}`, the payload every failure path stores. */
  function ErrorPayload(message: string): (r: Value)
    ensures Get(r, "error") == Some(JStr(message))
  {
    Single("error", JStr(message))
  }
}

=== FILE: llm_client.dfy ===
/** The LLM client's decisions that do not depend on the vendor: key
    masking, tool selection, tool-argument validation, crawl summaries, the
    guards in front of every agent run, progress tickers and the mapping
    of HTTP answers to chat text. */
module LlmClient {
  import opened Wrappers
  import opened Text
  import opened Json
  import opened Tracker
  import opened AgentRoutes

  // ------------------------------------------------------------- masking

  /** The key as it appears in the log: its first and last four
      characters, or "***" for a key of eight characters or fewer. */
  function MaskKey(key: string): (r: string)
    ensures |key| <= 8 ==> r == "***"
    ensures |key| > 8 ==> |r| == 11 && r[..4] == key[..4] && r[4..7] == "..." && r[7..] == key[|key| - 4..]
  {
    if |key| > 8 then key[..4] + "..." + key[|key| - 4..] else "***"
  }

  /** The mask reveals nothing beyond the first and last four characters:
      keys that agree there have the same mask. */
  lemma MaskHidesTheMiddle(a: string, b: string)
    requires |a| > 8 && |b| > 8 && a[..4] == b[..4] && a[|a| - 4..] == b[|b| - 4..]
    ensures MaskKey(a) == MaskKey(b)
  {
  }

  // ------------------------------------------------------- tool selection

  /** An agent tool; `NoTool` is a `None` left in a tool list. */
  datatype Tool = WebSearch | Crawler | DatasetCreator | KnowledgeGraph | NoTool

  const CrawlerTerms: seq<string> := ["crawl", "scrape", "extract", "website", "webpage", "web page"]
  const DatasetTerms: seq<string> := ["dataset", "create dataset", "hugging face", "huggingface"]
  const GraphTerms: seq<string> := ["knowledge graph", "graph", "neo4j"]

  /** Which optional tools could be built (a builder may return nothing). */
  datatype Builders = Builders(crawler: bool, dataset: bool, graph: bool)

  predicate Wants(message: Option<string>, terms: seq<string>)
  {
    NonEmpty(message) && ContainsAny(Lower(message.value), terms)
  }

  /** `_create_agent`'s tool list: web search always, then each optional
      tool whose terms occur in the lower-cased message and whose builder
      succeeded. */
  function SelectTools(message: Option<string>, b: Builders): (tools: seq<Tool>)
    ensures |tools| >= 1 && tools[0] == WebSearch
    ensures Crawler in tools <==> Wants(message, CrawlerTerms) && b.crawler
    ensures DatasetCreator in tools <==> Wants(message, DatasetTerms) && b.dataset
    ensures KnowledgeGraph in tools <==> Wants(message, GraphTerms) && b.graph
    ensures !NonEmpty(message) ==> tools == [WebSearch]
  {
    [WebSearch]
    + (if Wants(message, CrawlerTerms) && b.crawler then [Crawler] else [])
    + (if Wants(message, DatasetTerms) && b.dataset then [DatasetCreator] else [])
    + (if Wants(message, GraphTerms) && b.graph then [KnowledgeGraph] else [])
  }

  /** Selection ignores the case of ASCII letters in the message. */
  lemma SelectToolsIgnoresCase(message: string, b: Builders)
    ensures SelectTools(Some(Upper(message)), b) == SelectTools(Some(message), b)
    ensures SelectTools(Some(Lower(message)), b) == SelectTools(Some(message), b)
  {
    LowerIdempotent(message);
  }

  /** The crawler's place in the web run's list: the crawler tool, or the
      `None` its builder returned. */
  function CrawlerSlot(b: Builders): Tool
  {
    if b.crawler then Crawler else NoTool
  }

  /** `run_web_agent`'s tool list: web search and the crawler's slot always
      (a crawler that could not be built stays in the list as `None`), the
      dataset tool when a dataset name is given and the graph tool when an
      export is asked for (each only if its builder succeeded). */
  function WebAgentTools(datasetName: Option<string>, exportToGraph: bool, b: Builders): (tools: seq<Tool>)
    ensures |tools| >= 2 && tools[0] == WebSearch && tools[1] in {Crawler, NoTool}
    ensures Crawler in tools <==> b.crawler
    ensures NoTool in tools <==> !b.crawler
    ensures DatasetCreator in tools <==> NonEmpty(datasetName) && b.dataset
    ensures KnowledgeGraph in tools <==> exportToGraph && b.graph
    ensures |tools| == 2 + (if NonEmpty(datasetName) && b.dataset then 1 else 0) + (if exportToGraph && b.graph then 1 else 0)
  {
    [WebSearch, CrawlerSlot(b)]
    + (if NonEmpty(datasetName) && b.dataset then [DatasetCreator] else [])
    + (if exportToGraph && b.graph then [KnowledgeGraph] else [])
  }

  /** A web run carries the crawler whenever it could be built, whatever
      the message says; the general agent carries it only when asked for.
      An unbuilt crawler is dropped by the general agent but left in the
      web run's list as `None`. */
  lemma WebAgentAlwaysCrawls(message: Option<string>, datasetName: Option<string>, exportToGraph: bool, b: Builders)
    requires !Wants(message, CrawlerTerms)
    ensures Crawler in WebAgentTools(datasetName, exportToGraph, b) <==> b.crawler
    ensures WebAgentTools(datasetName, exportToGraph, b)[1] == CrawlerSlot(b)
    ensures Crawler !in SelectTools(message, b) && NoTool !in SelectTools(message, b)
  {
    assert WebAgentTools(datasetName, exportToGraph, b)[1] == CrawlerSlot(b);
  }

  // ------------------------------------------------------ tool arguments

  const SourceTypes: seq<string> := ["repository", "organization", "website"]

  /** The dataset tool's first check; `None` means the call goes on. */
  function CheckSourceType(sourceType: string): (r: Option<string>)
    ensures r.None? <==> sourceType in SourceTypes
  {
    if sourceType in SourceTypes then None
    else Some("Invalid source_type: " + sourceType + ". Must be 'repository', 'organization', or 'website'.")
  }

  /** What the knowledge-graph tool decides to do. */
  datatype GraphAction =
    | NotConnected
    | ListGraphs
    | CreateGraph(name: string)
    | ViewGraph(name: string)
    | DeleteGraph(name: string)
    | NameRequired(action: string)
    | InvalidAction(action: string)

  function GraphToolAction(connected: bool, action: string, graphName: Option<string>): (r: GraphAction)
    ensures !connected ==> r == NotConnected
    ensures connected && Lower(action) == "list" ==> r == ListGraphs
    ensures connected && Lower(action) in ["create", "view", "delete"] && !NonEmpty(graphName) ==>
      r == NameRequired(Lower(action))
    ensures connected && Lower(action) == "create" && NonEmpty(graphName) ==> r == CreateGraph(graphName.value)
    ensures connected && Lower(action) == "view" && NonEmpty(graphName) ==> r == ViewGraph(graphName.value)
    ensures connected && Lower(action) == "delete" && NonEmpty(graphName) ==> r == DeleteGraph(graphName.value)
    ensures connected && Lower(action) !in ["list", "create", "view", "delete"] ==> r == InvalidAction(Lower(action))
  {
    var a := Lower(action);
    if !connected then NotConnected
    else if a == "list" then ListGraphs
    else if a == "create" then (if NonEmpty(graphName) then CreateGraph(graphName.value) else NameRequired(a))
    else if a == "view" then (if NonEmpty(graphName) then ViewGraph(graphName.value) else NameRequired(a))
    else if a == "delete" then (if NonEmpty(graphName) then DeleteGraph(graphName.value) else NameRequired(a))
    else InvalidAction(a)
  }

  /** The action is matched without regard to case. */
  lemma GraphToolIgnoresCase(connected: bool, action: string, graphName: Option<string>)
    ensures GraphToolAction(connected, Upper(action), graphName) == GraphToolAction(connected, action, graphName)
  {
    LowerIdempotent(action);
  }

  function GraphActionText(a: GraphAction): string
  {
    match a
    case NotConnected => "Failed to connect to Neo4j database. Check database configuration."
    case NameRequired(action) => "Graph name is required for " + action + " action."
    case InvalidAction(action) => "Invalid action: " + action + ". Must be 'create', 'list', 'view', or 'delete'."
    case _ => ""
  }

  // ------------------------------------------------------ crawl summaries

  const SampleLimit := 1000
  const TruncationMark := "...[truncated]"

  /** The sample of the first page: cut to 1000 characters plus a mark. */
  function Truncate(sample: string): (r: string)
    ensures |sample| <= SampleLimit ==> r == sample
    ensures |sample| > SampleLimit ==> r == sample[..SampleLimit] + TruncationMark
    ensures |r| <= SampleLimit + |TruncationMark|
  {
    if |sample| > SampleLimit then sample[..SampleLimit] + TruncationMark else sample
  }

  /** Truncating a truncated sample changes nothing. */
  lemma TruncateIdempotent(sample: string)
    ensures Truncate(Truncate(sample)) == Truncate(sample)
  {
    if |sample| > SampleLimit {
      var t := Truncate(sample);
      assert t[..SampleLimit] == sample[..SampleLimit];
    }
  }

  datatype Page = Page(title: Option<string>, markdown: Option<string>)

  /** The titles that count: the pages whose title is non-empty. */
  function Titles(pages: seq<Page>): (ts: seq<string>)
    ensures |ts| <= |pages|
    ensures forall t :: t in ts ==> |t| > 0
    ensures forall i :: 0 <= i < |pages| && NonEmpty(pages[i].title) ==> pages[i].title.value in ts
    ensures forall t :: t in ts ==> exists i :: 0 <= i < |pages| && pages[i].title == Some(t)
    ensures |ts| == |pages| <==> forall i :: 0 <= i < |pages| ==> NonEmpty(pages[i].title)
    decreases |pages|
  {
    if |pages| == 0 then []
    else
      var rest := Titles(pages[1..]);
      assert forall i :: 1 <= i < |pages| ==> pages[i] == pages[1..][i - 1];
      assert forall t :: t in rest ==> exists i :: 0 <= i < |pages| && pages[i].title == Some(t) by {
        forall t | t in rest ensures exists i :: 0 <= i < |pages| && pages[i].title == Some(t) {
          var k :| 0 <= k < |pages[1..]| && pages[1..][k].title == Some(t);
          assert pages[k + 1].title == Some(t);
        }
      }
      (if NonEmpty(pages[0].title) then [pages[0].title.value] else []) + rest
  }

  /** Titles keep the order of the pages: one more page adds its title, if
      it has one, at the end. */
  lemma {:induction false} TitlesAppend(pages: seq<Page>, p: Page)
    ensures Titles(pages + [p]) == Titles(pages) + (if NonEmpty(p.title) then [p.title.value] else [])
    decreases |pages|
  {
    if |pages| == 0 {
      assert pages + [p] == [p];
    } else {
      assert (pages + [p])[1..] == pages[1..] + [p];
      TitlesAppend(pages[1..], p);
    }
  }

  /** At most five titles are listed, then "and N more." for the rest. */
  function TitleLine(ts: seq<string>): (r: string)
    ensures StartsWith(r, "Found pages with titles: ")
    ensures |ts| <= 5 ==> r == "Found pages with titles: " + Join(ts, ", ")
    ensures |ts| > 5 ==> r == "Found pages with titles: " + Join(ts[..5], ", ") + " and " + NatToString(|ts| - 5) + " more."
  {
    "Found pages with titles: " + Join(if |ts| > 5 then ts[..5] else ts, ", ")
    + (if |ts| > 5 then " and " + NatToString(|ts| - 5) + " more." else "")
  }

  function CrawlSummary(url: string, pages: seq<Page>): (r: string)
    ensures |pages| == 0 ==> r == "Crawled 0 pages from " + url + ".\n\n"
    ensures |pages| > 0 ==>
      StartsWith(r, "Crawled " + NatToString(|pages|) + " pages from " + url + ".\n\n" + TitleLine(Titles(pages)) + "\n\n")
    ensures |pages| > 0 && pages[0].markdown.None? ==>
      r == "Crawled " + NatToString(|pages|) + " pages from " + url + ".\n\n" + TitleLine(Titles(pages)) + "\n\n"
    ensures |pages| > 0 && pages[0].markdown.Some? ==> EndsWith(r, Truncate(pages[0].markdown.value))
  {
    var head := "Crawled " + NatToString(|pages|) + " pages from " + url + ".\n\n";
    if |pages| == 0 then head
    else
      var body := head + TitleLine(Titles(pages)) + "\n\n";
      match pages[0].markdown
      case None => body
      case Some(md) => body + "Sample content from first page:\n" + Truncate(md)
  }

  // ----------------------------------------------------------- run guards

  datatype AgentResult = AgentResult(success: bool, message: string, data: Option<Value>)

  /** What the agent runner did once it was called. */
  datatype RunnerOutcome = FinalOutput(output: string, toolCalls: seq<Value>) | NoFinalOutput | RunnerRaised(error: string)

  /** The checks every `run_*` makes before building an agent: an API key,
      then the Agents SDK. */
  function RunGuard(apiKey: Option<string>, hasSdk: bool): (r: Option<AgentResult>)
    ensures r.None? <==> NonEmpty(apiKey) && hasSdk
    ensures r.Some? ==> !r.value.success && r.value.data.None?
  {
    if !NonEmpty(apiKey) then Some(AgentResult(false, "OpenAI API key not configured", None))
    else if !hasSdk then Some(AgentResult(false, "OpenAI Agents SDK not available", None))
    else None
  }

  /** `run_agent`: the result and whether the agent runner was called. */
  function RunAgent(apiKey: Option<string>, hasSdk: bool, agentBuilt: bool, outcome: RunnerOutcome): (r: (AgentResult, bool))
    ensures r.1 <==> NonEmpty(apiKey) && hasSdk && agentBuilt
    ensures r.0.success <==> r.1 && outcome.FinalOutput?
    ensures r.0.success ==> r.0.data == Some(JObj([("response", JStr(outcome.output)), ("tool_calls", JArr(outcome.toolCalls))]))
    ensures !r.0.success ==> r.0.data.None?
  {
    match RunGuard(apiKey, hasSdk)
    case Some(refusal) => (refusal, false)
    case None =>
      if !agentBuilt then (AgentResult(false, "Failed to initialize agent", None), false)
      else match outcome
        case FinalOutput(o, tcs) =>
          (AgentResult(true, "Agent task completed successfully",
                       Some(JObj([("response", JStr(o)), ("tool_calls", JArr(tcs))]))), true)
        case NoFinalOutput => (AgentResult(false, "Agent returned invalid response", None), true)
        case RunnerRaised(e) => (AgentResult(false, "Error: " + e, None), true)
  }

  // ------------------------------------------------------- chat responses

  datatype ResponseRoute = NeedsKey | ViaAgents | ViaApi

  /** `generate_response`: no key, the Agents SDK, or the plain API. */
  function RouteResponse(apiKey: Option<string>, hasSdk: bool): (r: ResponseRoute)
    ensures r == NeedsKey <==> !NonEmpty(apiKey)
    ensures r == ViaAgents <==> NonEmpty(apiKey) && hasSdk
  {
    if !NonEmpty(apiKey) then NeedsKey else if hasSdk then ViaAgents else ViaApi
  }

  const EmptyResponseText := "I received an empty response. Please try again."
  const AuthErrorText := "Authentication error: The OpenAI API key seems to be invalid. Please check your configuration."
  const RateLimitText := "Rate limit exceeded: The OpenAI API request was rate limited. Please try again later."

  /** `_generate_response_with_api`: the chat text for an HTTP answer.
      `content` is the first choice's message content (200) and
      `errorMessage` the error object's message, when present. */
  function ApiAnswer(status: nat, content: string, errorMessage: Option<string>): (r: string)
    ensures status == 200 && |content| > 0 ==> r == content
    ensures status == 200 && |content| == 0 ==> r == EmptyResponseText
    ensures status == 401 ==> r == AuthErrorText
    ensures status == 429 ==> r == RateLimitText
    ensures status !in {200, 401, 429} ==> r == "OpenAI API error: " + errorMessage.GetOr("Unknown error")
    ensures |r| > 0
  {
    if status == 200 then (if |content| > 0 then content else EmptyResponseText)
    else if status == 401 then AuthErrorText
    else if status == 429 then RateLimitText
    else "OpenAI API error: " + errorMessage.GetOr("Unknown error")
  }

  /** An error status never passes model content through as the reply. */
  lemma ErrorStatusNeverEchoesContent(status: nat, content: string, errorMessage: Option<string>)
    requires status != 200
    ensures ApiAnswer(status, content, errorMessage) in
      {AuthErrorText, RateLimitText, "OpenAI API error: " + errorMessage.GetOr("Unknown error")}
  {
  }

  const TimeoutText := "The request to the OpenAI API timed out. Please try again later."
  const ConnectionText := "Could not connect to the OpenAI API. Please check your internet connection."
  const FailurePrefix := "I encountered an error while processing your message: "

  /** How the request ended: an HTTP answer whose body decoded, a timeout,
      a connection failure, or any other exception (a body that is not
      JSON among them) with the text `str(e)` gives it. */
  datatype ApiOutcome =
    | Answered(status: nat, content: string, errorMessage: Option<string>)
    | TimedOut
    | ConnectionFailed
    | Raised(pythonError: string)

  /** `_generate_response_with_api` as a whole: the HTTP answer's text, or
      the reply each exception handler gives. */
  function ApiReply(o: ApiOutcome): (r: string)
    ensures o.Answered? ==> r == ApiAnswer(o.status, o.content, o.errorMessage)
    ensures o.TimedOut? ==> r == TimeoutText
    ensures o.ConnectionFailed? ==> r == ConnectionText
    ensures o.Raised? ==> r == FailurePrefix + o.pythonError
    ensures |r| > 0
  {
    match o
    case Answered(status, content, errorMessage) => ApiAnswer(status, content, errorMessage)
    case TimedOut => TimeoutText
    case ConnectionFailed => ConnectionText
    case Raised(e) => FailurePrefix + e
  }

  /** Only a 200 answer with content passes model text through: every
      failure, whether an HTTP status or an exception, gets a fixed text or
      an error message. */
  lemma ApiReplyEchoesOnlySuccess(o: ApiOutcome)
    requires !(o.Answered? && o.status == 200)
    ensures ApiReply(o) in {AuthErrorText, RateLimitText, TimeoutText, ConnectionText}
      || (o.Answered? && ApiReply(o) == "OpenAI API error: " + o.errorMessage.GetOr("Unknown error"))
      || (o.Raised? && ApiReply(o) == FailurePrefix + o.pythonError)
  {
    if o.Answered? {
      ErrorStatusNeverEchoesContent(o.status, o.content, o.errorMessage);
    }
  }

  // ----------------------------------------------------- progress tickers

  /** The values a ticker reports: starting from `p`, add `step` and
      report, while the value is below `limit`. */
  function TickValues(p: nat, step: nat, limit: nat): (r: seq<nat>)
    requires step > 0
    ensures p >= limit <==> |r| == 0
    ensures |r| > 0 ==> r[0] == p + step && r[|r| - 1] >= limit
    ensures forall i :: 0 <= i < |r| ==> p < r[i] < limit + step
    decreases limit - p
  {
    if p >= limit then []
    else [p + step] + TickValues(p + step, step, limit)
  }

  /** The reports are evenly spaced: the i-th (from 0) is `p + step + i * step`. */
  lemma {:induction false} TicksEvenlySpaced(p: nat, step: nat, limit: nat, i: nat)
    requires step > 0 && i < |TickValues(p, step, limit)|
    ensures TickValues(p, step, limit)[i] == p + step + i * step
    decreases i
  {
    if i > 0 {
      var rest := TickValues(p + step, step, limit);
      assert TickValues(p, step, limit) == [p + step] + rest;
      TicksEvenlySpaced(p + step, step, limit, i - 1);
      assert rest[i - 1] == p + step + step + (i - 1) * step;
    }
  }

  /** The ticker loop of `run_web_agent`, `run_github_agent` and
      `run_knowledge_graph_agent`. */
  method Ticker(start: nat, step: nat, limit: nat) returns (values: seq<nat>)
    requires step > 0
    ensures values == TickValues(start, step, limit)
  {
    values := [];
    var progress := start;
    while progress < limit
      invariant progress >= start
      invariant values + TickValues(progress, step, limit) == TickValues(start, step, limit)
      decreases limit - progress
    {
      TickStep(values, progress, step, limit);
      progress := progress + step;
      values := values + [progress];
    }
  }

  /** One turn of the ticker loop moves one value from the pending ticks
      to the printed ones. */
  lemma TickStep(values: seq<nat>, p: nat, step: nat, limit: nat)
    requires step > 0 && p < limit
    ensures values + TickValues(p, step, limit) == (values + [p + step]) + TickValues(p + step, step, limit)
  {
    var later := TickValues(p + step, step, limit);
    assert TickValues(p, step, limit) == [p + step] + later;
    assert values + ([p + step] + later) == (values + [p + step]) + later;
  }

  /** When the limit is `n` steps away, there are exactly `n` reports and
      the last is the limit itself. */
  lemma {:induction false} TicksEndAtLimit(p: nat, step: nat, limit: nat, n: nat)
    requires step > 0 && n > 0 && p + n * step == limit
    ensures var r := TickValues(p, step, limit);
      |r| == n && r[n - 1] == limit && forall i :: 0 <= i < |r| ==> r[i] <= limit
    decreases n
  {
    if n > 1 {
      assert (p + step) + (n - 1) * step == limit;
      TicksEndAtLimit(p + step, step, limit, n - 1);
      assert TickValues(p, step, limit) == [p + step] + TickValues(p + step, step, limit);
    } else {
      assert TickValues(p + step, step, limit) == [];
    }
  }

  predicate Rising(s: seq<nat>)
  {
    forall i, j :: 0 <= i < j < |s| ==> s[i] < s[j]
  }

  /** Reports strictly increase. */
  lemma {:induction false} TicksIncrease(p: nat, step: nat, limit: nat)
    requires step > 0
    ensures Rising(TickValues(p, step, limit))
    decreases limit - p
  {
    if p < limit {
      var rest := TickValues(p + step, step, limit);
      TicksIncrease(p + step, step, limit);
      var r := [p + step] + rest;
      assert TickValues(p, step, limit) == r;
      forall i, j | 0 <= i < j < |r| ensures r[i] < r[j] {
        assert r[j] == rest[j - 1];
        if i > 0 {
          assert r[i] == rest[i - 1];
          assert 0 <= i - 1 < j - 1 < |rest|;
          assert rest[i - 1] < rest[j - 1];
        } else {
          assert p + step < rest[j - 1];
        }
      }
    }
  }

  /** Where the shipped tickers start, how far they step and where they stop. */
  const TickStart: nat := 20
  const TickLimit: nat := 90
  const WebStep: nat := 5
  const GraphStep: nat := 10

  /** The web and GitHub tickers report 25, 30, ..., 90 (fourteen values);
      the graph ticker reports 30, 40, ..., 90 (seven). */
  lemma ShippedTickers()
    ensures var r := TickValues(TickStart, WebStep, TickLimit);
      |r| == 14 && r[0] == 25 && r[13] == 90 && forall i :: 0 <= i < |r| ==> r[i] <= 90
    ensures var r := TickValues(TickStart, GraphStep, TickLimit);
      |r| == 7 && r[0] == 30 && r[6] == 90 && forall i :: 0 <= i < |r| ==> r[i] <= 90
  {
    TicksEndAtLimit(TickStart, WebStep, TickLimit, 14);
    TicksEndAtLimit(TickStart, GraphStep, TickLimit, 7);
  }

  // -------------------------------------- progress of a run over time

  /** The steps of the shipped tickers. */
  predicate ShippedStep(step: nat)
  {
    step == WebStep || step == GraphStep
  }

  /** What a shipped ticker's reports look like: rising, above 20, ending
      at 90. */
  predicate TickerShape(ticks: seq<nat>)
  {
    && |ticks| > 0 && ticks[|ticks| - 1] == TickLimit
    && (forall i :: 0 <= i < |ticks| ==> TickStart < ticks[i] <= TickLimit)
    && Rising(ticks)
  }

  lemma ShippedTickersHaveShape(step: nat)
    requires ShippedStep(step)
    ensures TickerShape(TickValues(TickStart, step, TickLimit))
  {
    var n: nat := if step == WebStep then 14 else 7;
    assert TickStart + n * step == TickLimit;
    TicksEndAtLimit(TickStart, step, TickLimit, n);
    TicksIncrease(TickStart, step, TickLimit);
  }

  /** The percentages an agent run reports, in time order, when its runner
      returns after `k` ticker reports.  As written the ticker is never
      cancelled, so its remaining reports arrive after the final 100. */
  function RunProgressAsWritten(ticks: seq<nat>, k: nat): (r: seq<nat>)
    requires k <= |ticks|
  {
    [10, 20] + ticks[..k] + [100] + ticks[k..]
  }

  /** A runner that returns before the ticker is done leaves later reports
      after 100, the last of them 90. */
  lemma ProgressAfterCompletion(ticks: seq<nat>, k: nat)
    requires TickerShape(ticks) && k < |ticks|
    ensures var r := RunProgressAsWritten(ticks, k);
      r[k + 2] == 100 && |r| > k + 3 && r[|r| - 1] == 90
  {
  }

  /** With the ticker stopped when the runner returns, the reports rise
      strictly and nothing follows 100. */
  function RunProgress(ticks: seq<nat>, k: nat): (r: seq<nat>)
    requires TickerShape(ticks) && k <= |ticks|
    ensures |r| == k + 3 && r[k + 2] == 100 && r[..2] == [10, 20] && r[2..k + 2] == ticks[..k]
    ensures Rising(r)
  {
    var r := [10, 20] + ticks[..k] + [100];
    forall i, j | 0 <= i < j < |r| ensures r[i] < r[j] {
      if j == |r| - 1 {
        assert r[j] == 100;
        if i >= 2 { assert r[i] == ticks[i - 2]; }
      } else if i >= 2 {
        assert r[i] == ticks[i - 2] && r[j] == ticks[j - 2];
      } else if j >= 2 {
        assert r[j] == ticks[j - 2];
      }
    }
    r
  }

  /** The ticker's late reports as the agent route passes them on. */
  function LateEvents(ticks: seq<nat>, k: nat, text: string): (es: seq<ProgressEvent>)
    requires k <= |ticks|
    ensures |es| == |ticks| - k
    ensures forall i :: 0 <= i < |es| ==> es[i] == ProgressEvent(ticks[k + i], Some(text))
  {
    seq(|ticks| - k, i requires 0 <= i < |ticks| - k => ProgressEvent(ticks[k + i], Some(text)))
  }

  /** Late reports reach the tracker after the completion call: the agent
      task stays completed but its progress falls to the last late value. */
  lemma CompletedTaskEndsBelow100(taskId: string, taskType: string, message: string, options: Value,
                                  early: seq<ProgressEvent>, late: seq<ProgressEvent>, v: Value)
    requires ExpectedStatus(taskType, Returned(v)) == Completed && |late| > 0
    ensures var calls := ProcessAgentTask(taskId, taskType, message, options, early, Returned(v)) + ProgressCalls(taskId, late);
      Replay(taskId, Fresh(Queued), calls).status == Completed
      && Replay(taskId, Fresh(Queued), calls).progress == late[|late| - 1].percent
  {
    var main := ProcessAgentTask(taskId, taskType, message, options, early, Returned(v));
    AgentTaskLifecycle(taskId, taskType, message, options, early, Returned(v), JNull);
    ReplayAppend(taskId, Fresh(Queued), main, ProgressCalls(taskId, late));
    ProgressKeepsRunning(taskId, Replay(taskId, Fresh(Queued), main), late);
  }

  /** Concretely: a successful agent task whose runner returns before the
      ticker is done ends "completed" at 90 percent. */
  lemma CompletedAt90(taskId: string, taskType: string, message: string, options: Value,
                      early: seq<ProgressEvent>, v: Value, ticks: seq<nat>, k: nat, text: string)
    requires TickerShape(ticks) && k < |ticks|
    requires ExpectedStatus(taskType, Returned(v)) == Completed
    ensures var calls := ProcessAgentTask(taskId, taskType, message, options, early, Returned(v))
                         + ProgressCalls(taskId, LateEvents(ticks, k, text));
      Replay(taskId, Fresh(Queued), calls).status == Completed && Replay(taskId, Fresh(Queued), calls).progress == 90
  {
    var late := LateEvents(ticks, k, text);
    assert late[|late| - 1].percent == ticks[|ticks| - 1];
    CompletedTaskEndsBelow100(taskId, taskType, message, options, early, late, v);
  }
}

=== FILE: main_menu.dfy ===
/** The interactive main menu: its numbering depends on whether resumable
    tasks exist, and a choice is dispatched by comparing the typed text with
    the numbers printed. */
module MainMenu {
  import opened Wrappers
  import opened Text

  datatype Action =
    | ToggleServer | ScrapeCrawl | GithubDataset | ManageDatasets | ResumeTask
    | ScheduledTasks | WebUi | Configuration | Exit | AiAssistant | Invalid

  /** The entries in the order they are printed; entry `i` carries number `i+1`. */
  function MenuActions(hasResumable: bool): (m: seq<Action>)
    ensures |m| == (if hasResumable then 10 else 9)
    ensures Invalid !in m
    ensures ResumeTask in m <==> hasResumable
  {
    [ToggleServer, ScrapeCrawl, GithubDataset, ManageDatasets]
    + (if hasResumable then [ResumeTask] else [])
    + [ScheduledTasks, WebUi, Configuration, Exit, AiAssistant]
  }

  function MaxChoice(hasResumable: bool): nat
  {
    if hasResumable then 10 else 9
  }

  function Label(a: Action, serverRunning: bool): string
  {
    match a
    case ToggleServer => if serverRunning then "Stop OpenAPI Endpoints" else "Start OpenAPI Endpoints"
    case ScrapeCrawl => "Scrape & Crawl"
    case GithubDataset => "Create Dataset from GitHub Repository"
    case ManageDatasets => "Manage Existing Datasets"
    case ResumeTask => "Resume Scraping Task"
    case ScheduledTasks => "Scheduled Tasks & Automation"
    case WebUi => "Launch Web UI"
    case Configuration => "Configuration"
    case Exit => "Exit"
    case AiAssistant => "Run AI Assistant (full functionality)"
    case Invalid => ""
  }

  /** The printed menu lines. */
  function MenuLines(hasResumable: bool, serverRunning: bool): (lines: seq<string>)
    ensures |lines| == MaxChoice(hasResumable)
  {
    var m := MenuActions(hasResumable);
    seq(|m|, i requires 0 <= i < |m| => NatToString(i + 1) + ". " + Label(m[i], serverRunning))
  }

  /** The `if`/`elif` chain that reacts to the typed choice. */
  function Dispatch(choice: string, hasResumable: bool): (a: Action)
    ensures a == Invalid <==>
      choice !in (if hasResumable then ["1", "2", "3", "4", "5", "6", "7", "8", "9", "10"]
                  else ["1", "2", "3", "4", "5", "6", "7", "8", "9"])
    ensures a == ResumeTask <==> hasResumable && choice == "5"
    ensures a == Exit <==> choice == (if hasResumable then "9" else "8")
  {
    var r := hasResumable;
    if choice == "1" then ToggleServer
    else if choice == "2" then ScrapeCrawl
    else if choice == "3" then GithubDataset
    else if choice == "4" then ManageDatasets
    else if choice == "5" && r then ResumeTask
    else if (choice == "5" && !r) || (choice == "6" && r) then ScheduledTasks
    else if (choice == "6" && !r) || (choice == "7" && r) then WebUi
    else if (choice == "7" && !r) || (choice == "8" && r) then Configuration
    else if (choice == "9" && !r) || (choice == "10" && r) then AiAssistant
    else if (choice == "8" && !r) || (choice == "9" && r) then Exit
    else Invalid
  }

  /** Typing the number printed in front of an entry runs that entry, in
      both layouts of the menu. */
  lemma DispatchMatchesPrintedMenu(hasResumable: bool, i: nat)
    requires 1 <= i <= MaxChoice(hasResumable)
    ensures Dispatch(NatToString(i), hasResumable) == MenuActions(hasResumable)[i - 1]
  {
    var m := MenuActions(hasResumable);
    if i < 10 {
      assert NatToString(i) == [DigitChar(i)];
      if i <= 4 {
        assert m[i - 1] == [ToggleServer, ScrapeCrawl, GithubDataset, ManageDatasets][i - 1];
      }
    } else {
      assert NatToString(10) == "10" by {
        assert NatToString(1) == "1";
      }
    }
  }

  /** Anything that is not one of the printed numbers is rejected. */
  lemma DispatchRejectsUnlisted(choice: string, hasResumable: bool)
    requires forall i :: 1 <= i <= MaxChoice(hasResumable) ==> choice != NatToString(i)
    ensures Dispatch(choice, hasResumable) == Invalid
  {
    assert NatToString(1) == "1" && NatToString(2) == "2" && NatToString(3) == "3";
    assert NatToString(4) == "4" && NatToString(5) == "5" && NatToString(6) == "6";
    assert NatToString(7) == "7" && NatToString(8) == "8" && NatToString(9) == "9";
    assert NatToString(10) == "10";
  }

  /** "Invalid choice" text names the range that was printed. */
  function InvalidChoiceMessage(hasResumable: bool): string
  {
    "Invalid choice. Please enter a number between 1 and " + NatToString(MaxChoice(hasResumable)) + "."
  }

  // ---------------------------------------------------------------- loop

  /** One pass of the loop: the flags checked before it, what the menu
      showed, and what was typed. */
  datatype Turn = Turn(cancelled: bool, exitRequested: bool, hasResumable: bool, choice: string)

  /** The actions performed, in order.  The loop stops before a pass once
      the cancellation event or the exit flag is set, and after Exit. */
  function RunMenu(turns: seq<Turn>): (done: seq<Action>)
    ensures |done| <= |turns|
    ensures forall i :: 0 <= i < |done| ==> done[i] == Dispatch(turns[i].choice, turns[i].hasResumable)
    ensures forall i :: 0 <= i < |done| ==> !turns[i].cancelled && !turns[i].exitRequested
    ensures forall i :: 0 <= i < |done| - 1 ==> done[i] != Exit
    decreases |turns|
  {
    if |turns| == 0 then []
    else
      var t := turns[0];
      if t.cancelled || t.exitRequested then []
      else
        var a := Dispatch(t.choice, t.hasResumable);
        if a == Exit then [a] else [a] + RunMenu(turns[1..])
  }

  /** The loop runs through every pass until the first one that is stopped
      or chooses Exit. */
  lemma {:induction false} RunMenuStopsOnlyWhenAsked(turns: seq<Turn>)
    ensures |RunMenu(turns)| < |turns| ==>
      var k := |RunMenu(turns)|;
      turns[k].cancelled || turns[k].exitRequested || (k > 0 && RunMenu(turns)[k - 1] == Exit)
    decreases |turns|
  {
    if |turns| > 0 && !turns[0].cancelled && !turns[0].exitRequested
       && Dispatch(turns[0].choice, turns[0].hasResumable) != Exit {
      RunMenuStopsOnlyWhenAsked(turns[1..]);
    }
  }

  // ------------------------------------------------------- starting the server

  datatype ServerStart = SaveFailed | StartServer(apiKey: string, port: nat)

  /** Choice 1 with the server stopped: use the stored OpenAPI key, or ask
      for one and save it; a failed save abandons the attempt. */
  function StartServerFlow(storedKey: Option<string>, enteredKey: string, saveSucceeds: bool, port: nat): (r: ServerStart)
    ensures NonEmpty(storedKey) ==> r == StartServer(storedKey.value, port)
    ensures !NonEmpty(storedKey) && !saveSucceeds ==> r == SaveFailed
    ensures !NonEmpty(storedKey) && saveSucceeds ==> r == StartServer(enteredKey, port)
  {
    if NonEmpty(storedKey) then StartServer(storedKey.value, port)
    else if !saveSucceeds then SaveFailed
    else StartServer(enteredKey, port)
  }
}

=== FILE: rate_limit.dfy ===
/** The API server's per-client sliding-window rate limiter: each client
    address keeps the timestamps of its admitted requests; a request is
    refused with status 429 when the window already holds the maximum. */
module RateLimit {
  import opened Wrappers

  /** Client address to timestamps (seconds) of its admitted requests. */
  type History = map<string, seq<int>>

  datatype Limits = Limits(maxRequests: nat, window: int)

  /** The limits the application installs (100 requests per 60 seconds),
      which are also the middleware's defaults. */
  const AppLimits: Limits := Limits(100, 60)

  /** A refusal (status 429, nothing recorded), or admission with the
      X-RateLimit-Limit / -Remaining / -Reset header values. */
  datatype Decision = Refused(status: nat, body: string) | Admitted(limit: nat, remaining: int, reset: int)

  /** The address a request is accounted to. */
  function ClientKey(host: Option<string>): string
  {
    host.GetOr("unknown")
  }

  /** The timestamps still inside the window at time `now`, in order. */
  function Recent(ts: seq<int>, now: int, window: int): (r: seq<int>)
    ensures |r| <= |ts|
    ensures forall x :: x in r <==> x in ts && now - x < window
    ensures forall x :: multiset(r)[x] == (if now - x < window then multiset(ts)[x] else 0)
    ensures |r| == |ts| <==> forall i :: 0 <= i < |ts| ==> now - ts[i] < window
    decreases |ts|
  {
    if |ts| == 0 then []
    else
      var last := ts[|ts| - 1];
      var init := ts[..|ts| - 1];
      assert ts == init + [last];
      assert forall i :: 0 <= i < |init| ==> init[i] == ts[i];
      Recent(init, now, window) + (if now - last < window then [last] else [])
  }

  /** The pruning comprehension, as a loop over the stored timestamps. */
  method Prune(ts: seq<int>, now: int, window: int) returns (kept: seq<int>)
    ensures kept == Recent(ts, now, window)
  {
    kept := [];
    var i := 0;
    while i < |ts|
      invariant 0 <= i <= |ts|
      invariant kept == Recent(ts[..i], now, window)
    {
      assert ts[..i + 1][..i] == ts[..i];
      if now - ts[i] < window {
        kept := kept + [ts[i]];
      }
      i := i + 1;
    }
    assert ts[..|ts|] == ts;
  }

  function Entries(h: History, client: string): seq<int>
  {
    if client in h then h[client] else []
  }

  /** `RateLimitingMiddleware.dispatch` for one request from `client` at
      time `now`: prune, then refuse or record. */
  function Dispatch(h: History, client: string, now: int, lim: Limits): (r: (History, Decision))
    ensures r.0.Keys == h.Keys + {client}
    ensures forall k :: k in h && k != client ==> r.0[k] == h[k]
    ensures r.1.Refused? <==> |Recent(Entries(h, client), now, lim.window)| >= lim.maxRequests
    ensures r.1.Refused? ==> r.1.status == 429 && r.0[client] == Recent(Entries(h, client), now, lim.window)
    ensures r.1.Admitted? ==> r.0[client] == Recent(Entries(h, client), now, lim.window) + [now]
    ensures r.1.Admitted? ==>
      r.1.limit == lim.maxRequests && 0 <= r.1.remaining < lim.maxRequests && r.1.reset == now + lim.window
  {
    var kept := Recent(Entries(h, client), now, lim.window);
    if |kept| >= lim.maxRequests then
      (h[client := kept], Refused(429, "Rate limit exceeded. Please try again later."))
    else
      var stored := kept + [now];
      (h[client := stored], Admitted(lim.maxRequests, lim.maxRequests - |stored|, now + lim.window))
  }

  // ------------------------------------------------ the sliding-window guarantee

  lemma {:induction false} RecentOfRecent(ts: seq<int>, t1: int, t2: int, window: int)
    requires t1 <= t2
    ensures Recent(Recent(ts, t1, window), t2, window) == Recent(ts, t2, window)
    decreases |ts|
  {
    if |ts| > 0 {
      var init := ts[..|ts| - 1];
      var last := ts[|ts| - 1];
      RecentOfRecent(init, t1, t2, window);
      if t1 - last < window {
        RecentAppend(Recent(init, t1, window), last, t2, window);
      } else {
        assert Recent(ts, t1, window) == Recent(init, t1, window);
      }
    }
  }

  lemma RecentAppend(ts: seq<int>, x: int, now: int, window: int)
    ensures Recent(ts + [x], now, window) == Recent(ts, now, window) + (if now - x < window then [x] else [])
  {
    assert (ts + [x])[..|ts + [x]| - 1] == ts;
  }

  /** Every admitted request of one client, never pruned. */
  datatype ClientState = ClientState(stored: seq<int>, admitted: seq<int>, last: int)

  /** The stored list is exactly the admitted requests still inside the
      window, and that is never more than the limit. */
  predicate Consistent(s: ClientState, lim: Limits)
  {
    s.stored == Recent(s.admitted, s.last, lim.window) && |s.stored| <= lim.maxRequests
  }

  function StepClient(s: ClientState, now: int, lim: Limits): (r: (ClientState, bool))
  {
    var d := Dispatch(map[ "c" := s.stored ], "c", now, lim);
    var admitted := d.1.Admitted?;
    (ClientState(d.0["c"], if admitted then s.admitted + [now] else s.admitted, now), admitted)
  }

  /** One request keeps the stored list consistent with the full record of
      admissions, and is admitted exactly when fewer than the limit of the
      client's admitted requests fall in the window ending now. */
  lemma StepKeepsConsistent(s: ClientState, now: int, lim: Limits)
    requires Consistent(s, lim) && s.last <= now && lim.window > 0
    ensures StepClient(s, now, lim).1 <==> |Recent(s.admitted, now, lim.window)| < lim.maxRequests
    ensures Consistent(StepClient(s, now, lim).0, lim)
  {
    RecentOfRecent(s.admitted, s.last, now, lim.window);
    assert Entries(map[ "c" := s.stored ], "c") == s.stored;
    if |Recent(s.admitted, now, lim.window)| < lim.maxRequests {
      RecentAppend(s.admitted, now, now, lim.window);
    }
    assert |Recent(s.stored, now, lim.window)| <= |s.stored|;
  }

  function RunClient(s: ClientState, times: seq<int>, lim: Limits): ClientState
    decreases |times|
  {
    if |times| == 0 then s else RunClient(StepClient(s, times[0], lim).0, times[1..], lim)
  }

  predicate NonDecreasing(times: seq<int>)
  {
    forall i, j :: 0 <= i < j < |times| ==> times[i] <= times[j]
  }

  /** For any stream of requests from one client arriving in time order,
      no window of `window` seconds ending at a request holds more than the
      limit of admitted requests. */
  lemma {:induction false} SlidingWindowBound(s: ClientState, times: seq<int>, lim: Limits)
    requires Consistent(s, lim) && lim.window > 0
    requires NonDecreasing(times) && (|times| > 0 ==> s.last <= times[0])
    ensures Consistent(RunClient(s, times, lim), lim)
    ensures |Recent(RunClient(s, times, lim).admitted, RunClient(s, times, lim).last, lim.window)| <= lim.maxRequests
    decreases |times|
  {
    if |times| > 0 {
      StepKeepsConsistent(s, times[0], lim);
      SlidingWindowBound(StepClient(s, times[0], lim).0, times[1..], lim);
    }
  }
}

=== FILE: resume_task.dfy ===
/** The "Resume Scraping Task" menu action: pick one of the tracker's
    resumable tasks by number, confirm, and hand it back to the dataset
    creator with the stage it had reached. */
module ResumeTask {
  import opened Wrappers
  import opened Text
  import opened Json

  /** A resumable task as the tracker lists it. */
  datatype ResumableTask = ResumableTask(id: string, taskType: string, description: string,
                                         params: Value, currentStage: Option<Value>)

  /** The arguments the dataset creator is resumed with. */
  datatype ResumeCall = ResumeCall(url: Option<Value>, datasetName: Option<Value>, description: Option<Value>,
                                   recursive: Value, taskId: string, resumeFrom: Option<Value>)

  datatype Outcome =
    | NoTasks
    | Declined
    | InvalidNumber
    | Unsupported(taskType: string)
    | MissingToken
    | Resumed(call: ResumeCall)
    | Failed(error: string)

  /** The text of the exception `int()` raises on a non-number. */
  function NotANumber(input: string): string
  {
    "invalid literal for int() with base 10: '" + input + "'"
  }

  const EventUndefined: string := "name 'Event' is not defined"

  /** The dataset creator's arguments: the stored parameters looked up by
      name (absent ones stay absent), `recursive` defaulting to false. */
  function CallFor(t: ResumableTask): (c: ResumeCall)
    ensures c.taskId == t.id && c.resumeFrom == t.currentStage
    ensures c.url == Get(t.params, "url")
    ensures c.datasetName == Get(t.params, "dataset_name")
    ensures c.description == Get(t.params, "description")
    ensures Get(t.params, "recursive").None? ==> c.recursive == JBool(false)
    ensures Get(t.params, "recursive").Some? ==> c.recursive == Get(t.params, "recursive").value
  {
    ResumeCall(Get(t.params, "url"), Get(t.params, "dataset_name"), Get(t.params, "description"),
               GetOr(t.params, "recursive", JBool(false)), t.id, t.currentStage)
  }

  /** The flow as written: the cancellation event is built with a name the
      module never imports, so every confirmed resumption raises and ends in
      the error handler. */
  function ResumeAsWritten(tasks: seq<ResumableTask>, selection: string, confirm: string, hfToken: Option<string>): (o: Outcome)
    ensures !o.Resumed? && !o.Unsupported? && !o.MissingToken?
  {
    if |tasks| == 0 then NoTasks
    else match ParseInt(selection)
      case None => Failed(NotANumber(selection))
      case Some(n) =>
        var index := n - 1;
        if index < 0 then Declined
        else if index >= |tasks| then InvalidNumber
        else if Lower(confirm) != "yes" then Declined
        else Failed(EventUndefined)
  }

  /** The flow as evidently intended, with the cancellation event available. */
  function Resume(tasks: seq<ResumableTask>, selection: string, confirm: string, hfToken: Option<string>): (o: Outcome)
    ensures |tasks| == 0 <==> o == NoTasks
    ensures |tasks| > 0 && ParseInt(selection).None? ==> o == Failed(NotANumber(selection))
    ensures |tasks| > 0 && ParseInt(selection).Some? && ParseInt(selection).value <= 0 ==> o == Declined
    ensures |tasks| > 0 && ParseInt(selection).Some? && ParseInt(selection).value > |tasks| ==> o == InvalidNumber
    ensures |tasks| > 0 && ParseInt(selection).Some? && 1 <= ParseInt(selection).value <= |tasks| ==>
      var task := tasks[ParseInt(selection).value - 1];
      && (Lower(confirm) != "yes" ==> o == Declined)
      && (Lower(confirm) == "yes" && task.taskType != "scrape" ==> o == Unsupported(task.taskType))
      && (Lower(confirm) == "yes" && task.taskType == "scrape" && !NonEmpty(hfToken) ==> o == MissingToken)
    ensures o.Resumed? ==>
      && Lower(confirm) == "yes" && NonEmpty(hfToken)
      && (exists k :: 0 <= k < |tasks| && ParseInt(selection) == Some(k + 1)
                      && tasks[k].taskType == "scrape" && o.call == CallFor(tasks[k]))
  {
    if |tasks| == 0 then NoTasks
    else match ParseInt(selection)
      case None => Failed(NotANumber(selection))
      case Some(n) =>
        var index := n - 1;
        if index < 0 then Declined
        else if index >= |tasks| then InvalidNumber
        else if Lower(confirm) != "yes" then Declined
        else
          var task := tasks[index];
          if task.taskType != "scrape" then Unsupported(task.taskType)
          else if !NonEmpty(hfToken) then MissingToken
          else
            assert ParseInt(selection) == Some(index + 1);
            Resumed(CallFor(task))
  }

  /** Both flows agree everywhere except after a confirmation. */
  lemma FlowsAgreeBeforeConfirmation(tasks: seq<ResumableTask>, selection: string, confirm: string, hfToken: Option<string>)
    requires Lower(confirm) != "yes"
    ensures ResumeAsWritten(tasks, selection, confirm, hfToken) == Resume(tasks, selection, confirm, hfToken)
  {
  }

  /** Entering the number printed next to a task (`i+1.`) selects that task:
      a confirmed scrape task is resumed from its own id and stage. */
  lemma SelectionByPrintedNumber(tasks: seq<ResumableTask>, k: nat, confirm: string, hfToken: Option<string>)
    requires k < |tasks| && tasks[k].taskType == "scrape"
    requires Lower(confirm) == "yes" && NonEmpty(hfToken)
    ensures Resume(tasks, NatToString(k + 1), confirm, hfToken) == Resumed(CallFor(tasks[k]))
  {
    ParseNatString(k + 1);
    ResumeSelected(tasks, NatToString(k + 1), k, confirm, hfToken);
  }

  /** Any selection that reads as `k+1` picks task `k`; only the code as
      written then fails. */
  lemma ResumeSelected(tasks: seq<ResumableTask>, selection: string, k: nat, confirm: string, hfToken: Option<string>)
    requires k < |tasks| && tasks[k].taskType == "scrape"
    requires Lower(confirm) == "yes" && NonEmpty(hfToken)
    requires ParseInt(selection) == Some(k + 1)
    ensures ResumeAsWritten(tasks, selection, confirm, hfToken) == Failed(EventUndefined)
    ensures Resume(tasks, selection, confirm, hfToken) == Resumed(CallFor(tasks[k]))
  {
  }

  /** "0", as the prompt suggests, and any other non-positive number
      written out back out without touching a task, in both flows. */
  lemma ZeroCancels(tasks: seq<ResumableTask>, n: int, confirm: string, hfToken: Option<string>)
    requires |tasks| > 0 && n <= 0
    ensures Resume(tasks, IntToString(n), confirm, hfToken) == Declined
    ensures ResumeAsWritten(tasks, IntToString(n), confirm, hfToken) == Declined
  {
    ParseIntRoundTrip(n);
  }

  /** Typing "0" itself backs out, in both flows. */
  lemma TypingZeroCancels(tasks: seq<ResumableTask>, confirm: string, hfToken: Option<string>)
    requires |tasks| > 0
    ensures Resume(tasks, "0", confirm, hfToken) == Declined
    ensures ResumeAsWritten(tasks, "0", confirm, hfToken) == Declined
  {
    assert IntToString(0) == "0";
    ZeroCancels(tasks, 0, confirm, hfToken);
  }

  /** The defect: whenever the user picks a scrape task by its printed
      number and confirms, with a token configured, the code as written
      reports an error where the intended flow resumes the task. */
  lemma EventDefectWitness(tasks: seq<ResumableTask>, k: nat, confirm: string, hfToken: Option<string>)
    requires k < |tasks| && tasks[k].taskType == "scrape"
    requires Lower(confirm) == "yes" && NonEmpty(hfToken)
    ensures ResumeAsWritten(tasks, NatToString(k + 1), confirm, hfToken) == Failed(EventUndefined)
    ensures Resume(tasks, NatToString(k + 1), confirm, hfToken) == Resumed(CallFor(tasks[k]))
  {
    ParseNatString(k + 1);
    ResumeSelected(tasks, NatToString(k + 1), k, confirm, hfToken);
  }

  // The progress callback of the resumed run follows the same whole-tens
  // rule as the GitHub flow's: see GithubFlow.Printed and GithubFlow.PrintedLines.
}

=== FILE: text.dfy ===
/** The Python string built-ins the application relies on, restricted to ASCII:
    `str.lower`/`upper`, `str.strip`, `str.split(sep, 1)`, `sub in s`,
    `str.find`/`rfind`, `str.replace` of one character, `str.title`,
    `", ".join`, `str(n)` for naturals and `int(s)` for decimal literals. */
module Text {
  import opened Wrappers

  predicate IsUpper(c: char) { 'A' <= c <= 'Z' }
  predicate IsLower(c: char) { 'a' <= c <= 'z' }
  predicate IsLetter(c: char) { IsUpper(c) || IsLower(c) }
  predicate IsDigit(c: char) { '0' <= c <= '9' }

  /** The characters `str.strip()` removes: space, tab, LF, VT, FF, CR and
      the four ASCII separators 0x1C-0x1F. */
  predicate IsSpace(c: char)
  {
    c == ' ' || 9 <= c as int <= 13 || 28 <= c as int <= 31
  }

  function ToLower(c: char): (r: char)
    ensures !IsUpper(r)
    ensures IsLetter(c) <==> IsLetter(r)
    ensures !IsLetter(c) ==> r == c
  {
    if IsUpper(c) then (c as int + 32) as char else c
  }

  function ToUpper(c: char): (r: char)
    ensures !IsLower(r)
    ensures IsLetter(c) <==> IsLetter(r)
    ensures !IsLetter(c) ==> r == c
  {
    if IsLower(c) then (c as int - 32) as char else c
  }

  function Lower(s: string): (r: string)
    ensures |r| == |s|
    ensures forall i :: 0 <= i < |s| ==> r[i] == ToLower(s[i])
  {
    seq(|s|, i requires 0 <= i < |s| => ToLower(s[i]))
  }

  function Upper(s: string): (r: string)
    ensures |r| == |s|
    ensures forall i :: 0 <= i < |s| ==> r[i] == ToUpper(s[i])
  {
    seq(|s|, i requires 0 <= i < |s| => ToUpper(s[i]))
  }

  /** Lower-casing twice is lower-casing once, and case-insensitive
      comparisons see no difference between a string and its upper-case. */
  lemma LowerIdempotent(s: string)
    ensures Lower(Lower(s)) == Lower(s)
    ensures Lower(Upper(s)) == Lower(s)
  {
    assert forall i :: 0 <= i < |s| ==> ToLower(ToLower(s[i])) == ToLower(s[i]);
    assert forall i :: 0 <= i < |s| ==> ToLower(ToUpper(s[i])) == ToLower(s[i]);
  }

  // ---------------------------------------------------------------- prefixes

  predicate StartsWith(s: string, prefix: string)
  {
    |prefix| <= |s| && s[..|prefix|] == prefix
  }

  predicate EndsWith(s: string, suffix: string)
  {
    |suffix| <= |s| && s[|s| - |suffix|..] == suffix
  }

  // ----------------------------------------------------------- substrings

  /** `sub` occurs in `s` starting at index `i`. */
  predicate OccursAt(s: string, sub: string, i: nat)
  {
    i + |sub| <= |s| && s[i..i + |sub|] == sub
  }

  /** Python's `sub in s`, computed by scanning from the left. */
  function Contains(s: string, sub: string): bool
    decreases |s|
  {
    if |sub| > |s| then false
    else if s[..|sub|] == sub then true
    else Contains(s[1..], sub)
  }

  /** The scan agrees with the definition "some position holds `sub`". */
  lemma {:induction false} ContainsMeansOccurs(s: string, sub: string)
    ensures Contains(s, sub) <==> exists i: nat :: OccursAt(s, sub, i)
    decreases |s|
  {
    if |sub| > |s| {
      forall i: nat ensures !OccursAt(s, sub, i) { }
    } else if s[..|sub|] == sub {
      assert OccursAt(s, sub, 0);
    } else {
      ContainsMeansOccurs(s[1..], sub);
      if Contains(s[1..], sub) {
        var i: nat :| OccursAt(s[1..], sub, i);
        assert s[1..][i..i + |sub|] == s[i + 1..i + 1 + |sub|];
        assert OccursAt(s, sub, i + 1);
      } else {
        assert s[0..|sub|] == s[..|sub|];
        forall i: nat | OccursAt(s, sub, i) ensures false {
          if i != 0 {
            assert s[1..][i - 1..i - 1 + |sub|] == s[i..i + |sub|];
            assert OccursAt(s[1..], sub, i - 1);
          }
        }
      }
    }
  }

  /** Python's `any(k in s for k in keys)`. */
  predicate ContainsAny(s: string, keys: seq<string>)
  {
    exists k :: k in keys && Contains(s, k)
  }

  // ------------------------------------------------------ finding characters

  /** `s.find(c)`: the first index holding `c`, if any. */
  function IndexOf(s: string, c: char): (r: Option<nat>)
    ensures r.Some? ==> r.value < |s| && s[r.value] == c
    ensures r.Some? ==> forall k :: 0 <= k < r.value ==> s[k] != c
    ensures r.None? ==> forall k :: 0 <= k < |s| ==> s[k] != c
    decreases |s|
  {
    if |s| == 0 then None
    else if s[0] == c then Some(0)
    else match IndexOf(s[1..], c)
      case None => None
      case Some(k) => Some(k + 1)
  }

  /** `s.rfind(c)`: the last index holding `c`, if any. */
  function LastIndexOf(s: string, c: char): (r: Option<nat>)
    ensures r.Some? ==> r.value < |s| && s[r.value] == c
    ensures r.Some? ==> forall k :: r.value < k < |s| ==> s[k] != c
    ensures r.None? ==> forall k :: 0 <= k < |s| ==> s[k] != c
    decreases |s|
  {
    if |s| == 0 then None
    else if s[|s| - 1] == c then Some(|s| - 1)
    else LastIndexOf(s[..|s| - 1], c)
  }

  /** `parts = s.split(c, 1)`; `(parts[0], parts[1] if len(parts) > 1 else "")`. */
  function SplitOnce(s: string, c: char): (r: (string, string))
    ensures c !in r.0
    ensures c in s ==> r.0 + [c] + r.1 == s
    ensures c !in s ==> r.0 == s && r.1 == ""
  {
    match IndexOf(s, c)
    case None => (s, "")
    case Some(i) =>
      assert s[..i] + [c] + s[i + 1..] == s;
      (s[..i], s[i + 1..])
  }

  /** Splitting at the first separator undoes joining with it, when the
      head holds no separator. */
  lemma SplitOnceOfJoin(head: string, c: char, tail: string)
    requires c !in head
    ensures SplitOnce(head + [c] + tail, c) == (head, tail)
  {
    var s := head + [c] + tail;
    assert s[|head|] == c;
    assert forall k :: 0 <= k < |head| ==> s[k] == head[k];
    var i := IndexOf(s, c);
    assert i == Some(|head|);
    assert s[..|head|] == head;
    assert s[|head| + 1..] == tail;
  }

  /** A string without upper-case letters is its own lower-case. */
  lemma LowerOfNoUpper(s: string)
    requires forall i :: 0 <= i < |s| ==> !IsUpper(s[i])
    ensures Lower(s) == s
  {
  }

  // --------------------------------------------------------------- rewriting

  /** `s.replace(a, b)` for single characters. */
  function ReplaceChar(s: string, a: char, b: char): (r: string)
    ensures |r| == |s|
    ensures forall i :: 0 <= i < |s| ==> r[i] == (if s[i] == a then b else s[i])
  {
    seq(|s|, i requires 0 <= i < |s| => if s[i] == a then b else s[i])
  }

  /** `s.replace(c, "")`. */
  function RemoveChar(s: string, c: char): (r: string)
    ensures c !in r
    ensures |r| <= |s|
    ensures forall x :: x in r ==> x in s
    ensures c !in s ==> r == s
    decreases |s|
  {
    if |s| == 0 then []
    else (if s[0] == c then [] else [s[0]]) + RemoveChar(s[1..], c)
  }

  function Repeat(c: char, n: nat): (r: string)
    ensures |r| == n
    ensures forall i :: 0 <= i < n ==> r[i] == c
  {
    seq(n, _ => c)
  }

  /** `sep.join(parts)`. */
  function Join(parts: seq<string>, sep: string): string
    decreases |parts|
  {
    if |parts| == 0 then ""
    else if |parts| == 1 then parts[0]
    else parts[0] + sep + Join(parts[1..], sep)
  }

  // ------------------------------------------------------------ strip

  function StripLeft(s: string): (r: string)
    ensures |r| <= |s| && r == s[|s| - |r|..]
    ensures |r| > 0 ==> !IsSpace(r[0])
    ensures forall k :: 0 <= k < |s| - |r| ==> IsSpace(s[k])
    decreases |s|
  {
    if |s| > 0 && IsSpace(s[0]) then StripLeft(s[1..]) else s
  }

  function StripRight(s: string): (r: string)
    ensures |r| <= |s| && r == s[..|r|]
    ensures |r| > 0 ==> !IsSpace(r[|r| - 1])
    ensures forall k :: |r| <= k < |s| ==> IsSpace(s[k])
    decreases |s|
  {
    if |s| > 0 && IsSpace(s[|s| - 1]) then StripRight(s[..|s| - 1]) else s
  }

  /** `s.strip()`: whitespace removed from both ends and nowhere else. */
  function Strip(s: string): (r: string)
    ensures |r| > 0 ==> !IsSpace(r[0]) && !IsSpace(r[|r| - 1])
    ensures |r| <= |s|
    ensures (|s| == 0 || (!IsSpace(s[0]) && !IsSpace(s[|s| - 1]))) ==> r == s
  {
    StripRight(StripLeft(s))
  }

  /** Stripping a stripped string changes nothing. */
  lemma StripIdempotent(s: string)
    ensures Strip(Strip(s)) == Strip(s)
  {
  }

  // ------------------------------------------------------ title case

  /** `str.title()`: a letter is upper-cased when the character before it is
      not a letter (or it is the first character), lower-cased otherwise. */
  function TitleFrom(s: string, afterLetter: bool): (r: string)
    ensures |r| == |s|
    decreases |s|
  {
    if |s| == 0 then []
    else
      var c := if !IsLetter(s[0]) then s[0]
               else if afterLetter then ToLower(s[0])
               else ToUpper(s[0]);
      [c] + TitleFrom(s[1..], IsLetter(s[0]))
  }

  function Title(s: string): (r: string)
    ensures |r| == |s|
  {
    TitleFrom(s, false)
  }

  /** Title-casing only changes the case of letters. */
  lemma {:induction false} TitleKeepsLetters(s: string, afterLetter: bool)
    ensures forall i :: 0 <= i < |s| ==> ToLower(TitleFrom(s, afterLetter)[i]) == ToLower(s[i])
    decreases |s|
  {
    if |s| > 0 {
      var t := TitleFrom(s, afterLetter);
      var rest := TitleFrom(s[1..], IsLetter(s[0]));
      TitleKeepsLetters(s[1..], IsLetter(s[0]));
      assert t == [t[0]] + rest;
      assert ToLower(t[0]) == ToLower(s[0]);
      forall i | 1 <= i < |s| ensures ToLower(t[i]) == ToLower(s[i]) {
        assert t[i] == rest[i - 1];
        assert s[i] == s[1..][i - 1];
      }
    }
  }

  lemma TitleLowerIsLower(s: string)
    ensures Lower(Title(s)) == Lower(s)
  {
    TitleKeepsLetters(s, false);
  }

  // ------------------------------------------------------ numbers

  function DigitChar(d: nat): (r: char)
    requires d < 10
    ensures IsDigit(r)
  {
    ('0' as int + d) as char
  }

  function DigitValue(c: char): (r: nat)
    requires IsDigit(c)
    ensures r < 10 && DigitChar(r) == c
  {
    c as int - '0' as int
  }

  predicate AllDigits(s: string)
  {
    forall i :: 0 <= i < |s| ==> IsDigit(s[i])
  }

  /** `str(n)` for a natural number. */
  function NatToString(n: nat): (r: string)
    ensures |r| > 0 && AllDigits(r)
    decreases n
  {
    if n < 10 then [DigitChar(n)] else NatToString(n / 10) + [DigitChar(n % 10)]
  }

  /** `str(i)` for an integer. */
  function IntToString(i: int): (r: string)
    ensures |r| > 0
  {
    if i < 0 then "-" + NatToString(-i) else NatToString(i)
  }

  /** The value of a string of decimal digits, most significant first. */
  function DigitsValue(s: string): nat
    requires AllDigits(s)
    decreases |s|
  {
    if |s| == 0 then 0 else DigitsValue(s[..|s| - 1]) * 10 + DigitValue(s[|s| - 1])
  }

  lemma {:induction false} DigitsRoundTrip(n: nat)
    ensures DigitsValue(NatToString(n)) == n
    decreases n
  {
    var s := NatToString(n);
    if n >= 10 {
      DigitsRoundTrip(n / 10);
      assert s[..|s| - 1] == NatToString(n / 10);
    }
  }

  /** The digit part of a Python decimal literal: digits, with single
      underscores allowed between two digits. */
  predicate DecimalLiteral(s: string)
  {
    && |s| > 0
    && IsDigit(s[0]) && IsDigit(s[|s| - 1])
    && (forall i :: 0 <= i < |s| ==> IsDigit(s[i]) || s[i] == '_')
    && (forall i :: 0 <= i < |s| - 1 ==> !DoubleAt(s, i))
  }

  /** Two underscores in a row start at `i`. */
  predicate DoubleAt(s: string, i: nat)
    requires i < |s| - 1
  {
    s[i] == '_' && s[i + 1] == '_'
  }

  lemma RemoveUnderscoresLeavesDigits(s: string)
    requires forall i :: 0 <= i < |s| ==> IsDigit(s[i]) || s[i] == '_'
    ensures AllDigits(RemoveChar(s, '_'))
  {
    var r := RemoveChar(s, '_');
    forall i | 0 <= i < |r| ensures IsDigit(r[i]) {
      assert r[i] in r;
    }
  }

  /** Python's `int(s)` on a base-10 string: surrounding whitespace is ignored,
      an optional sign is accepted, anything else is a `ValueError` (`None`). */
  function ParseInt(s: string): (r: Option<int>)
    ensures r.Some? ==> |Strip(s)| > 0
  {
    ParseSigned(Strip(s))
  }

  /** A numeral without its leading sign, if it has one. */
  function Unsigned(t: string): string
  {
    if |t| > 0 && (t[0] == '-' || t[0] == '+') then t[1..] else t
  }

  /** `int()` after stripping: an optional sign, then a decimal literal. */
  function ParseSigned(t: string): (r: Option<int>)
    ensures r.Some? ==> |t| > 0
  {
    if |t| == 0 then None
    else
      var negative := t[0] == '-';
      var body := if t[0] == '-' || t[0] == '+' then t[1..] else t;
      match ParseDigits(body)
      case None => None
      case Some(v) => Some(if negative then -(v as int) else v)
  }

  /** What `int()` accepts: after stripping, an optional sign and then a
      decimal literal; a leading "-" gives no positive value, anything else
      no negative one. */
  lemma ParseIntAccepts(s: string)
    ensures ParseInt(s).Some? <==> |Strip(s)| > 0 && DecimalLiteral(Unsigned(Strip(s)))
    ensures ParseInt(s).Some? && Strip(s)[0] == '-' ==> ParseInt(s).value <= 0
    ensures ParseInt(s).Some? && Strip(s)[0] != '-' ==> ParseInt(s).value >= 0
  {
  }

  /** The value of an unsigned decimal literal, underscores dropped. */
  function ParseDigits(body: string): (r: Option<nat>)
    ensures r.Some? <==> DecimalLiteral(body)
  {
    if !DecimalLiteral(body) then None
    else
      RemoveUnderscoresLeavesDigits(body);
      Some(DigitsValue(RemoveChar(body, '_')))
  }

  /** `int(str(i)) == i`. */
  lemma ParseIntRoundTrip(i: int)
    ensures ParseInt(IntToString(i)) == Some(i)
  {
    if i < 0 {
      var n: nat := -i;
      assert IntToString(i) == "-" + NatToString(n);
      ParseNegativeString(n);
    } else {
      assert IntToString(i) == NatToString(i);
      ParseNatString(i);
    }
  }

  /** `int(str(n)) == n` for a natural number. */
  lemma ParseNatString(n: nat)
    ensures ParseInt(NatToString(n)) == Some(n as int)
  {
    var d := NatToString(n);
    DigitsRoundTrip(n);
    DigitsAreLiteral(d);
    UnsignedLiteral(d, n);
  }

  lemma ParseNegativeString(n: nat)
    requires n > 0
    ensures ParseInt("-" + NatToString(n)) == Some(-(n as int))
  {
    var d := NatToString(n);
    DigitsRoundTrip(n);
    DigitsAreLiteral(d);
    NegativeLiteral(d, n);
  }

  /** An unsigned literal needs no stripping and reads as its digits. */
  lemma UnsignedLiteral(d: string, v: nat)
    requires ParseDigits(d) == Some(v)
    ensures ParseInt(d) == Some(v as int)
  {
    assert IsDigit(d[0]) && IsDigit(d[|d| - 1]);
    NoSpaceEnds(d);
  }

  /** A "-" and a literal need no stripping and read as the negated digits. */
  lemma NegativeLiteral(d: string, v: nat)
    requires ParseDigits(d) == Some(v)
    ensures ParseInt("-" + d) == Some(-(v as int))
  {
    var s := "-" + d;
    assert s[1..] == d;
    assert IsDigit(d[|d| - 1]);
    assert s[|s| - 1] == d[|d| - 1];
    NoSpaceEnds(s);
  }

  /** With no whitespace at either end, `int()` sees the string unchanged. */
  lemma NoSpaceEnds(s: string)
    requires |s| > 0 && !IsSpace(s[0]) && !IsSpace(s[|s| - 1])
    ensures ParseInt(s) == ParseSigned(s)
  {
  }

  /** A run of digits is a decimal literal with nothing to drop. */
  lemma DigitsAreLiteral(d: string)
    requires |d| > 0 && AllDigits(d)
    ensures DecimalLiteral(d)
    ensures ParseDigits(d) == Some(DigitsValue(d))
  {
    assert '_' !in d by {
      forall k | 0 <= k < |d| ensures d[k] != '_' { assert IsDigit(d[k]); }
    }
    forall i | 0 <= i < |d| - 1 ensures !DoubleAt(d, i) { assert IsDigit(d[i]); }
  }

}

=== FILE: tracker.dfy ===
/** The vocabulary the application uses to talk to its task tracker, and the
    effect each call has on one task record.  The tracker's own code is not
    part of this model: `Apply` follows its documented interface (partial
    updates, terminal transitions, cancellation only while in flight). */
module Tracker {
  import opened Wrappers
  import opened Json

  datatype Status = Queued | Running | Completed | Failed | Cancelled

  function StatusName(s: Status): string
  {
    match s
    case Queued => "queued"
    case Running => "running"
    case Completed => "completed"
    case Failed => "failed"
    case Cancelled => "cancelled"
  }

  predicate IsTerminal(s: Status)
  {
    s == Completed || s == Failed || s == Cancelled
  }

  /** One call into the tracker, as the callers issue it. */
  datatype Call =
    | AddTask(taskId: string, taskType: string, status: Status, details: Value)
    | CreateTask(taskType: string, params: Value, description: string)
    | UpdateTask(taskId: string, newStatus: Option<Status>, newProgress: Option<nat>,
                 newMessage: Option<Value>, newResult: Option<Value>)
    | UpdateTaskProgress(taskId: string, percent: nat)
    | CompleteTask(taskId: string, success: bool, result: Option<Value>)
    | CancelTask(taskId: string)
    | GetTask(taskId: string)
    | ListResumableTasks

  /** The fields of one task record that callers observe. */
  datatype Record = Record(status: Status, progress: nat, message: Option<Value>, result: Option<Value>)

  function Fresh(status: Status): Record
  {
    Record(status, 0, None, None)
  }

  /** Does `c` change the record stored under `id`? */
  predicate Targets(c: Call, id: string)
  {
    (c.UpdateTask? || c.UpdateTaskProgress? || c.CompleteTask? || c.CancelTask?) && c.taskId == id
  }

  /** `cancel_task` succeeds only while the task is queued or running. */
  predicate CancelAccepted(r: Record)
  {
    r.status == Queued || r.status == Running
  }

  /** The effect of one call on the record stored under `id`. */
  function Apply(id: string, r: Record, c: Call): (r': Record)
    ensures !Targets(c, id) ==> r' == r
    ensures c.UpdateTask? && c.taskId == id ==>
      && r'.status == c.newStatus.GetOr(r.status)
      && r'.progress == c.newProgress.GetOr(r.progress)
      && r'.message == (if c.newMessage.Some? then c.newMessage else r.message)
      && r'.result == (if c.newResult.Some? then c.newResult else r.result)
    ensures c.UpdateTaskProgress? && c.taskId == id ==>
      r'.progress == c.percent && r'.status == r.status && r'.result == r.result
    ensures c.CompleteTask? && c.taskId == id ==>
      && r'.status == (if c.success then Completed else Failed)
      && (c.success ==> r'.progress == 100)
      && (!c.success ==> r'.progress == r.progress)
      && r'.result == c.result
    ensures c.CancelTask? && c.taskId == id ==>
      r'.status == (if CancelAccepted(r) then Cancelled else r.status)
  {
    if !Targets(c, id) then r
    else match c
      case UpdateTask(_, s, p, m, res) =>
        Record(s.GetOr(r.status), p.GetOr(r.progress),
               if m.Some? then m else r.message,
               if res.Some? then res else r.result)
      case UpdateTaskProgress(_, p) => r.(progress := p)
      case CompleteTask(_, ok, res) =>
        r.(status := if ok then Completed else Failed,
           progress := if ok then 100 else r.progress,
           result := res)
      case CancelTask(_) =>
        if CancelAccepted(r) then r.(status := Cancelled) else r
  }

  /** The record after a whole trace of calls, in order. */
  function Replay(id: string, r: Record, calls: seq<Call>): Record
    decreases |calls|
  {
    if |calls| == 0 then r else Replay(id, Apply(id, r, calls[0]), calls[1..])
  }

  lemma {:induction false} ReplayAppend(id: string, r: Record, a: seq<Call>, b: seq<Call>)
    ensures Replay(id, r, a + b) == Replay(id, Replay(id, r, a), b)
    decreases |a|
  {
    if |a| == 0 {
      assert a + b == b;
    } else {
      assert (a + b)[0] == a[0];
      assert (a + b)[1..] == a[1..] + b;
      ReplayAppend(id, Apply(id, r, a[0]), a[1..], b);
    }
  }

  /** Calls that never touch the record leave it as it was. */
  lemma {:induction false} ReplayUntouched(id: string, r: Record, calls: seq<Call>)
    requires forall i :: 0 <= i < |calls| ==> !Targets(calls[i], id)
    ensures Replay(id, r, calls) == r
    decreases |calls|
  {
    if |calls| > 0 {
      ReplayUntouched(id, r, calls[1..]);
    }
  }

  /** Once terminal, a record stays terminal under progress reports and
      cancellation requests: neither can bring a task back in flight. */
  lemma {:induction false} TerminalIsStable(id: string, r: Record, calls: seq<Call>)
    requires IsTerminal(r.status)
    requires forall i :: 0 <= i < |calls| ==>
      calls[i].UpdateTaskProgress? || calls[i].CancelTask? || !Targets(calls[i], id)
    ensures Replay(id, r, calls).status == r.status
    decreases |calls|
  {
    if |calls| > 0 {
      TerminalIsStable(id, Apply(id, r, calls[0]), calls[1..]);
    }
  }
}

=== FILE: update_command.dfy ===
/** The `update` command-line mode: refresh a dataset from a URL while
    reporting to the task tracker, honouring the process-wide cancellation
    signal, plus the signal handlers that raise that signal. */
module UpdateCommand {
  import opened Wrappers
  import opened Json
  import opened Tracker

  datatype UpdateArgs = UpdateArgs(url: Option<string>, datasetName: string, recursive: bool, taskId: Option<string>)

  /** Where setup can go wrong: constructing the credentials manager or the
      tracker (before the task id is bound), or anything later up to the
      dataset call (reading credentials, importing the crawler, creating the
      task). */
  datatype Setup = SetupOk | ConstructorFault(error: string) | LaterFault(error: string)

  /** What `create_dataset_from_url` did. */
  datatype DatasetOutcome = DatasetReturned(success: bool, message: Option<string>) | DatasetRaised(error: string)

  /** The world the command runs in.  `events` are the percents the dataset
      operation reports; `interruptAt` is how many of them were reported
      before an interrupt set the cancellation event (`|events|` means it was
      set after the last report but before the operation returned; larger
      means never). */
  datatype UpdateEnv = UpdateEnv(setup: Setup, hfToken: Option<string>, newTaskId: string,
                                 events: seq<nat>, interruptAt: nat, outcome: DatasetOutcome)

  /** How `run_update` ends: with an exit code, or by letting the
      exception raised in its own handler (the task id not yet bound)
      escape. */
  datatype Ending = Exit(code: int) | Unbound

  datatype UpdateRun = UpdateRun(ending: Ending, calls: seq<Call>)

  function Min(a: nat, b: nat): nat { if a <= b then a else b }

  /** The task id the run reports to. */
  function ActiveId(args: UpdateArgs, env: UpdateEnv): string
  {
    if NonEmpty(args.taskId) then args.taskId.value else env.newTaskId
  }

  /** The progress reports that reach the tracker: only those made before
      cancellation was observed. */
  function ReportedProgress(id: string, env: UpdateEnv): (cs: seq<Call>)
    ensures |cs| == Min(env.interruptAt, |env.events|)
    ensures forall i :: 0 <= i < |cs| ==> cs[i] == UpdateTaskProgress(id, env.events[i])
  {
    var n := Min(env.interruptAt, |env.events|);
    seq(n, i requires 0 <= i < n => UpdateTaskProgress(id, env.events[i]))
  }

  function CreateCall(args: UpdateArgs): Call
    requires args.url.Some?
  {
    CreateTask("url_update",
               JObj([("url", JStr(args.url.value)), ("dataset_name", JStr(args.datasetName)),
                     ("recursive", JBool(args.recursive))]),
               "Updating dataset '" + args.datasetName + "' from URL " + args.url.value)
  }

  predicate Interrupted(env: UpdateEnv)
  {
    env.interruptAt <= |env.events|
  }

  /** `run_update(args)`. */
  function RunUpdate(args: UpdateArgs, env: UpdateEnv): (r: UpdateRun)
    ensures r.ending == Exit(0) ==>
      env.setup.SetupOk? && NonEmpty(env.hfToken) && NonEmpty(args.url) && !Interrupted(env)
      && env.outcome.DatasetReturned? && env.outcome.success
    ensures (env.setup.SetupOk? && !NonEmpty(env.hfToken)) ==> r == UpdateRun(Exit(1), [])
    ensures (env.setup.SetupOk? && !NonEmpty(args.url)) ==> r.ending == Exit(1) && r.calls == []
    ensures r.ending == Unbound <==> env.setup.ConstructorFault?
    // A `url_update` task is created exactly when no id was supplied, and
    // before anything else reaches the tracker.
    ensures env.setup.SetupOk? && NonEmpty(env.hfToken) && NonEmpty(args.url) ==>
      ((|r.calls| > 0 && r.calls[0] == CreateCall(args)) <==> !NonEmpty(args.taskId))
    ensures forall i :: 0 <= i < |r.calls| && r.calls[i].CreateTask? ==> i == 0 && !NonEmpty(args.taskId)
    // The failure payloads: the operation's message (or "Unknown error"),
    // or the text of the exception.
    ensures env.setup.SetupOk? && NonEmpty(env.hfToken) && NonEmpty(args.url) && |ActiveId(args, env)| > 0 ==>
      && |r.calls| > 0
      && (env.outcome.DatasetRaised? ==>
            r.calls[|r.calls| - 1] == CompleteTask(ActiveId(args, env), false, Some(ErrorPayload(env.outcome.error))))
      && (env.outcome.DatasetReturned? && !env.outcome.success && !Interrupted(env) ==>
            r.calls[|r.calls| - 1]
            == CompleteTask(ActiveId(args, env), false, Some(ErrorPayload(env.outcome.message.GetOr("Unknown error")))))
    ensures env.setup.LaterFault? ==>
      r == UpdateRun(Exit(1), if NonEmpty(args.taskId)
                              then [CompleteTask(args.taskId.value, false, Some(ErrorPayload(env.setup.error)))]
                              else [])
  {
    var given := NonEmpty(args.taskId);
    match env.setup
    case ConstructorFault(_) => UpdateRun(Unbound, [])
    case LaterFault(e) =>
      UpdateRun(Exit(1), if given then [CompleteTask(args.taskId.value, false, Some(ErrorPayload(e)))] else [])
    case SetupOk =>
      if !NonEmpty(env.hfToken) then UpdateRun(Exit(1), [])
      else if !NonEmpty(args.url) then UpdateRun(Exit(1), [])
      else
        var create := if given then [] else [CreateCall(args)];
        var id := ActiveId(args, env);
        var tracked := |id| > 0;
        var progress := if tracked then ReportedProgress(id, env) else [];
        var (code, final) :=
          match env.outcome
          case DatasetRaised(e) => (1, CompleteTask(id, false, Some(ErrorPayload(e))))
          case DatasetReturned(ok, msg) =>
            if Interrupted(env) then (1, CancelTask(id))
            else if ok then (0, CompleteTask(id, true, None))
            else (1, CompleteTask(id, false, Some(ErrorPayload(msg.GetOr("Unknown error")))));
        UpdateRun(Exit(code), create + progress + (if tracked then [final] else []))
  }

  /** `main()` turns any escaping exception into exit status 1. */
  function MainExitCode(r: UpdateRun): (code: int)
    ensures code == 0 || code == 1
    ensures r.ending.Exit? && (r.ending.code == 0 || r.ending.code == 1) ==> code == r.ending.code
  {
    match r.ending
    case Exit(c) => if c == 0 then 0 else 1
    case Unbound => 1
  }

  // ---------------------------------------------------------------- lemmas

  /** Cancellation is cooperative but final: no progress report made after
      the cancellation event was observed reaches the tracker. */
  lemma NoProgressAfterCancellation(args: UpdateArgs, env: UpdateEnv)
    ensures forall i :: 0 <= i < |RunUpdate(args, env).calls| && RunUpdate(args, env).calls[i].UpdateTaskProgress? ==>
      exists j :: 0 <= j < env.interruptAt && j < |env.events| && RunUpdate(args, env).calls[i].percent == env.events[j]
  {
    var r := RunUpdate(args, env);
    if env.setup.SetupOk? && NonEmpty(env.hfToken) && NonEmpty(args.url) {
      var create := if NonEmpty(args.taskId) then [] else [CreateCall(args)];
      var id := ActiveId(args, env);
      var progress := if |id| > 0 then ReportedProgress(id, env) else [];
      forall i | 0 <= i < |r.calls| && r.calls[i].UpdateTaskProgress?
        ensures exists j :: 0 <= j < env.interruptAt && j < |env.events| && r.calls[i].percent == env.events[j]
      {
        assert |create| <= i < |create| + |progress|;
        assert r.calls[i] == progress[i - |create|];
      }
    }
  }

  /** Whenever the command reached the dataset step with a task to report
      to, that task ends in a terminal state: completed exactly on exit 0,
      cancelled exactly when an interrupt was observed, failed otherwise. */
  lemma {:induction false} UpdateLeavesTaskTerminal(args: UpdateArgs, env: UpdateEnv)
    requires env.setup.SetupOk? && NonEmpty(env.hfToken) && NonEmpty(args.url)
    requires |ActiveId(args, env)| > 0
    ensures var id := ActiveId(args, env);
            var rec := Replay(id, Fresh(Queued), RunUpdate(args, env).calls);
            && IsTerminal(rec.status)
            && (rec.status == Completed <==> RunUpdate(args, env).ending == Exit(0))
            && (rec.status == Cancelled <==> env.outcome.DatasetReturned? && Interrupted(env))
            && (rec.status == Completed ==> rec.progress == 100)
  {
    var id := ActiveId(args, env);
    var r := RunUpdate(args, env);
    var create := if NonEmpty(args.taskId) then [] else [CreateCall(args)];
    var progress := ReportedProgress(id, env);
    var final :=
      match env.outcome
      case DatasetRaised(e) => CompleteTask(id, false, Some(ErrorPayload(e)))
      case DatasetReturned(ok, msg) =>
        if Interrupted(env) then CancelTask(id)
        else if ok then CompleteTask(id, true, None)
        else CompleteTask(id, false, Some(ErrorPayload(msg.GetOr("Unknown error"))));
    assert r.calls == (create + progress) + [final];
    ReplayAppend(id, Fresh(Queued), create + progress, [final]);
    ReplayAppend(id, Fresh(Queued), create, progress);
    ReplayUntouched(id, Fresh(Queued), create);
    ProgressOnlyMovesProgress(id, Fresh(Queued), progress);
  }

  lemma {:induction false} ProgressOnlyMovesProgress(id: string, r: Record, cs: seq<Call>)
    requires forall i :: 0 <= i < |cs| ==> cs[i].UpdateTaskProgress?
    ensures Replay(id, r, cs).status == r.status
    decreases |cs|
  {
    if |cs| > 0 {
      ProgressOnlyMovesProgress(id, Apply(id, r, cs[0]), cs[1..]);
    }
  }

  // ---------------------------------------------------------------- signals

  datatype Signal = SigInt | SigTerm

  /** The process-wide flags the handlers set and the signals that still
      have the application's handler installed. */
  datatype SignalState = SignalState(cancelRequested: bool, exitRequested: bool, installed: set<Signal>)

  datatype SignalEffect = Handled(notice: string) | DefaultAction

  function InstallHandlers(): (s: SignalState)
    ensures !s.cancelRequested && !s.exitRequested && s.installed == {SigInt, SigTerm}
  {
    SignalState(false, false, {SigInt, SigTerm})
  }

  function Notice(sig: Signal): string
  {
    match sig
    case SigInt => "\n\nReceived interrupt signal (Ctrl+C). Cancelling operations and shutting down..."
    case SigTerm => "\n\nReceived termination signal. Cancelling operations and shutting down..."
  }

  /** Delivering a signal: the application's handler sets the cancellation
      event and the exit flag, then restores the default disposition for
      that signal; once restored, the operating system's default applies. */
  function Deliver(s: SignalState, sig: Signal): (r: (SignalState, SignalEffect))
    ensures sig in s.installed ==> r.0.cancelRequested && r.0.exitRequested && r.1.Handled?
    ensures sig !in r.0.installed
    ensures r.0.installed <= s.installed
    ensures sig !in s.installed ==> r == (s, DefaultAction)
  {
    if sig in s.installed then
      (SignalState(true, true, s.installed - {sig}), Handled(Notice(sig)))
    else (s, DefaultAction)
  }

  function DeliverAll(s: SignalState, sigs: seq<Signal>): SignalState
    decreases |sigs|
  {
    if |sigs| == 0 then s else DeliverAll(Deliver(s, sigs[0]).0, sigs[1..])
  }

  /** The signals occurring in a delivery sequence. */
  function Seen(sigs: seq<Signal>): set<Signal>
    decreases |sigs|
  {
    if |sigs| == 0 then {} else {sigs[0]} + Seen(sigs[1..])
  }

  /** Each kind of signal reaches the application's handler at most once:
      after any delivery sequence the handler is gone for every signal that
      occurred, and the flags are set as soon as one was handled and stay
      set. */
  lemma {:induction false} HandledAtMostOnce(s: SignalState, sigs: seq<Signal>)
    ensures DeliverAll(s, sigs).installed == s.installed - Seen(sigs)
    ensures s.cancelRequested ==> DeliverAll(s, sigs).cancelRequested
    ensures s.exitRequested ==> DeliverAll(s, sigs).exitRequested
    ensures s.installed * Seen(sigs) != {} ==>
      DeliverAll(s, sigs).cancelRequested && DeliverAll(s, sigs).exitRequested
    decreases |sigs|
  {
    if |sigs| > 0 {
      var s1 := Deliver(s, sigs[0]).0;
      HandledAtMostOnce(s1, sigs[1..]);
      if sigs[0] !in s.installed {
        assert s.installed * Seen(sigs) == s1.installed * Seen(sigs[1..]);
      }
    }
  }
}

=== FILE: wizard.dfy ===
/** The text-UI configuration screen: the nine-step setup wizard, how it
    echoes what was typed, what it saves at the end, and the two-step
    server configuration. */
module Wizard {
  import opened Wrappers
  import opened Text

  /** The wizard's steps; the collected values are keyed by them. */
  datatype Step =
    | HfUsername | HfToken | AwsAccessKey | AwsSecretKey | AwsRegion
    | Neo4jUri | Neo4jUsername | Neo4jPassword | GithubToken

  /** The name of a step, as the screen shows it and stores it. */
  function StepName(s: Step): string
  {
    match s
    case HfUsername => "hf_username"
    case HfToken => "hf_token"
    case AwsAccessKey => "aws_access_key"
    case AwsSecretKey => "aws_secret_key"
    case AwsRegion => "aws_region"
    case Neo4jUri => "neo4j_uri"
    case Neo4jUsername => "neo4j_username"
    case Neo4jPassword => "neo4j_password"
    case GithubToken => "github_token"
  }

  const ConfigSteps: seq<Step> := [
    HfUsername, HfToken, AwsAccessKey, AwsSecretKey, AwsRegion,
    Neo4jUri, Neo4jUsername, Neo4jPassword, GithubToken]

  const DefaultRegion := "us-east-1"

  /** No step is listed twice. */
  lemma StepsDistinct()
    ensures forall i, j :: 0 <= i < j < |ConfigSteps| ==> ConfigSteps[i] != ConfigSteps[j]
  {
  }

  // -------------------------------------------------------------- display

  /** The steps echoed as stars, as the screen lists them. */
  const MaskedAsWritten: seq<string> := ["hf_token", "openai_key", "neo4j_password", "github_token"]

  /** The steps whose values are secrets: the tokens and passwords, and the
      AWS secret key, which the screen's credential listing also hides. */
  const SecretSteps: seq<string> := ["hf_token", "aws_secret_key", "neo4j_password", "github_token"]

  /** A masked echo: one star per character, or "(empty)". */
  function Stars(value: string): (r: string)
    ensures |value| > 0 ==> |r| == |value| && forall i :: 0 <= i < |r| ==> r[i] == '*'
    ensures |value| == 0 ==> r == "(empty)"
  {
    if |value| > 0 then Repeat('*', |value|) else "(empty)"
  }

  /** The echo of a typed value as written: the AWS secret key is not in
      the masked list, so it is echoed verbatim. */
  function DisplayAsWritten(step: string, value: string): (r: string)
    ensures step in MaskedAsWritten ==> r == Stars(value)
    ensures step !in MaskedAsWritten ==> r == value
  {
    if step in MaskedAsWritten then Stars(value) else value
  }

  /** The AWS secret key typed into the wizard appears on screen as typed. */
  lemma AwsSecretIsEchoed(value: string)
    ensures DisplayAsWritten("aws_secret_key", value) == value
  {
  }

  /** The echo with every secret step masked. */
  function Display(step: string, value: string): (r: string)
    ensures step in SecretSteps || step in MaskedAsWritten ==> r == Stars(value)
    ensures step !in SecretSteps && step !in MaskedAsWritten ==> r == value
  {
    if step in SecretSteps || step in MaskedAsWritten then Stars(value) else DisplayAsWritten(step, value)
  }

  /** No character of a secret value reaches the screen, and the corrected
      echo differs from the written one only on the AWS secret key. */
  lemma DisplayHidesSecrets(step: string, value: string)
    ensures step in SecretSteps ==> forall c :: c in Display(step, value) ==> c == '*' || c in "(empty)"
    ensures step != "aws_secret_key" ==> Display(step, value) == DisplayAsWritten(step, value)
  {
  }

  // ---------------------------------------------------------------- state

  datatype Mode =
    | Idle
    | SetupWizard(step: nat, values: map<Step, string>)
    | ServerConfig(step: nat)

  datatype Action =
    | SaveHuggingface(username: string, token: string)
    | SaveAws(accessKey: string, secretKey: string, region: string)
    | SaveNeo4j(uri: string, username: string, password: string)
    | SaveGithub(token: string)
    | SaveServerPort(port: string)
    | SaveTempDir(path: string)

  /** A save that raises: which of the four wizard saves, and its text. */
  datatype SaveFailure = SaveFailure(at: nat, error: string)

  datatype Outcome = Outcome(mode: Mode, labels: seq<string>, prompt: Option<string>, actions: seq<Action>)

  /** The prompt shown for a wizard step after the first. */
  function StepPrompt(step: string): (r: string)
    ensures |r| == |step| + |"Enter "| + |"..."|
    ensures StartsWith(r, "Enter ") && EndsWith(r, "...")
  {
    var t := Title(ReplaceChar(step, '_', ' '));
    "Enter " + t + "..."
  }

  /** The prompt spells the step's name, underscores read as spaces, up
      to the case of letters, and capitalises its first letter. */
  lemma PromptSpellsStep(step: string)
    ensures forall i :: 0 <= i < |step| ==>
      ToLower(StepPrompt(step)[6 + i]) == ToLower(if step[i] == '_' then ' ' else step[i])
    ensures |step| > 0 && IsLetter(step[0]) ==> StepPrompt(step)[6] == ToUpper(step[0])
  {
    var spaced := ReplaceChar(step, '_', ' ');
    TitleKeepsLetters(spaced, false);
    var r := StepPrompt(step);
    assert r == "Enter " + Title(spaced) + "...";
    forall i | 0 <= i < |step|
      ensures ToLower(r[6 + i]) == ToLower(if step[i] == '_' then ' ' else step[i])
    {
      assert r[6 + i] == Title(spaced)[i];
    }
    if |step| > 0 && IsLetter(step[0]) {
      assert r[6] == Title(spaced)[0];
    }
  }

  /** The wizard opens at step 0 with nothing collected. */
  const WizardStart := Outcome(SetupWizard(0, map[]), ["Running Setup Wizard...", "Enter your credentials in the fields below:"],
                               Some("Enter HuggingFace username..."), [])

  // ----------------------------------------------------------------- save

  /** `_save_wizard_config`: the four saves in order, each followed by its
      label; a raising save stops the rest and is reported. */
  function SaveWizard(values: map<Step, string>, failure: Option<SaveFailure>): (r: (seq<Action>, seq<string>))
    ensures |r.0| == 4
    ensures r.0[0] == SaveHuggingface(Value(values, HfUsername, ""), Value(values, HfToken, ""))
    ensures r.0[1] == SaveAws(Value(values, AwsAccessKey, ""), Value(values, AwsSecretKey, ""),
                              Value(values, AwsRegion, DefaultRegion))
    ensures r.0[2] == SaveNeo4j(Value(values, Neo4jUri, ""), Value(values, Neo4jUsername, ""),
                                Value(values, Neo4jPassword, ""))
    ensures r.0[3] == SaveGithub(Value(values, GithubToken, ""))
    ensures |r.1| > 0
    ensures failure.None? ==> r.1[|r.1| - 1] == "Setup Wizard completed."
    ensures failure.Some? && failure.value.at < 4 ==> r.1[|r.1| - 1] == "Error saving configuration: " + failure.value.error
  {
    var calls := [SaveHuggingface(Value(values, HfUsername, ""), Value(values, HfToken, "")),
                  SaveAws(Value(values, AwsAccessKey, ""), Value(values, AwsSecretKey, ""),
                          Value(values, AwsRegion, DefaultRegion)),
                  SaveNeo4j(Value(values, Neo4jUri, ""), Value(values, Neo4jUsername, ""),
                            Value(values, Neo4jPassword, "")),
                  SaveGithub(Value(values, GithubToken, ""))];
    var saved := ["HuggingFace credentials saved.", "AWS credentials saved.", "Neo4j credentials saved.", "GitHub token saved."];
    match failure
    case Some(f) =>
      if f.at < 4 then (calls, saved[..f.at] + ["Error saving configuration: " + f.error])
      else (calls, saved + ["Setup Wizard completed."])
    case None => (calls, saved + ["Setup Wizard completed."])
  }

  /** `config_values.get(key, default)`. */
  function Value(values: map<Step, string>, key: Step, default: string): string
  {
    if key in values then values[key] else default
  }

  /** The saves that actually run: up to and including the one that
      raises. */
  function Attempted(values: map<Step, string>, failure: Option<SaveFailure>): (r: seq<Action>)
    ensures failure.Some? && failure.value.at < 4 ==> |r| == failure.value.at + 1
    ensures failure.None? ==> |r| == 4
  {
    var calls := SaveWizard(values, failure).0;
    if failure.Some? && failure.value.at < 4 then calls[..failure.value.at + 1] else calls
  }

  // --------------------------------------------------------------- submit

  /** A wizard submission: store the value under the current step, echo
      it, then prompt for the next step or, after the last, save and stop. */
  function WizardSubmit(step: nat, values: map<Step, string>, value: string, failure: Option<SaveFailure>): (o: Outcome)
    requires step < |ConfigSteps|
    ensures step + 1 < |ConfigSteps| ==>
      o.mode == SetupWizard(step + 1, values[ConfigSteps[step] := value]) && o.actions == []
      && o.prompt == Some(StepPrompt(StepName(ConfigSteps[step + 1])))
    ensures step + 1 == |ConfigSteps| ==>
      o.mode == Idle && o.actions == Attempted(values[ConfigSteps[step] := value], failure) && o.prompt.None?
    ensures |o.labels| > 0
    ensures o.labels[0] == "Set " + StepName(ConfigSteps[step]) + ": " + DisplayAsWritten(StepName(ConfigSteps[step]), value)
  {
    var name := ConfigSteps[step];
    var values' := values[name := value];
    var echo := "Set " + StepName(name) + ": " + DisplayAsWritten(StepName(name), value);
    if step + 1 < |ConfigSteps| then
      Outcome(SetupWizard(step + 1, values'), [echo], Some(StepPrompt(StepName(ConfigSteps[step + 1]))), [])
    else
      Outcome(Idle, [echo] + SaveWizard(values', failure).1, None, Attempted(values', failure))
  }

  /** A server-configuration submission: the port, then the directory. */
  function ServerSubmit(step: nat, value: string): (o: Outcome)
    ensures step == 0 ==> o.mode == ServerConfig(1) && o.actions == [SaveServerPort(value)]
    ensures step == 1 ==> o.mode == Idle && o.actions == [SaveTempDir(value)]
    ensures step > 1 ==> o == Outcome(ServerConfig(step), [], None, [])
  {
    if step == 0 then
      Outcome(ServerConfig(1), ["Server port updated to: " + value], Some("Enter temporary directory path..."),
              [SaveServerPort(value)])
    else if step == 1 then
      Outcome(Idle, ["Temporary directory updated to: " + value, "Server configuration completed."], None,
              [SaveTempDir(value)])
    else Outcome(ServerConfig(step), [], None, [])
  }

  /** `_process_config_input` for one submitted value.  Outside both flows
      a submission does nothing. */
  function Submit(m: Mode, value: string, failure: Option<SaveFailure>): (o: Outcome)
    requires m.SetupWizard? ==> m.step < |ConfigSteps|
    ensures m.Idle? ==> o == Outcome(Idle, [], None, [])
  {
    match m
    case Idle => Outcome(Idle, [], None, [])
    case SetupWizard(step, values) => WizardSubmit(step, values, value, failure)
    case ServerConfig(step) => ServerSubmit(step, value)
  }

  /** Whether a mode can receive a submission (the wizard's step is always
      one of its nine). */
  predicate Valid(m: Mode)
  {
    m.SetupWizard? ==> m.step < |ConfigSteps|
  }

  /** A run of submissions from a mode: the final mode and every action. */
  function Run(m: Mode, inputs: seq<string>): (r: (Mode, seq<Action>))
    requires Valid(m)
    ensures Valid(r.0)
    decreases |inputs|
  {
    if |inputs| == 0 then (m, [])
    else
      var o := Submit(m, inputs[0], None);
      var rest := Run(o.mode, inputs[1..]);
      (rest.0, o.actions + rest.1)
  }

  /** `values` holds the first `n` typed values, each under its step. */
  predicate Holds(values: map<Step, string>, inputs: seq<string>, n: nat)
    requires n <= |inputs| && n <= |ConfigSteps|
  {
    forall i :: 0 <= i < n ==> ConfigSteps[i] in values && values[ConfigSteps[i]] == inputs[i]
  }

  /** Storing the next typed value keeps the earlier ones. */
  lemma StoreNext(values: map<Step, string>, inputs: seq<string>, k: nat)
    requires k < |inputs| && k < |ConfigSteps| && Holds(values, inputs, k)
    ensures Holds(values[ConfigSteps[k] := inputs[k]], inputs, k + 1)
  {
    StepsDistinct();
  }

  /** Mid-wizard, each submission moves exactly one step on, storing the
      value under that step's name, and saves nothing. */
  lemma {:induction false} WizardAdvances(k: nat, values: map<Step, string>, inputs: seq<string>)
    requires k <= |inputs| && |inputs| < |ConfigSteps| && Holds(values, inputs, k)
    ensures var r := Run(SetupWizard(k, values), inputs[k..]);
      r.1 == [] && r.0.SetupWizard? && r.0.step == |inputs| && Holds(r.0.values, inputs, |inputs|)
    decreases |inputs| - k
  {
    if k < |inputs| {
      WizardStep(k, values, inputs);
      StoreNext(values, inputs, k);
      WizardAdvances(k + 1, values[ConfigSteps[k] := inputs[k]], inputs);
    } else {
      assert inputs[k..] == [];
    }
  }

  /** A submission before the last step only moves the wizard on. */
  lemma WizardStep(k: nat, values: map<Step, string>, inputs: seq<string>)
    requires k < |inputs| && k + 1 < |ConfigSteps|
    ensures Run(SetupWizard(k, values), inputs[k..])
         == Run(SetupWizard(k + 1, values[ConfigSteps[k] := inputs[k]]), inputs[k + 1..])
  {
    var m := SetupWizard(k, values);
    var rest := inputs[k..];
    assert rest[0] == inputs[k] && rest[1..] == inputs[k + 1..];
    var o := WizardSubmit(k, values, inputs[k], None);
    assert Submit(m, rest[0], None) == o;
    var after := Run(o.mode, rest[1..]);
    assert Run(m, rest) == (after.0, o.actions + after.1);
    assert o.actions + after.1 == after.1;
  }

  /** The saves made with the nine typed values. */
  function TypedSaves(inputs: seq<string>): seq<Action>
    requires |inputs| == |ConfigSteps|
  {
    [SaveHuggingface(inputs[0], inputs[1]), SaveAws(inputs[2], inputs[3], inputs[4]),
     SaveNeo4j(inputs[5], inputs[6], inputs[7]), SaveGithub(inputs[8])]
  }

  /** A map holding each step's typed value saves exactly those values. */
  lemma SavesTypedValues(values: map<Step, string>, inputs: seq<string>)
    requires |inputs| == |ConfigSteps| && Holds(values, inputs, |inputs|)
    ensures Attempted(values, None) == TypedSaves(inputs)
  {
  }

  /** Nine submissions complete the wizard: it returns to idle and saves,
      once, exactly the nine values typed, in order. */
  lemma {:induction false} WizardCompletes(k: nat, values: map<Step, string>, inputs: seq<string>)
    requires |inputs| == |ConfigSteps| && k < |ConfigSteps| && Holds(values, inputs, k)
    ensures Run(SetupWizard(k, values), inputs[k..]) == (Idle, TypedSaves(inputs))
    decreases |inputs| - k
  {
    if k + 1 < |ConfigSteps| {
      WizardStep(k, values, inputs);
      StoreNext(values, inputs, k);
      WizardCompletes(k + 1, values[ConfigSteps[k] := inputs[k]], inputs);
    } else {
      WizardLastStep(values, inputs);
    }
  }

  /** The ninth submission saves the nine values and ends the wizard. */
  lemma WizardLastStep(values: map<Step, string>, inputs: seq<string>)
    requires |inputs| == |ConfigSteps| && Holds(values, inputs, |ConfigSteps| - 1)
    ensures Run(SetupWizard(|ConfigSteps| - 1, values), inputs[|ConfigSteps| - 1..]) == (Idle, TypedSaves(inputs))
  {
    var k := |ConfigSteps| - 1;
    var m := SetupWizard(k, values);
    var rest := inputs[k..];
    assert rest == [inputs[k]];
    var values' := values[ConfigSteps[k] := inputs[k]];
    var o := WizardSubmit(k, values, inputs[k], None);
    assert Submit(m, rest[0], None) == o;
    StoreNext(values, inputs, k);
    SavesTypedValues(values', inputs);
    assert rest[1..] == [];
    assert o.mode == Idle && o.actions == TypedSaves(inputs);
    assert Run(o.mode, rest[1..]) == (Idle, []);
    assert Run(m, rest) == (Idle, o.actions + []);
    assert o.actions + [] == o.actions;
  }

  /** So the wizard's own "us-east-1" default is never used: an empty
      region field is saved as the empty string. */
  lemma WizardSavesTypedRegion(inputs: seq<string>)
    requires |inputs| == |ConfigSteps| && inputs[4] == ""
    ensures Run(WizardStart.mode, inputs) == (Idle, TypedSaves(inputs))
    ensures TypedSaves(inputs)[1] == SaveAws(inputs[2], inputs[3], "")
  {
    assert inputs[0..] == inputs;
    WizardCompletes(0, map[], inputs);
  }

  /** Once idle, further submissions change nothing. */
  lemma {:induction false} IdleIgnoresInput(inputs: seq<string>)
    ensures Run(Idle, inputs) == (Idle, [])
    decreases |inputs|
  {
    if |inputs| > 0 {
      IdleIgnoresInput(inputs[1..]);
      var o := Submit(Idle, inputs[0], None);
      assert o.mode == Idle && o.actions == [];
      assert o.actions + Run(o.mode, inputs[1..]).1 == [];
    }
  }

  /** Server configuration saves the port, then the temporary directory,
      and ends. */
  lemma ServerConfigTwoSteps(port: string, dir: string, more: seq<string>)
    ensures Run(ServerConfig(0), [port, dir] + more) == (Idle, [SaveServerPort(port), SaveTempDir(dir)])
  {
    var s := [port, dir] + more;
    assert s[0] == port && s[1..] == [dir] + more;
    assert s[1..][0] == dir && s[1..][1..] == more;
    IdleIgnoresInput(more);
    assert Run(ServerConfig(1), [dir] + more) == (Idle, [SaveTempDir(dir)] + []);
    assert [SaveServerPort(port)] + ([SaveTempDir(dir)] + []) == [SaveServerPort(port), SaveTempDir(dir)];
  }
}

=== FILE: wrappers.dfy ===
/** Optional values and results, the shapes the Python code expresses with
    `None` and with exceptions. */
module Wrappers {

  datatype Option<T> = None | Some(value: T) {

    /** `value if value is not None else default`. */
    function GetOr(default: T): (r: T)
      ensures this.Some? ==> r == this.value
      ensures this.None? ==> r == default
    {
      match this
      case Some(v) => v
      case None => default
    }
  }

  datatype Result<T, E> = Ok(value: T) | Err(error: E)

  /** Python truthiness of an optional string: `None` and `""` are false. */
  predicate NonEmpty(o: Option<string>)
  {
    o.Some? && |o.value| > 0
  }

  /** `o or default` for an optional string. */
  function OrDefault(o: Option<string>, default: string): (r: string)
    ensures NonEmpty(o) ==> r == o.value
    ensures !NonEmpty(o) ==> r == default
  {
    if NonEmpty(o) then o.value else default
  }
}
